=== FILE: README.md ===
# Autograder comparison-and-verdict engine in Dafny

This project models the core of a small Python autograding harness. The
harness runs a student's submission next to a reference solution, compares the
two, and turns the comparison into a verdict, a log for the student and a
score. The model covers two generations of the harness:

- **The current API** (`util.py`, `result.py`, `sanity.py`, `autograder.py`):
  - Four kinds of test case each produce one verdict: return value, printed
    transcript, interactive script, and class-interface client.
  - `Autograder.run` runs the tests in order, logs two lines per test, stops
    after the first failure, and gives full credit or the fallback score.
- **The legacy API** (`autograding.py`):
  - A `Problem` owns a `Session` that keeps an external log (shown to the
    student), an internal log, and a score.
  - `batch_test` / `batch_test_io` feed inputs one by one until a test
    answers false.
  - The legacy structural check (`Session.compare`) and the transcript
    comparator (`compare_logs`) are modelled as written.
- **The digital-root example** (`ta_digital_root.py`, `digital_root2.py`):
  the reference and a submission that is wrong only on 1729. The `Scenarios`
  lemmas trace it end to end through both modelled APIs.

Everything is pure functions over immutable datatypes. Importing modules,
capturing stdout, and running scripts are not computed by the model. They come
from an environment `Host.Env`: a map from module name to a module descriptor
(functions as callables that return a value and their printed text, or raise)
and a map from script name to a stdin-to-transcript function. An exception
that escapes the harness is an `Err` carrying Python's message.

Several behaviours of the source are kept exactly as written and proved as
such:

- util.py's `ReturnValueDiscrepancy.__str__` reads a `line_number` it never
  set (util.py:54). Rendering that verdict therefore raises, and on the
  digital-root example `Autograder.run` ends with that exception after the
  first test.
- util.py's `compare_outputs` stores the student's line in the
  `expected_line` slot and the reference's in the `student_line` slot
  (util.py:66, 68-74).
- `sanity.compare` reports missing classes only when the reference's class
  names are a strict superset of the submission's (sanity.py:84).
- `FunctionTest.run` treats `compare`'s result object as a boolean, which is
  always true, so the interface gate never fires (autograder.py:237).
- The hidden branch of `compare_logs` tests `len(...) == 0` and then indexes
  `[-1]`, so an empty hidden output raises (autograding.py:500).
- A failed hidden test is logged internally as "returned the correct result"
  (autograding.py:455).

Python notions the model spells out:

- `str.strip`, `str.split('\n')`, `str.split()`, `' '.join`;
- `str`/`repr` of `None`, booleans, integers and strings;
- `==` across `bool` and `int`;
- `arglist_str`.

Set iteration order (hash order in Python) is replaced by ascending code-point
order wherever the source iterates over a set.

## Model

| member | source | states |
|---|---|---|
| Values.PyEqEquivalence | util.py:94 | Python `==` on the modelled values is reflexive, symmetric and transitive |
| Values.PyRepr | autograding.py:470 | `repr` of a string is quoted with the same quote at both ends; every other value shows as its `str` |
| Values.FormatArgs | autograder.py:199-206 | each argument is formatted on its own, in order, one string per argument |
| Values.ArglistStr | autograder.py:199-206 | the argument list is shown in parentheses, with the formatted arguments joined by commas |
| Values.ArglistStrRecoversArguments | autograder.py:199-206 | splitting the inside of `arglist_str` at commas gives back each formatted argument, when no argument shows a comma |
| Values.ListStr | autograding.py:237 | `str` of an argument list is bracketed, and inside the brackets are the arguments' `repr`s joined by `, ` |
| Values.ListStrRecoversArguments | autograding.py:237 | when no `repr` contains a comma, splitting the inside at commas gives one piece per argument: the first `repr`, then each later one after a space |
| Text.TrimLeft | util.py:62-63 | the left trim drops a prefix made only of whitespace and leaves no whitespace in front |
| Text.TrimRight | util.py:62-63 | the right trim drops a suffix made only of whitespace and leaves no whitespace at the end |
| Text.Strip | util.py:62-63 | `strip` leaves no whitespace at either end and never lengthens the text |
| Text.StripPadding | util.py:62-63 | whitespace added around a text does not change its stripped form |
| Text.Split | util.py:62-63 | `split('\n')` yields one more piece than there are line breaks; no piece contains a line break; joining the pieces gives the text back |
| Text.SplitJoin | autograding.py:670-676 | splitting a join of break-free pieces gives the pieces back |
| Text.Words | autograder.py:294 | `split()` yields non-empty words without whitespace |
| Text.WordsOfJoin | autograder.py:294 | splitting a space-joined list of words gives the words back |
| Text.CollapseIdempotent | autograder.py:294 | normalising spacing twice is normalising once |
| Text.CollapseSingleLine | autograder.py:407-408 | a spacing-normalised text has no line break, so it is a single line |
| Text.LeastName | sanity.py:35 | the chosen name is in the set and comes first in code-point order |
| Text.SortedNames | sanity.py:35 | a set's names listed once each, in ascending order, and nothing else |
| Text.ParseNatToString | autograding.py:485-486 | the decimal rendering of a count reads back as that count |
| Text.NatToStringInjective | autograding.py:485-486 | different counts render differently |
| Results.RenderingShowsOutcome | result.py:11-93 | only `CorrectResult` passes; it renders as `Correct!`, and every failing verdict opens with the separator line |
| Results.LineRenderingNamesLine | result.py:69-75 | a line discrepancy's rendering opens with the separator and a headline naming its line number |
| Results.InterfaceRenderingKeepsMessage | result.py:49-55 | an interface discrepancy renders its message, and different messages render differently |
| Util.Str | util.py:8-57 | util.py's rendering succeeds exactly for verdicts other than a return-value discrepancy, which raises on the missing `line_number`, and an interface discrepancy, which util.py does not define |
| Util.Render | util.py:8-57 | a verdict built by result.py renders with result.py's `__str__` |
| Util.StripAll | util.py:62-63 | every line is stripped, and no line is added or dropped |
| Util.Lines | util.py:62-63 | the compared lines are as many as the line breaks plus one |
| Util.CompareLines | util.py:64-75 | correct exactly when both sides have as many lines and all pairs agree; otherwise the report is at the first disagreeing pair, or one past the shorter side |
| Util.CompareOutputs | util.py:61-75 | the differ yields only `CorrectResult` or `LineDiscrepancy`, correct exactly when the stripped lines agree pairwise and are equally many |
| Util.LineNumberInRange | util.py:64-74 | a reported line number lies between 1 and the longer side's line count |
| Util.IdenticalLinesCorrect | util.py:61-75 | a text compared with itself is correct |
| Util.SkipAgreeing | util.py:64-66 | skipping pairs that agree does not change where the differ reports, and agreement holds on every shorter prefix |
| Util.FirstFailureReported | util.py:64-66 | the first disagreeing pair is reported with its 1-based number |
| Util.ExtraLineReported | util.py:67-74 | when one side is a strict extension of the other, the first extra line is reported and the missing side is `None` |
| Util.PaddingIgnored | util.py:62-63 | whitespace around each line does not change what is compared |
| DifferExamples.TrailingNewlineMismatch | util.py:62-74 | a trailing line break on one side alone makes an extra empty line 2 |
| Util.SwapSymmetric | util.py:64-74 | with a symmetric line test, swapping the two line lists keeps the verdict kind and the line number and swaps the two stored lines |
| Util.SwapTexts | util.py:61-75 | the same, stated for `compare_outputs` itself |
| DifferExamples.StudentLineStoredFirst | unit.py:21-23 | on the unit test's third-line mismatch the student's line is stored in the expected slot, the reverse of what that test expects |
| DifferExamples.ThirdLineDiffers | util.py:64-66 | two transcripts that agree on two lines and differ on the third are reported at line 3 |
| DifferExamples.DiffersAtThird | util.py:64-66 | any two three-line transcripts that differ only on the third line are reported at line 3, with the student's line stored first |
| DifferExamples.LinesOfJoin | util.py:62-63 | the lines of a joined list of stripped, break-free lines are that list |
| Util.SpacingInsensitive | autograder.py:294 | the spacing-insensitive comparison is symmetric and treats a text as equal to its normalised form |
| Util.CompareFunctions | util.py:94-105 | correct exactly when both calls return and the results are `==`; a failing call is a crash carrying its exception, the submission's first, so a raising reference alone yields a crash with the reference's exception; otherwise the discrepancy stores the reference's value first |
| Util.CompareWithItself | util.py:94-105 | a function compared with itself is correct exactly when it does not raise |
| Sanity.ArgLine | sanity.py:37-41 | the logged line is a pass line exactly when the two parameter counts agree |
| Sanity.ArgCompareOver | sanity.py:35-42 | the loop writes one line per name and succeeds exactly when every name's counts agree |
| Sanity.ArgCompare | sanity.py:13-42 | `arg_compare` succeeds exactly when every reference function has the same parameter count in the submission |
| Sanity.TopLevel | sanity.py:64-74 | the top-level stage passes exactly when the top-level functions match |
| Sanity.ClassNames | sanity.py:84-88 | the class-name stage fails exactly when the reference's class names strictly contain the submission's |
| Sanity.ClassStep | sanity.py:91-104 | one class keeps `all_there` exactly when its methods are all present with the same parameter counts; the log only grows |
| Sanity.ClassLoop | sanity.py:91-104 | the class loop keeps `all_there` exactly when every listed class's methods match |
| Sanity.ClassesMatchCons | sanity.py:91-104 | every listed class matches exactly when the first one matches and every later one does |
| Sanity.CommonClassesMatch | sanity.py:81-91 | checking the listed common names is checking every class both sides define |
| Sanity.Check | sanity.py:59-104 | the three stages together decide `SanityAccepts` |
| Sanity.Compare | sanity.py:45-109 | `compare` yields `CorrectResult` exactly when `SanityAccepts` holds, else an interface discrepancy |
| Sanity.MissingFunctionFails | sanity.py:66-73 | a reference function missing from the submission fails, and the message opens by naming the submission module |
| Sanity.CompareLogExtendsTopLevel | sanity.py:74-107 | a failing message starts with the top-level stage's log |
| Sanity.ClassLoopExtendsLog | sanity.py:91-104 | the class loop only appends to the log |
| Sanity.ClassNamesExtendsLog | sanity.py:84-88 | the class-name stage only appends to the log |
| Sanity.ExtrasNeverFail | sanity.py:64-104 | a passing submission keeps passing when it adds functions, classes or methods |
| Sanity.RenamedClassNotFlagged | sanity.py:84 | a misspelled class name is not reported missing |
| Sanity.MissingClassHiddenByExtraClass | sanity.py:84 | a missing class is reported only while the submission defines no other class |
| Host.Shape | sanity.py:4-10 | a module's interface lists exactly its functions with their parameter counts, and its classes |
| Host.Import | autograder.py:186-188 | an import succeeds exactly for a known module |
| Host.GetFunction | autograder.py:233-234 | a lookup succeeds exactly for a defined function |
| Host.LoadFunction | autograder.py:401-402 | import then lookup succeed exactly when both exist |
| Host.CallFunction | util.py:79-92 | the captured call yields the return value and the printed text exactly when the function does not raise, and yields `None`s otherwise |
| Host.StdinText | autograder.py:349-351 | the standard input can be built exactly when every argument is a string |
| Host.RunScript | autograder.py:347-370 | a script run raises only when building the input raises; an unknown script yields `None`; a known script yields its transcript on that input |
| Inputs.Mark | autograder.py:251-252 | each argument list becomes one input with the given privacy flag |
| Inputs.BatchInputs | autograder.py:251-252 | the public inputs come first and are not private; the private ones follow |
| Inputs.Zip | autograder.py:418-420 | pairs the k-th elements, cut at the shorter list |
| Records.LoadData | autograder.py:25-30 | the stored record when one exists, otherwise one attempt, previous score 0, time delta 0 |
| Records.FallbackScore | autograder.py:54 | the no-credit score is the previous score, never negative |
| Autograder.Describe | autograder.py:242-245 | the description is the function name followed by `arglist_str`, or the script name with its input; an interface test shows its first argument and raises on an empty list |
| Autograder.LoadBoth | autograder.py:230-236 | loading succeeds exactly when both modules exist and both define the function |
| Autograder.InterfaceGateNeverFires | autograder.py:237-240 | once both functions load, the verdict is `compare_functions`' verdict, never an interface discrepancy |
| Autograder.FunctionTestNeverRaises | autograder.py:229-240 | a function test never raises; a loading failure is a crash carrying the exception |
| Autograder.StdoutTestVerdict | autograder.py:281-296 | a crashing submission is a crash naming the test; a crashing reference raises; otherwise correct exactly when the transcripts have as many lines and agree line by line up to spacing |
| Autograder.StdoutTestIgnoresSpacing | autograder.py:294-296 | transcripts that differ only in spacing pass |
| Autograder.StdoutCallArityMismatch | autograder.py:289-290 | as written, a stdout test whose functions load always raises, where the intended call yields a verdict |
| Autograder.InterfaceCallArityMismatch | autograder.py:405 | as written, an interface test whose function loads always raises, where the intended call yields a verdict |
| Autograder.InterfaceTestOneLine | autograder.py:406-409 | the flattened printouts are compared as one line: correct when equal, else a discrepancy at line 1 |
| Autograder.InterfaceTestVerdict | autograder.py:399-411 | a raising client is a crash with the fixed message; otherwise correct exactly when the flattened printouts agree |
| Autograder.InteractiveTestVerdict | autograder.py:340-345 | a non-string input raises its `TypeError`; when either script is missing or fails on the standard input, the run raises on splitting `None`; otherwise the verdict is the exact diff of the submission's transcript against the reference's, both on that same standard input |
| Autograder.NewGrader | autograder.py:14-31 | a new grader has empty logs, no score, and the stored or default record |
| Autograder.Header | autograder.py:59-62 | a private test's header is the fixed hidden line; a public test's is `Running test: ` and its description |
| Autograder.Notify | autograder.py:58-63 | `notify` logs the header, then the rendered verdict, and stops at the first exception |
| Autograder.RunEach | autograder.py:33-41 | the loop starts at most one test per list entry and at least one when there is one; an unraised run obtained a verdict for every test it started |
| Autograder.RunEachOutcomes | autograder.py:33-41 | the k-th verdict is test k's; all but the last passed; a run that stopped early without raising ended on a failure; a run where every verdict passed ran every test |
| Autograder.RunAll | autograder.py:33-41 | tests run in list order; all but the last obtained verdict passed; an unraised run that stopped early ended on a failure; a run where every verdict passed ran every test |
| Autograder.RunLogsTwoLinesPerTest | autograder.py:36-41 | test k's header is external line 2k and its rendered verdict is line 2k+1; nothing else is logged |
| Autograder.HiddenTestsNotShown | autograder.py:59-62 | a private test's header line is the fixed hidden-test line; a public test's header names the test |
| Autograder.LaterTestsNeverRun | autograder.py:36 | after a failure or an exception, later tests do not affect the run |
| Autograder.Finalize | autograder.py:128-147 | the report carries the score, the maximum, both logs, and the record's attempts and time delta |
| Autograder.Credit | autograder.py:47-55 | full credit adds the congratulation line and the maximum score; otherwise the failure line and the fallback score |
| Autograder.Run | autograder.py:33-45 | an escaping exception ends the run with the lines logged so far; otherwise the run is credited |
| Autograder.CreditAwarded | autograder.py:42-55 | full score exactly when every verdict passed, then every test ran; the external log is the run's lines plus the closing line |
| Autograder.Build | autograder.py:253-254 | one test per input, in order |
| Autograder.FunctionBatch | autograder.py:248-254 | the public inputs become public function tests, then the private ones become private tests |
| Autograder.StdoutBatch | autograder.py:301-307 | the same for stdout tests |
| Autograder.InteractiveBatch | autograder.py:372-378 | the same for interactive tests |
| Autograder.InterfaceBatch | autograder.py:413-420 | the k-th input is paired with the k-th stored output, and the batch is cut at the shorter list |
| Autograder.BuildInterfaceTests | autograder.py:419-420 | one interface test per pair, in order |
| Autograding.HwFunctionLines | autograding.py:434-464 | the test passes exactly when both results were obtained and are `==`; a hidden test's external line is one of three fixed lines; an exception logs the exception line externally and the not-our-fault line internally; a public test logs the same line to both logs, "We called" with the call, then "correct result." or "INCORRECT result: " with the submission's result |
| Autograding.HwAndTa | autograding.py:426-436 | both results are obtained exactly when both modules define the function and neither call raises |
| Autograding.TestHwFunction | autograding.py:417-465 | answers true exactly when both calls return `==` results; each call adds one line to each log; a hidden test's external line is one of three fixed lines; a dead session answers false and logs nothing |
| Autograding.HiddenFailureLoggedAsCorrect | autograding.py:454-457 | a failed hidden test is logged internally as correct and externally as incorrect |
| Autograding.PublicCallNamed | autograding.py:434-444 | a public test with both results appends to each log exactly one line: the call with its argument list, then the correct-result text on a pass or the incorrect-result text with the submission's result on a failure |
| Autograding.LineBreaks | autograding.py:482-483 | the transcript line count is the number of line breaks |
| Autograding.CountLines | autograding.py:482-486 | the two line counts are reported exactly when they differ |
| Autograding.Transcripts | autograding.py:487-491 | the transcript block is the submission header, the submission's lines, the solution header, the reference's lines and the closing dashes |
| Autograding.CompareLogs | autograding.py:468-509 | success exactly when the submission's output equals the reference's; it raises only on the two cases shown; each call adds one external line or more and one internal outcome line; hidden tests log only fixed lines |
| Autograding.MissingEolOnly | autograding.py:477-480 | a public mismatch without a final line break logs the mismatch and the missing-end-of-line line |
| Autograding.LineCountsReportedWhenDifferent | autograding.py:481-491 | a public mismatch ending with a line break reports differing line counts, then both transcripts |
| Autograding.PublicLines | autograding.py:474-494 | a missing output logs only the error line with the inputs and fails; an equal output logs only the passed line and succeeds; a differing output fails and opens with the incorrect-output line |
| Autograding.PublicLinesLogged | autograding.py:474-494 | the public branch's lines are exactly what is appended to the external log |
| Autograding.EmptyHiddenOutputRaises | autograding.py:500 | an empty hidden output that differs from the reference raises an index error |
| Autograding.ArgCompareOver | autograding.py:523-530 | succeeds exactly when every name's counts agree, with a complaint per mismatch |
| Autograding.ArgCompare | autograding.py:512-531 | `_arg_compare` succeeds exactly when the scope matches, and then complains about nothing |
| Autograding.TopLevel | autograding.py:544-556 | the top-level stage passes exactly when the top-level functions match |
| Autograding.ClassNames | autograding.py:565-574 | the class stage fails exactly when some reference class is missing |
| Autograding.ClassStep | autograding.py:577-593 | one common class keeps success exactly when its methods are all present with the same parameter counts |
| Autograding.ClassLoop | autograding.py:576-593 | keeps success exactly when every common class matches |
| Autograding.LegacyCompare | autograding.py:534-595 | the legacy check succeeds exactly when functions match at top level, every reference class exists, and common classes match |
| Autograding.SessionCompare | autograding.py:534-595 | a dead session passes; a live one without modules raises; otherwise the verdict is the legacy check, and the external log grows by exactly the legacy check's complaints |
| Autograding.LegacyAcceptsItself | autograding.py:263-268 | a module passes the legacy check against itself |
| Autograding.LegacyStricter | autograding.py:566 | whatever the legacy check accepts, sanity.py's check accepts too |
| Autograding.RenamedClassDisagreement | autograding.py:566 | a misspelled class fails the legacy check and passes sanity.py's |
| Autograding.Kill | autograding.py:194-199 | a kill appends the message to the existing session's log (or to an empty one when it creates a dead session) and sets the fallback score, leaving the rest of an existing session unchanged; only non-function problems mark themselves dead |
| Autograding.NewModuleProblem | autograding.py:161-177 | a failed import yields a dead session with the import message; otherwise the session holds both modules, and a non-function problem is marked dead exactly when the naming check fails |
| Autograding.NamingCheck | autograding.py:174-177 | the naming check appends its complaints to the external log, then the naming message and the fallback score exactly when it fails; the rest of the session is unchanged |
| Autograding.NamingComplaintsLogged | autograding.py:166-177 | with both modules imported, the external log is the naming check's complaints followed by the naming message exactly when the check fails, which also sets the fallback score; the internal log is empty |
| Autograding.NewInteractiveProblem | autograding.py:302-307 | an interactive problem starts with a live, empty session |
| Autograding.NamingFailureKeepsFunctionSessionAlive | autograding.py:174-177 | a function problem that fails the naming check keeps a live session with the failure logged |
| Autograding.InterfaceProblemPassesNaming | autograding.py:263-268 | an interface problem compares its client with itself and always passes |
| Autograding.LegacyCall | autograding.py:64-77 | the lookup fails exactly when the module or the function is missing; otherwise the call is captured |
| Autograding.StdoutCompare | autograding.py:229-242 | succeeds exactly when the printouts agree up to spacing; a crashing submission logs one line with the inputs |
| Autograding.InterfaceCompare | autograding.py:280-289 | succeeds exactly when the client's flattened printout equals the expected flattened output |
| Autograding.InteractiveCompare | autograding.py:312-319 | succeeds exactly when the submission script produced a transcript equal to the reference's |
| Autograding.Test | autograding.py:125-126 | the abstract `test` raises on an interface problem; a dead stdout problem answers false; a function problem delegates to the session |
| Autograding.TestIo | autograding.py:128-129 | `test_io` raises on every problem but the interface one; a dead one answers false |
| Autograding.TestIoIgnoresPrivacy | autograding.py:274-276 | an interface test ignores the privacy flag |
| Autograding.DeadSessionInert | autograding.py:719-728 | a dead session answers false, logs nothing, and passes the naming check |
| Autograding.RunUntilFalse | autograding.py:96-117 | the loop takes at most one step per item and at least one when there is an item; a true answer means every item was fed; stopping early means the last answer was false; a step that keeps the problem's kind keeps it over the loop |
| Autograding.LaterItemsNeverFed | autograding.py:99 | once a step answers false, items after it never matter: any list with the same consumed prefix ends the same |
| Autograding.TestAll | autograding.py:96-101 | tests run until one answers false; success means every input was tried |
| Autograding.Credit | autograding.py:131-139 | the score is the maximum on success, else the fallback; the function problem adds no closing line |
| Autograding.BatchTest | autograding.py:93-105 | a batch is credited exactly when its loop does not raise |
| Autograding.BatchCredit | autograding.py:93-105 | full credit exactly when every input passed, and then every input ran |
| Autograding.LaterInputsNeverTried | autograding.py:99-101 | after a false answer, later inputs do not affect the batch |
| Autograding.TestAllIo | autograding.py:112-117 | success means every input was tried; an index error means there were fewer outputs than inputs |
| Autograding.BatchIoPairsInOrder | autograding.py:107-121 | with enough outputs, the i-th input is tested against the i-th output |
| Autograding.BatchTestIo | autograding.py:107-121 | a batch is credited exactly when its loop does not raise, with the maximum exactly on success |
| Fixtures.TaDigitalRoot | examples/functiontest/ta_digital_root.py:9-13 | the reference loop ends below 10, leaves single digits alone, and computes `1 + (n - 1) % 9` for positive `n` |
| Fixtures.TaRootClosedForm | examples/functiontest/ta_digital_root.py:9-13 | the reference's result is below 10, and it is the closed form for positive inputs |
| Fixtures.DigitSumShrinks | examples/functiontest/digital_root2.py:16-24 | a digit sum is at most the number, and smaller from two digits on |
| Fixtures.DigitSumModNine | examples/functiontest/digital_root2.py:16-24 | a number and its digit sum differ by a multiple of 9 |
| Fixtures.StudentLoopIsRoot | examples/functiontest/digital_root2.py:11-14 | the submission's loop computes the reference's root on positive inputs |
| Fixtures.RootsAgreeExcept1729 | examples/functiontest/digital_root2.py:5-14 | the submission agrees with the reference everywhere but 1729, where they give 5 and 1 |
| Fixtures.StudentDigitalRoot | examples/functiontest/digital_root2.py:5-14 | the submission's loop with its early return and `break` agrees with the reference except on 1729 |
| Fixtures.TaCall | examples/functiontest/ta_digital_root.py:9-13 | called on one integer, the reference returns its root and prints nothing |
| Fixtures.StudentCall | examples/functiontest/digital_root2.py:5-14 | called on one integer, the submission returns its answer and prints nothing |
| Fixtures.DigitSumCall | examples/functiontest/digital_root2.py:16-24 | called on one integer, `digitsum` returns the digit sum |
| Scenarios.FirstTestFails | autograder.py:229-240 | the first digital-root test (1729) fails with the reference's 1 and the submission's 5 |
| Scenarios.FirstNotifyRaises | autograder.py:58-63 | notifying that failure logs the header and then raises on the missing `line_number` |
| Scenarios.CurrentApiRaisesOnFirstTest | autograder.py:33-45 | the current API's run of the example stops after one test with that exception, before any credit |
| Scenarios.LegacyNamingPasses | autograding.py:534-595 | the submission's extra `digitsum` passes the legacy naming check |
| Scenarios.LegacyFirstTestFails | autograding.py:434-444 | the legacy test of 1729 answers false and logs the incorrect result 5 to both logs |
| Scenarios.LegacyApiReportsFirstFailure | autograding.py:93-105 | the legacy batch scores 0 of 20 with one external line and no closing line |

## Left out

- Capturing `sys.stdout`/`sys.stdin`, `importlib` imports and reloads, and `inspect` reflection: these are the environment the model takes as a parameter (`Host.Env`), not computed.
- Reading `data.json`: the stored record is a parameter (`Option<SessionData>`).
- Start and end timestamps, the `info` dictionary, the JSON dump and the `print` of it in `finalize`: clock and output only; the report keeps the score, maximum, logs, attempts and time delta.
- `print(e)` in `test_hw_function`: console output only.
- The `sanity_compare` log (`_clog`) and the `PASSED@`/`ERROR@` lines of the legacy `_arg_compare`: they go to a dictionary that no verdict or score reads.
- The tab check (`find_tabs`, `tab_report`): it reads source text, which the model does not have; in autograder.py it is also dead code nested after `finalize`'s `return`.
- `deepcopy` of the arguments: the modelled values are immutable, so copies change nothing.
- `manually_grade`, `session.py`, the grade scripts, the hailstone and Domino fixtures: not part of this model; of `unit.py` only the second case is restated (`DifferExamples.StudentLineStoredFirst`).
- The getters and setters (`get_score`, `update_score`, `i_log_all` and the like): plain field access.
- Values.PyRepr: escapes only the quote, the backslash and newline, tab and carriage return; other control and non-ASCII characters are shown unescaped.
- Text.SortedNames: Python iterates sets in hash order; the model uses ascending code-point order, so only the order of names inside log messages can differ.
- Fixtures.TaCall: `str(n)` of a negative number contains `-`, which `int` rejects, but a negative number is below 10 and never reaches it; arguments other than integers and booleans are modelled as raising at the first comparison.
- Autograding.Test: states the abstract-class error one way only (an interface problem raises), not that no other problem raises.
- Autograding.InteractiveCompare: does not state the exact log lines; `Autograding.CompareLogs` does.
- Autograder.RunStdoutTest: models the intended two-argument capture, not the call as written; the as-written call is in Findings.
- Autograder.RunInterfaceTest: the same.
- sanity.py imports `InterfaceDiscrepancy` from util.py, which does not define it (sanity.py:2). As written, importing sanity.py raises `ImportError`, so `from sanity import compare` (autograder.py:9) makes autograder.py itself fail to import and no current-API test can run. The model assumes the import resolves, to result.py's verdicts, which is where autograder.py imports them from.
- Autograder.HiddenTestsNotShown: only the header line of a private test is fixed. Its verdict line is not. A private stdout test whose submission crashes renders result.py's `ProgramCrash` with "An error occurred running " followed by the function name and `arglist_str` of the hidden arguments (autograder.py:292, result.py:34-37), so those arguments do reach the external log.
- Values.ListStr: argument lists are modelled as Python lists. A tuple argument list, as the grade scripts pass (`(1729,)`), prints as `(1729,)` rather than `[1729]` where autograding.py:237 formats it, and an empty tuple makes autograder.py:397 raise "tuple index out of range" rather than "list index out of range".

## Findings

| source | as written | input that shows it | evidently intended | confidence | as-written member | corrected member |
|---|---|---|---|---|---|---|
| autograder.py:289-290 | `call_function(student_func, self.inputs.arglist)` passes two arguments to util.py's three-parameter `call_function(module, name, args)` | any stdout test whose modules both define the function, e.g. the hailstone example | capture the call of the loaded function on the arguments, then diff | high (not executed) | Autograder.RunStdoutTestAsWritten, Autograder.StdoutCallArityMismatch | Autograder.RunStdoutTest, Autograder.StdoutTestVerdict |
| autograder.py:405 | `call_function(func, self.test_input.arglist)`, the same two-argument call | any interface test whose client defines the function | capture the client call, then compare the flattened printouts | high (not executed) | Autograder.RunInterfaceTestAsWritten, Autograder.InterfaceCallArityMismatch | Autograder.RunInterfaceTest, Autograder.InterfaceTestVerdict |

=== FILE: autograder.dfy ===
/** autograder.py: the current test API. Four kinds of test case each run
    one comparison and yield a verdict; `Autograder.run` runs a list of
    them in order, logs two lines per executed test, stops after the first
    failing verdict and awards the credit.
 */
module Autograder {
  import opened Wrappers
  import opened Text
  import opened Values
  import opened Results
  import opened Host
  import opened Records
  import opened Inputs
  import Sanity
  import Util

  datatype TestCase =
    | FunctionTest(taModuleName: string, studentModuleName: string, functionName: string, testInput: TestInput)
    | FunctionStdoutTest(taModuleName: string, studentModuleName: string, functionName: string, testInput: TestInput)
    | InteractiveTest(taModuleName: string, studentModuleName: string, testInput: TestInput)
    | InterfaceTest(clientModuleName: string, functionName: string, testInput: TestInput, taOutput: string)
  {
    /** `private()`: the flag of the test's input. */
    predicate Private() {
      testInput.isPrivate
    }
  }

  /** A verdict together with the module whose class built it, which decides
      how it renders. */
  datatype Outcome = Outcome(verdict: Verdict, origin: Origin)

  const NoResults := "Got no results from function call."

  /** `str(test)`. The interface test shows its first argument, so an empty
      argument list raises. */
  function Describe(t: TestCase): (r: Result<string, string>)
    ensures r.Err? <==> t.InterfaceTest? && |t.testInput.arglist| == 0
    ensures r.Err? ==> r.error == IndexOutOfRange
    ensures (t.FunctionTest? || t.FunctionStdoutTest?) ==>
              r.Ok? && t.functionName <= r.value
              && r.value[|t.functionName|..] == ArglistStr(t.testInput.arglist)
    ensures t.InteractiveTest? ==>
              r.Ok? && t.studentModuleName + ".py with input " <= r.value
              && r.value[|t.studentModuleName + ".py with input "|..] == ArglistStr(t.testInput.arglist)
    ensures t.InterfaceTest? && r.Ok? ==> r.value == PyStr(t.testInput.arglist[0])
  {
    match t
    case FunctionTest(_, _, fn, input) => Ok(fn + ArglistStr(input.arglist))
    case FunctionStdoutTest(_, _, fn, input) => Ok(fn + ArglistStr(input.arglist))
    case InteractiveTest(_, student, input) => Ok(student + ".py with input " + ArglistStr(input.arglist))
    case InterfaceTest(_, _, input, _) =>
      if |input.arglist| == 0 then Err(IndexOutOfRange) else Ok(PyStr(input.arglist[0]))
  }

  /** The guarded loading step of the function tests: import the reference
      module, import the submission module, then look the function up in
      each, failing with the first exception. */
  function LoadBoth(env: Env, taName: string, hwName: string, fn: string): (r: Result<(Module, Module), string>)
    ensures r.Ok? <==>
              && taName in env.modules && hwName in env.modules
              && fn in env.modules[taName].funcs && fn in env.modules[hwName].funcs
    ensures r.Ok? ==> r.value == (env.modules[taName], env.modules[hwName])
  {
    match Import(env, taName)
    case Err(e) => Err(e)
    case Ok(ta) =>
      match Import(env, hwName)
      case Err(e) => Err(e)
      case Ok(hw) =>
        match GetFunction(ta, fn)
        case Err(e) => Err(e)
        case Ok(_) =>
          match GetFunction(hw, fn)
          case Err(e) => Err(e)
          case Ok(_) => Ok((ta, hw))
  }

  /** Python truthiness of a result object: none of the verdict classes
      defines `__bool__` or `__len__`, so every instance is true. */
  predicate Truthy(v: Verdict) {
    true
  }

  /** `FunctionTest.run`: load both functions, consult the structural
      comparator, then compare return values with `==`. The comparator's
      answer is an object, always true, so the interface gate never fires;
      were it to fire, `InterfaceDiscrepancy()` without its message would
      raise. */
  function RunFunctionTest(env: Env, ta: string, student: string, fn: string, args: seq<Value>): (r: Result<Outcome, string>)
  {
    match LoadBoth(env, ta, student, fn)
    case Err(e) => Ok(Outcome(ProgramCrash(e), FromResultModule))
    case Ok((taM, hwM)) =>
      var gate := Sanity.Compare(Shape(taM), Shape(hwM));
      if !Truthy(gate) then Err("__init__() missing 1 required positional argument: 'msg'")
      else Ok(Outcome(Util.CompareFunctions(taM.funcs[fn].body, hwM.funcs[fn].body, args, PyEq), FromUtilModule))
  }

  /** `FunctionStdoutTest.run`: load both functions, capture what each
      prints, and diff the transcripts ignoring spacing within lines. A
      failed submission call is a crash; a failed reference call makes the
      differ raise on `None`. */
  function RunStdoutTest(env: Env, ta: string, student: string, fn: string, args: seq<Value>): (r: Result<Outcome, string>)
  {
    match LoadBoth(env, ta, student, fn)
    case Err(e) => Ok(Outcome(ProgramCrash(e), FromResultModule))
    case Ok((taM, hwM)) =>
      var hwOut := CallFunction(hwM.funcs[fn].body, args);
      var taOut := CallFunction(taM.funcs[fn].body, args);
      if hwOut.None? then Ok(Outcome(ProgramCrash("An error occurred running " + fn + ArglistStr(args)), FromResultModule))
      else if taOut.None? then Err(NoneHasNoSplit)
      else Ok(Outcome(Util.CompareOutputs(hwOut.value.out, taOut.value.out, SameIgnoringSpacing), FromUtilModule))
  }

  /** `InteractiveTest.run`: run both scripts on the same standard input and
      diff the transcripts exactly. A script that failed yields `None`,
      which the differ cannot split. */
  function RunInteractiveTest(env: Env, ta: string, student: string, args: seq<Value>): (r: Result<Outcome, string>)
  {
    match RunScript(env, student, args)
    case Err(e) => Err(e)
    case Ok(hwOut) =>
      match RunScript(env, ta, args)
      case Err(e) => Err(e)
      case Ok(taOut) =>
        if hwOut.None? || taOut.None? then Err(NoneHasNoSplit)
        else Ok(Outcome(Util.CompareOutputs(hwOut.value, taOut.value, Util.ExactEq), FromUtilModule))
  }

  /** `InterfaceTest.run`: call the client function, flatten its printout
      and the stored reference printout, and diff them. */
  function RunInterfaceTest(env: Env, client: string, fn: string, args: seq<Value>, taOutput: string): (r: Result<Outcome, string>)
  {
    match LoadFunction(env, client, fn)
    case Err(e) => Ok(Outcome(ProgramCrash(e), FromResultModule))
    case Ok(f) =>
      match CallFunction(f, args)
      case Some(c) => Ok(Outcome(Util.CompareOutputs(Flatten(c.out), Flatten(taOutput), Util.ExactEq), FromUtilModule))
      case None => Ok(Outcome(ProgramCrash(NoResults), FromResultModule))
  }

  /** What calling `util.call_function(func, args)` raises: the function
      takes a module, a name and the arguments. */
  const CallFunctionArity := "call_function() missing 1 required positional argument: 'args'"

  /** `FunctionStdoutTest.run` as written: once both functions load, the
      two-argument call of the three-parameter `call_function` raises. */
  function RunStdoutTestAsWritten(env: Env, ta: string, student: string, fn: string, args: seq<Value>): Result<Outcome, string> {
    match LoadBoth(env, ta, student, fn)
    case Err(e) => Ok(Outcome(ProgramCrash(e), FromResultModule))
    case Ok(_) => Err(CallFunctionArity)
  }

  /** `InterfaceTest.run` as written: once the client function loads, the
      same call raises. */
  function RunInterfaceTestAsWritten(env: Env, client: string, fn: string, args: seq<Value>, taOutput: string): Result<Outcome, string> {
    match LoadFunction(env, client, fn)
    case Err(e) => Ok(Outcome(ProgramCrash(e), FromResultModule))
    case Ok(_) => Err(CallFunctionArity)
  }

  /** As written, a stdout test whose functions load never compares
      anything: it raises, where the intended call yields a verdict whenever
      the reference function returns. */
  lemma StdoutCallArityMismatch(env: Env, ta: string, student: string, fn: string, args: seq<Value>)
    requires LoadBoth(env, ta, student, fn).Ok?
    requires env.modules[ta].funcs[fn].body(args).Ok?
    ensures RunStdoutTestAsWritten(env, ta, student, fn, args) == Err(CallFunctionArity)
    ensures RunStdoutTest(env, ta, student, fn, args).Ok?
  {
  }

  /** As written, an interface test whose client function loads always
      raises, where the intended call always yields a verdict. */
  lemma InterfaceCallArityMismatch(env: Env, client: string, fn: string, args: seq<Value>, taOutput: string)
    requires LoadFunction(env, client, fn).Ok?
    ensures RunInterfaceTestAsWritten(env, client, fn, args, taOutput) == Err(CallFunctionArity)
    ensures RunInterfaceTest(env, client, fn, args, taOutput).Ok?
  {
  }

  /** `test.run()`; `Err` is an exception escaping the test. */
  function RunTest(t: TestCase, env: Env): (r: Result<Outcome, string>) {
    match t
    case FunctionTest(ta, student, fn, input) => RunFunctionTest(env, ta, student, fn, input.arglist)
    case FunctionStdoutTest(ta, student, fn, input) => RunStdoutTest(env, ta, student, fn, input.arglist)
    case InteractiveTest(ta, student, input) => RunInteractiveTest(env, ta, student, input.arglist)
    case InterfaceTest(client, fn, input, taOutput) => RunInterfaceTest(env, client, fn, input.arglist, taOutput)
  }

  // ---------------------------------------------------------------------
  // Properties of the individual runs

  /** The structural gate never fires: a function test that loads both
      functions is decided by the return values alone, however the two
      modules' interfaces differ. */
  lemma InterfaceGateNeverFires(env: Env, ta: string, student: string, fn: string, args: seq<Value>)
    requires ta in env.modules && student in env.modules
    requires fn in env.modules[ta].funcs && fn in env.modules[student].funcs
    ensures var r := RunFunctionTest(env, ta, student, fn, args);
            && r.Ok? && !r.value.verdict.InterfaceDiscrepancy?
            && r.value == Outcome(Util.CompareFunctions(env.modules[ta].funcs[fn].body,
                                                        env.modules[student].funcs[fn].body, args, PyEq),
                                  FromUtilModule)
  {
  }

  /** A function test never raises; it fails to load exactly when a module
      or the function is missing, and then reports a crash. */
  lemma FunctionTestNeverRaises(env: Env, ta: string, student: string, fn: string, args: seq<Value>)
    ensures var r := RunFunctionTest(env, ta, student, fn, args);
            && r.Ok?
            && (LoadBoth(env, ta, student, fn).Err? ==>
                  r.value == Outcome(ProgramCrash(LoadBoth(env, ta, student, fn).error), FromResultModule))
  {
  }

  /** The stdout test: a crashing submission is reported as a crash naming
      the test; otherwise, when the reference runs, the verdict is correct
      exactly when the transcripts have equally many lines and each pair
      agrees up to spacing. */
  lemma StdoutTestVerdict(env: Env, ta: string, student: string, fn: string, args: seq<Value>)
    requires ta in env.modules && student in env.modules
    requires fn in env.modules[ta].funcs && fn in env.modules[student].funcs
    ensures var hw := env.modules[student].funcs[fn].body(args);
            var tf := env.modules[ta].funcs[fn].body(args);
            var r := RunStdoutTest(env, ta, student, fn, args);
            && (hw.Err? ==> r == Ok(Outcome(ProgramCrash("An error occurred running " + fn + ArglistStr(args)), FromResultModule)))
            && (hw.Ok? && tf.Err? ==> r == Err(NoneHasNoSplit))
            && (hw.Ok? && tf.Ok? ==>
                  var s := Util.Lines(hw.value.out); var t := Util.Lines(tf.value.out);
                  r.Ok? && (r.value.verdict.CorrectResult? <==>
                              |s| == |t| && forall j :: 0 <= j < |s| ==> SameIgnoringSpacing(s[j], t[j])))
  {
  }

  /** Lines that differ only in spacing match in the stdout test. */
  lemma StdoutTestIgnoresSpacing(env: Env, ta: string, student: string, fn: string, args: seq<Value>)
    requires ta in env.modules && student in env.modules
    requires fn in env.modules[ta].funcs && fn in env.modules[student].funcs
    requires env.modules[student].funcs[fn].body(args).Ok? && env.modules[ta].funcs[fn].body(args).Ok?
    requires var s := Util.Lines(env.modules[student].funcs[fn].body(args).value.out);
             var t := Util.Lines(env.modules[ta].funcs[fn].body(args).value.out);
             |s| == |t| && forall j :: 0 <= j < |s| ==> Collapse(s[j]) == Collapse(t[j])
    ensures RunStdoutTest(env, ta, student, fn, args) == Ok(Outcome(CorrectResult, FromUtilModule))
  {
  }

  /** A flattened text is one line, so the interface test compares a single
      pair of lines: correct exactly when the flattened printouts agree,
      otherwise a discrepancy at line 1. */
  lemma InterfaceTestOneLine(out: string, taOutput: string)
    ensures var r := Util.CompareOutputs(Flatten(out), Flatten(taOutput), Util.ExactEq);
            && (Flatten(out) == Flatten(taOutput) ==> r == CorrectResult)
            && (Flatten(out) != Flatten(taOutput) ==>
                  r == LineDiscrepancy(1, Some(Flatten(out)), Some(Flatten(taOutput))))
  {
    FlattenedLines(out);
    FlattenedLines(taOutput);
  }

  lemma FlattenedLines(s: string)
    ensures Util.Lines(Flatten(s)) == [Flatten(s)]
  {
    CollapseSingleLine(Strip(s));
    CollapseUnpadded(Strip(s));
  }

  /** The interface test: a client that raises is a crash with a fixed
      message; otherwise the verdict is the single-line comparison of the
      flattened printouts. */
  lemma InterfaceTestVerdict(env: Env, client: string, fn: string, args: seq<Value>, taOutput: string)
    requires client in env.modules && fn in env.modules[client].funcs
    ensures var c := env.modules[client].funcs[fn].body(args);
            var r := RunInterfaceTest(env, client, fn, args, taOutput);
            && r.Ok?
            && (c.Err? ==> r.value == Outcome(ProgramCrash(NoResults), FromResultModule))
            && (c.Ok? ==> r.value.origin == FromUtilModule
                          && (r.value.verdict.CorrectResult? <==> Flatten(c.value.out) == Flatten(taOutput))
                          && (!r.value.verdict.CorrectResult? ==> r.value.verdict.lineNumber == 1))
  {
    var f := env.modules[client].funcs[fn].body;
    assert LoadFunction(env, client, fn) == Ok(f);
    var c := f(args);
    if c.Ok? {
      var v := Util.CompareOutputs(Flatten(c.value.out), Flatten(taOutput), Util.ExactEq);
      assert RunInterfaceTest(env, client, fn, args, taOutput) == Ok(Outcome(v, FromUtilModule));
      InterfaceTestOneLine(c.value.out, taOutput);
    }
  }

  /** The interactive test raises on a non-string input or a failing script,
      and otherwise compares the two transcripts exactly. */
  lemma InteractiveTestVerdict(env: Env, ta: string, student: string, args: seq<Value>)
    ensures var r := RunInteractiveTest(env, ta, student, args);
            && (StdinText(args).Err? ==> r == Err(StdinText(args).error))
            && (student !in env.scripts || ta !in env.scripts ==> r.Err?)
            && (StdinText(args).Ok? ==>
                  var i := StdinText(args).value;
                  if student !in env.scripts || ta !in env.scripts
                     || env.scripts[student](i).None? || env.scripts[ta](i).None?
                  then r == Err(NoneHasNoSplit)
                  else r == Ok(Outcome(Util.CompareOutputs(env.scripts[student](i).value, env.scripts[ta](i).value, Util.ExactEq),
                                       FromUtilModule)))
  {
  }

  // ---------------------------------------------------------------------
  // The Autograder object

  /** The state `run` and `finalize` read and write: the maximal score, the
      stored submission record, both logs and the score once it is set. */
  datatype Grader = Grader(maxScore: int, data: SessionData, xlog: seq<string>, ilog: seq<string>, score: Option<int>)

  /** `Autograder(max_score)`: empty logs, no score yet, the stored record
      when one exists. */
  function NewGrader(maxScore: int, stored: Option<SessionData>): (g: Grader)
    ensures g.maxScore == maxScore && g.xlog == [] && g.ilog == [] && g.score.None?
    ensures g.data == LoadData(stored)
  {
    Grader(maxScore, LoadData(stored), [], [], None)
  }

  /** What `notify` appends to the external log, and the exception it raised
      when describing the test or rendering its verdict failed (the lines
      logged before the fault stay). */
  datatype Logged = Logged(lines: seq<string>, raised: Option<string>)

  const HiddenTest := "Running on a hidden test."

  /** The first line `notify` logs: the fixed hidden-test line for a
      private test, never its description; otherwise the description, whose
      computation may raise. */
  function Header(t: TestCase): (r: Result<string, string>)
    ensures t.Private() ==> r == Ok(HiddenTest)
    ensures !t.Private() ==> (r.Ok? <==> Describe(t).Ok?)
    ensures !t.Private() && r.Ok? ==> r.value == "Running test: " + Describe(t).value
  {
    if t.Private() then Ok(HiddenTest)
    else match Describe(t)
      case Err(e) => Err(e)
      case Ok(d) => Ok("Running test: " + d)
  }

  /** `notify(result, test)`: the header line, then the rendered verdict. A
      fault in either stops the logging there. */
  function Notify(t: TestCase, o: Outcome): (r: Logged)
    ensures r.raised.None? <==> Header(t).Ok? && Util.Render(o.verdict, o.origin).Ok?
    ensures |r.lines| <= 2 && (r.raised.None? ==> |r.lines| == 2)
    ensures |r.lines| >= 1 <==> Header(t).Ok?
    ensures |r.lines| >= 1 ==> Header(t) == Ok(r.lines[0])
    ensures |r.lines| == 2 ==> Util.Render(o.verdict, o.origin) == Ok(r.lines[1])
  {
    match Header(t)
    case Err(e) => Logged([], Some(e))
    case Ok(h) =>
      match Util.Render(o.verdict, o.origin)
      case Err(e) => Logged([h], Some(e))
      case Ok(text) => Logged([h, text], None)
  }

  /** What `run` did before crediting: how many tests it started, the
      outcomes it obtained, the external-log lines and the exception that
      escaped, if any. */
  datatype Trace = Trace(started: nat, outcomes: seq<Outcome>, xlog: seq<string>, raised: Option<string>)

  /** Every outcome obtained is a pass. */
  predicate EveryPassed(os: seq<Outcome>) {
    forall k :: 0 <= k < |os| ==> os[k].verdict.PassedTest()
  }

  /** How a test is run: `RunTest` in a fixed environment. */
  type Runner = TestCase -> Result<Outcome, string>

  function RunnerIn(env: Env): Runner {
    t => RunTest(t, env)
  }

  /** How a finished test is logged: `Notify`. */
  type Notifier = (TestCase, Outcome) -> Logged

  /** The loop of `run` for a given way of running and of logging a test:
      each test is run and logged in list order; the loop stops after the
      first failing verdict, and an exception stops it at once. */
  function RunEach(run: Runner, notify: Notifier, tests: seq<TestCase>): (r: Trace)
    ensures r.started <= |tests|
    ensures |r.outcomes| <= r.started <= |r.outcomes| + 1
    ensures |tests| > 0 ==> r.started >= 1
    ensures r.raised.None? ==> |r.outcomes| == r.started
    decreases |tests|
  {
    if |tests| == 0 then Trace(0, [], [], None)
    else
      match run(tests[0])
      case Err(e) => Trace(1, [], [], Some(e))
      case Ok(o) =>
        var n := notify(tests[0], o);
        if n.raised.Some? then Trace(1, [o], n.lines, n.raised)
        else if !o.verdict.PassedTest() then Trace(1, [o], n.lines, None)
        else
          var rest := RunEach(run, notify, tests[1..]);
          Trace(1 + rest.started, [o] + rest.outcomes, n.lines + rest.xlog, rest.raised)
  }

  /** The outcomes are those of the first tests in list order and every
      one but the last passed; a run that stopped early without an exception
      ended on a failure, and a run where every verdict passed ran every
      test. */
  lemma {:induction false} RunEachOutcomes(run: Runner, notify: Notifier, tests: seq<TestCase>)
    ensures var r := RunEach(run, notify, tests);
            && (forall k :: 0 <= k < |r.outcomes| ==> run(tests[k]) == Ok(r.outcomes[k]))
            && (forall k :: 0 <= k < |r.outcomes| - 1 ==> r.outcomes[k].verdict.PassedTest())
            && (r.raised.None? && r.started < |tests| ==> !r.outcomes[|r.outcomes| - 1].verdict.PassedTest())
            && (r.raised.None? && EveryPassed(r.outcomes) ==> r.started == |tests|)
    decreases |tests|
  {
    var r := RunEach(run, notify, tests);
    if |tests| > 0 && !Continues(run, notify, tests[0]) {
      if r.raised.None? {
        assert r.outcomes == [run(tests[0]).value];
      }
    } else if |tests| > 0 {
      var rest := RunEach(run, notify, tests[1..]);
      RunEachAfterPass(run, notify, tests);
      RunEachOutcomes(run, notify, tests[1..]);
      if r.raised.None? && EveryPassed(r.outcomes) {
        assert EveryPassed(rest.outcomes) by {
          forall k | 0 <= k < |rest.outcomes| ensures rest.outcomes[k].verdict.PassedTest() {
            assert rest.outcomes[k] == r.outcomes[k + 1];
          }
        }
      }
      forall k | 0 < k < |r.outcomes| ensures run(tests[k]) == Ok(r.outcomes[k]) {
        assert r.outcomes[k] == rest.outcomes[k - 1] && tests[k] == tests[1..][k - 1];
      }
      forall k | 0 < k < |r.outcomes| - 1 ensures r.outcomes[k].verdict.PassedTest() {
        assert r.outcomes[k] == rest.outcomes[k - 1];
      }
    }
  }

  /** `run`'s loop over the tests in the given environment. */
  function RunAll(tests: seq<TestCase>, env: Env): (r: Trace)
    ensures r.started <= |tests|
    ensures |r.outcomes| <= r.started <= |r.outcomes| + 1
    ensures |tests| > 0 ==> r.started >= 1
    ensures r.raised.None? ==> |r.outcomes| == r.started
    ensures forall k :: 0 <= k < |r.outcomes| ==> RunTest(tests[k], env) == Ok(r.outcomes[k])
    ensures forall k :: 0 <= k < |r.outcomes| - 1 ==> r.outcomes[k].verdict.PassedTest()
    ensures r.raised.None? && r.started < |tests| ==> !r.outcomes[|r.outcomes| - 1].verdict.PassedTest()
    ensures r.raised.None? && EveryPassed(r.outcomes) ==> r.started == |tests|
  {
    RunEachOutcomes(RunnerIn(env), Notify, tests);
    RunEach(RunnerIn(env), Notify, tests)
  }

  /** The first test ran, passed and was logged without a fault, so the
      run goes on to the next test. */
  predicate Continues(run: Runner, notify: Notifier, t: TestCase) {
    && run(t).Ok?
    && run(t).value.verdict.PassedTest()
    && notify(t, run(t).value).raised.None?
  }

  /** After a first test that lets the run go on, the run is that test's
      outcome and log lines in front of the run of the rest. */
  lemma RunEachAfterPass(run: Runner, notify: Notifier, tests: seq<TestCase>)
    requires |tests| > 0 && Continues(run, notify, tests[0])
    ensures var o := run(tests[0]).value;
            var rest := RunEach(run, notify, tests[1..]);
            RunEach(run, notify, tests)
            == Trace(1 + rest.started, [o] + rest.outcomes, notify(tests[0], o).lines + rest.xlog, rest.raised)
  {
  }

  /** The external log pairs test `k` with lines `2k` (its header) and
      `2k + 1` (its rendered outcome), as far as the log goes. */
  predicate LogLines(ts: seq<TestCase>, os: seq<Outcome>, xs: seq<string>) {
    && (forall k :: 0 <= k < |ts| && 2 * k < |xs| ==> Header(ts[k]) == Ok(xs[2 * k]))
    && (forall k :: 0 <= k < |os| && 2 * k + 1 < |xs| ==> Util.Render(os[k].verdict, os[k].origin) == Ok(xs[2 * k + 1]))
  }

  lemma ConsLogLines(t: TestCase, o: Outcome, h: string, line: string, ts: seq<TestCase>, os: seq<Outcome>, xs: seq<string>)
    requires Header(t) == Ok(h) && Util.Render(o.verdict, o.origin) == Ok(line)
    requires LogLines(ts, os, xs)
    ensures LogLines([t] + ts, [o] + os, [h, line] + xs)
  {
    ConsPaired(Header, t, ts, [h, line], xs, 0);
    ConsPaired((q: Outcome) => Util.Render(q.verdict, q.origin), o, os, [h, line], xs, 1);
  }

  /** Putting one item and two lines in front keeps every item paired with
      line `2k + off`. */
  lemma ConsPaired<A>(f: A -> Result<string, string>, a: A, rest: seq<A>, ys: seq<string>, xs: seq<string>, off: nat)
    requires |ys| == 2 && off < 2 && f(a) == Ok(ys[off])
    requires forall k :: 0 <= k < |rest| && 2 * k + off < |xs| ==> f(rest[k]) == Ok(xs[2 * k + off])
    ensures forall k :: 0 <= k < |[a] + rest| && 2 * k + off < |ys + xs| ==> f(([a] + rest)[k]) == Ok((ys + xs)[2 * k + off])
  {
    forall k | 0 <= k < |[a] + rest| && 2 * k + off < |ys + xs| ensures f(([a] + rest)[k]) == Ok((ys + xs)[2 * k + off]) {
      if k > 0 {
        assert ([a] + rest)[k] == rest[k - 1];
        assert (ys + xs)[2 * k + off] == xs[2 * (k - 1) + off];
      }
    }
  }

  /** Each executed test contributes its header line and then its rendered
      verdict, in order; no other line is logged. */
  lemma {:induction false} RunLogsTwoLinesPerTest(run: Runner, tests: seq<TestCase>)
    ensures var r := RunEach(run, Notify, tests);
            && 2 * r.started - 2 <= |r.xlog| <= 2 * r.started
            && (r.raised.None? ==> |r.xlog| == 2 * r.started)
            && LogLines(tests[..r.started], r.outcomes, r.xlog)
    decreases |tests|
  {
    if |tests| > 0 && Continues(run, Notify, tests[0]) {
      var o := run(tests[0]).value;
      var rest := RunEach(run, Notify, tests[1..]);
      RunLogsTwoLinesPerTest(run, tests[1..]);
      RunEachAfterPass(run, Notify, tests);
      LogLinesAfterPass(tests, o, Notify(tests[0], o), rest);
    }
  }

  /** A passing first test puts its two lines in front of the log of the
      rest of the run. */
  lemma LogLinesAfterPass(tests: seq<TestCase>, o: Outcome, n: Logged, rest: Trace)
    requires |tests| > 0 && rest.started <= |tests| - 1
    requires |n.lines| == 2 && Header(tests[0]) == Ok(n.lines[0])
    requires Util.Render(o.verdict, o.origin) == Ok(n.lines[1])
    requires LogLines(tests[1..][..rest.started], rest.outcomes, rest.xlog)
    ensures LogLines(tests[..1 + rest.started], [o] + rest.outcomes, n.lines + rest.xlog)
  {
    assert tests[..1 + rest.started] == [tests[0]] + tests[1..][..rest.started];
    assert n.lines == [n.lines[0], n.lines[1]];
    ConsLogLines(tests[0], o, n.lines[0], n.lines[1], tests[1..][..rest.started], rest.outcomes, rest.xlog);
  }

  /** A private test's header line is the fixed hidden-test line, so its
      arguments never reach the external log; a public test's header names
      the test. */
  lemma HiddenTestsNotShown(run: Runner, tests: seq<TestCase>, k: nat)
    requires var r := RunEach(run, Notify, tests); k < r.started && 2 * k < |r.xlog|
    ensures var r := RunEach(run, Notify, tests);
            && (tests[k].Private() ==> r.xlog[2 * k] == HiddenTest)
            && (!tests[k].Private() ==>
                  Describe(tests[k]).Ok? && r.xlog[2 * k] == "Running test: " + Describe(tests[k]).value)
  {
    RunLogsTwoLinesPerTest(run, tests);
    var r := RunEach(run, Notify, tests);
    var t := tests[k];
    assert tests[..r.started][k] == t;
    assert Header(t) == Ok(r.xlog[2 * k]);
    if !t.Private() {
      assert Describe(t).Ok?;
    }
  }

  /** The end of a `run`: either the report, or the exception that escaped
      with the lines logged before it. */
  datatype RunResult = Finished(report: Report) | Raised(error: string, xlog: seq<string>)

  /** `finalize()`: copies the score and the record into the report. */
  function Finalize(g: Grader, score: int): (r: Report)
    ensures r.scoreSum == score && r.maxScore == g.maxScore
    ensures r.externalLog == g.xlog && r.internalLog == g.ilog
    ensures r.attempts == g.data.attempts && r.timedelta == g.data.timedelta
  {
    Report(score, g.maxScore, g.xlog, g.ilog, g.data.timedelta, g.data.attempts)
  }

  /** `_give_max_credit` / `_give_no_credit`: a closing line, the score, and
      the report. */
  function Credit(g: Grader, success: bool): (r: Report)
    ensures r.externalLog == g.xlog + [if success then AllPassed else SomeFailed]
    ensures r.scoreSum == if success then g.maxScore else FallbackScore(g.data)
  {
    var closing := if success then AllPassed else SomeFailed;
    var score := if success then g.maxScore else FallbackScore(g.data);
    Finalize(g.(xlog := g.xlog + [closing], score := Some(score)), score)
  }

  /** `Autograder.run(tests)`. */
  function Run(g: Grader, tests: seq<TestCase>, env: Env): (r: RunResult)
    ensures var t := RunAll(tests, env);
            && (t.raised.Some? <==> r.Raised?)
            && (r.Raised? ==> r.error == t.raised.value && r.xlog == g.xlog + t.xlog)
  {
    var t := RunAll(tests, env);
    match t.raised
    case Some(e) => Raised(e, g.xlog + t.xlog)
    case None =>
      var success := EveryPassed(t.outcomes);
      Finished(Credit(g.(xlog := g.xlog + t.xlog), success))
  }

  /** The credit: when every executed test passed (the empty list included)
      all tests ran and the score is the maximum; otherwise the score falls
      back to the previous score, never below zero. The external log holds
      the run's lines followed by the closing line. */
  lemma CreditAwarded(g: Grader, tests: seq<TestCase>, env: Env)
    ensures var t := RunAll(tests, env);
            var r := Run(g, tests, env);
            r.Finished? ==>
              && r.report.externalLog == g.xlog + t.xlog + [r.report.externalLog[|r.report.externalLog| - 1]]
              && (EveryPassed(t.outcomes) ==>
                    t.started == |tests| && r.report.scoreSum == g.maxScore
                    && r.report.externalLog[|r.report.externalLog| - 1] == AllPassed)
              && (!EveryPassed(t.outcomes) ==>
                    r.report.scoreSum == FallbackScore(g.data) && r.report.scoreSum >= 0
                    && r.report.externalLog[|r.report.externalLog| - 1] == SomeFailed)
  {
  }

  /** The run stopped early: an exception escaped, or the last verdict
      obtained is a failure. */
  predicate Stopped(t: Trace) {
    t.raised.Some? || (|t.outcomes| > 0 && !t.outcomes[|t.outcomes| - 1].verdict.PassedTest())
  }

  /** Stopping is final: once a test fails or raises, the tests after it
      never run, so the run of any list that shares the executed prefix is
      the same. */
  lemma {:induction false} LaterTestsNeverRun(run: Runner, notify: Notifier, tests: seq<TestCase>, other: seq<TestCase>)
    requires Stopped(RunEach(run, notify, tests))
    requires var n := RunEach(run, notify, tests).started; n <= |other| && tests[..n] == other[..n]
    ensures RunEach(run, notify, other) == RunEach(run, notify, tests)
    decreases |tests|
  {
    var t := RunEach(run, notify, tests);
    assert tests[0] == other[0] by {
      assert tests[0] == tests[..t.started][0] && other[0] == other[..t.started][0];
    }
    if Continues(run, notify, tests[0]) {
      var rest := RunEach(run, notify, tests[1..]);
      RunEachAfterPass(run, notify, tests);
      RunEachAfterPass(run, notify, other);
      assert Stopped(rest);
      assert tests[1..][..rest.started] == other[1..][..rest.started] by {
        assert tests[1..][..rest.started] == tests[..t.started][1..];
        assert other[1..][..rest.started] == other[..t.started][1..];
      }
      LaterTestsNeverRun(run, notify, tests[1..], other[1..]);
    }
  }

  // ---------------------------------------------------------------------
  // create_batch

  /** One test per input, in order. */
  function Build(inputs: seq<TestInput>, make: TestInput -> TestCase): (r: seq<TestCase>)
    ensures |r| == |inputs|
    ensures forall k :: 0 <= k < |inputs| ==> r[k] == make(inputs[k])
  {
    if |inputs| == 0 then [] else [make(inputs[0])] + Build(inputs[1..], make)
  }

  /** `FunctionTest.create_batch`. */
  function FunctionBatch(ta: string, student: string, fn: string, pub: seq<seq<Value>>, priv: seq<seq<Value>>): (r: seq<TestCase>)
    ensures |r| == |pub| + |priv|
    ensures forall k :: 0 <= k < |pub| ==> r[k] == FunctionTest(ta, student, fn, TestInput(pub[k], false))
    ensures forall k :: |pub| <= k < |r| ==> r[k] == FunctionTest(ta, student, fn, TestInput(priv[k - |pub|], true))
  {
    Build(BatchInputs(pub, priv), input => FunctionTest(ta, student, fn, input))
  }

  /** `FunctionStdoutTest.create_batch`. */
  function StdoutBatch(ta: string, student: string, fn: string, pub: seq<seq<Value>>, priv: seq<seq<Value>>): (r: seq<TestCase>)
    ensures |r| == |pub| + |priv|
    ensures forall k :: 0 <= k < |pub| ==> r[k] == FunctionStdoutTest(ta, student, fn, TestInput(pub[k], false))
    ensures forall k :: |pub| <= k < |r| ==> r[k] == FunctionStdoutTest(ta, student, fn, TestInput(priv[k - |pub|], true))
  {
    Build(BatchInputs(pub, priv), input => FunctionStdoutTest(ta, student, fn, input))
  }

  /** `InteractiveTest.create_batch`. */
  function InteractiveBatch(ta: string, student: string, pub: seq<seq<Value>>, priv: seq<seq<Value>>): (r: seq<TestCase>)
    ensures |r| == |pub| + |priv|
    ensures forall k :: 0 <= k < |pub| ==> r[k] == InteractiveTest(ta, student, TestInput(pub[k], false))
    ensures forall k :: |pub| <= k < |r| ==> r[k] == InteractiveTest(ta, student, TestInput(priv[k - |pub|], true))
  {
    Build(BatchInputs(pub, priv), input => InteractiveTest(ta, student, input))
  }

  /** `InterfaceTest.create_batch`: the k-th input (public ones first) is
      paired with the k-th stored output (public ones first), and the batch
      is cut at the shorter of the two lists. */
  function InterfaceBatch(client: string, fn: string, pubIn: seq<seq<Value>>, pubOut: seq<string>,
                          privIn: seq<seq<Value>>, privOut: seq<string>): (r: seq<TestCase>)
    ensures |r| == Min(|pubIn| + |privIn|, |pubOut| + |privOut|)
    ensures forall k :: 0 <= k < |r| ==>
              r[k] == InterfaceTest(client, fn, TestInput((pubIn + privIn)[k], k >= |pubIn|), (pubOut + privOut)[k])
  {
    var pairs := Zip(BatchInputs(pubIn, privIn), pubOut + privOut);
    BuildInterfaceTests(pairs, client, fn)
  }

  function BuildInterfaceTests(pairs: seq<(TestInput, string)>, client: string, fn: string): (r: seq<TestCase>)
    ensures |r| == |pairs|
    ensures forall k :: 0 <= k < |pairs| ==> r[k] == InterfaceTest(client, fn, pairs[k].0, pairs[k].1)
  {
    if |pairs| == 0 then [] else [InterfaceTest(client, fn, pairs[0].0, pairs[0].1)] + BuildInterfaceTests(pairs[1..], client, fn)
  }
}

=== FILE: autograding.dfy ===
/** autograding.py: the legacy test API. A `Problem` owns a `Session` that
    holds the reference and submission modules, the two logs and the score.
    Each test answers a boolean and appends log lines; the batch runners
    stop at the first `False` and award the credit.

    The `DeadSession` subclass is the `dead` flag of `Session`. The problem
    variants are the cases of `Kind`; the modules a problem loaded live in its
    session.
 */
module Autograding {
  import opened Wrappers
  import opened Text
  import opened Values
  import opened Host
  import opened Records
  import opened Inputs
  import Sanity

  /** A session. `maxScore` is set by every constructor right after the
      session is created, so it is a plain field here. */
  datatype Session = Session(
    dead: bool,
    ta: Option<Module>,
    hw: Option<Module>,
    xlog: seq<string>,
    ilog: seq<string>,
    score: Option<int>,
    maxScore: int,
    data: SessionData)

  function NewSession(ta: Option<Module>, hw: Option<Module>, maxScore: int, data: SessionData): Session {
    Session(false, ta, hw, [], [], None, maxScore, data)
  }

  function NewDeadSession(maxScore: int, data: SessionData): Session {
    Session(true, None, None, [], [], None, maxScore, data)
  }

  // ---------------------------------------------------------------------
  // test_hw_function

  const ExceptionNotOurFault := "Exception raised... hopefuly not our fault."

  function ExceptionLine(name: string): string {
    "Exception raised while running tests on " + name
    + ". Try testing to see if you can recreate the exception and solve it."
  }

  function HiddenCorrectLine(name: string): string {
    "We called " + name + " on a hidden input and it returned the correct result."
  }

  function HiddenIncorrectLine(name: string): string {
    "We called " + name + " on a hidden input and it returned an INCORRECT result."
  }

  /** The two return values, submission first, or the first exception:
      looking the function up in either module, or calling it. */
  function HwAndTa(s: Session, name: string, args: seq<Value>): (r: Result<(Value, Value), string>)
    ensures r.Ok? <==>
              && s.hw.Some? && s.ta.Some? && name in s.hw.value.funcs && name in s.ta.value.funcs
              && s.hw.value.funcs[name].body(args).Ok? && s.ta.value.funcs[name].body(args).Ok?
    ensures r.Ok? ==> r.value == (s.hw.value.funcs[name].body(args).value.ret, s.ta.value.funcs[name].body(args).value.ret)
  {
    if s.hw.None? then Err("'Session' object has no attribute 'hw_obj'")
    else match GetFunction(s.hw.value, name)
      case Err(e) => Err(e)
      case Ok(hwFunc) =>
        if s.ta.None? then Err("'Session' object has no attribute 'ta_obj'")
        else match GetFunction(s.ta.value, name)
          case Err(e) => Err(e)
          case Ok(taFunc) =>
            match hwFunc(args)
            case Err(e) => Err(e)
            case Ok(hw) =>
              match taFunc(args)
              case Err(e) => Err(e)
              case Ok(ta) => Ok((hw.ret, ta.ret))
  }

  /** The function test passes: both modules define the function, both
      calls return, and the results are equal under `==`. */
  predicate HwMatchesTa(s: Session, name: string, args: seq<Value>) {
    && s.hw.Some? && s.ta.Some? && name in s.hw.value.funcs && name in s.ta.value.funcs
    && var hw := s.hw.value.funcs[name].body(args);
    && var ta := s.ta.value.funcs[name].body(args);
    && hw.Ok? && ta.Ok? && PyEq(hw.value.ret, ta.value.ret)
  }

  /** The verdict of one function test with its external and internal log
      lines, given the two return values or the exception. */
  function HwFunctionLines(name: string, args: seq<Value>, results: Result<(Value, Value), string>, isPrivate: bool): (r: (bool, string, string))
    ensures r.0 <==> results.Ok? && PyEq(results.value.0, results.value.1)
    ensures isPrivate ==> r.1 in {HiddenCorrectLine(name), HiddenIncorrectLine(name), ExceptionLine(name)}
    ensures results.Err? ==> r.1 == ExceptionLine(name) && r.2 == ExceptionNotOurFault
    ensures !isPrivate && results.Ok? ==>
              r.1 == r.2 == PublicLine(name, args, r.0, results.value.0)
  {
    match results
    case Err(_) => (false, ExceptionLine(name), ExceptionNotOurFault)
    case Ok((hw, ta)) =>
      var same := PyEq(hw, ta);
      if !isPrivate then
        var line := PublicLine(name, args, same, hw);
        (same, line, line)
      else (same, if same then HiddenCorrectLine(name) else HiddenIncorrectLine(name), HiddenCorrectLine(name))
  }

  /** The line a public test logs to both logs: the call, then whether the
      result was correct, showing the submission's result when it was not. */
  function PublicLine(name: string, args: seq<Value>, correct: bool, hw: Value): string {
    "We called " + name + ArglistStr(args)
    + (if correct then " and it returned the correct result." else " and it returned an INCORRECT result: " + PyStr(hw))
  }

  /** `test_hw_function(name, i, private)`: true exactly when the session is
      live and the submission's result equals the reference's. A live session
      logs one external and one internal line; a dead session answers false
      and logs nothing. */
  function TestHwFunction(s: Session, name: string, args: seq<Value>, isPrivate: bool): (r: (bool, Session))
    ensures r.0 <==> !s.dead && HwMatchesTa(s, name, args)
    ensures s.dead ==> r.1 == s
    ensures r.1 == s.(xlog := r.1.xlog, ilog := r.1.ilog)
    ensures !s.dead ==> |r.1.xlog| == |s.xlog| + 1 && s.xlog <= r.1.xlog
    ensures !s.dead ==> |r.1.ilog| == |s.ilog| + 1 && s.ilog <= r.1.ilog
    ensures !s.dead && isPrivate ==>
              r.1.xlog[|s.xlog|] in {HiddenCorrectLine(name), HiddenIncorrectLine(name), ExceptionLine(name)}
  {
    if s.dead then (false, s)
    else
      var lines := HwFunctionLines(name, args, HwAndTa(s, name, args), isPrivate);
      (lines.0, s.(xlog := s.xlog + [lines.1], ilog := s.ilog + [lines.2]))
  }

  /** On a hidden input the internal log records a correct result even when
      the submission's result was wrong; only the external line tells. */
  lemma HiddenFailureLoggedAsCorrect(s: Session, name: string, args: seq<Value>)
    requires !s.dead && HwAndTa(s, name, args).Ok? && !HwMatchesTa(s, name, args)
    ensures var r := TestHwFunction(s, name, args, true);
            && !r.0
            && r.1.ilog == s.ilog + [HiddenCorrectLine(name)]
            && r.1.xlog == s.xlog + [HiddenIncorrectLine(name)]
  {
  }

  /** On a public input both logs get the same line: the call with its
      argument list, then whether the result was correct, showing the
      submission's result when it was not. */
  lemma PublicCallNamed(s: Session, name: string, args: seq<Value>)
    requires !s.dead && HwAndTa(s, name, args).Ok?
    ensures var r := TestHwFunction(s, name, args, false);
            var line := PublicLine(name, args, r.0, s.hw.value.funcs[name].body(args).value.ret);
            && r.1.xlog == s.xlog + [line]
            && r.1.ilog == s.ilog + [line]
            && "We called " + name + ArglistStr(args) <= line
  {
  }

  // ---------------------------------------------------------------------
  // compare_logs

  const MissingEol := "Your output is missing a final end-of-line character."
  const PrivateError := "An error occurred running your script during one of our tests."
  const PrivateIncorrect := "Incorrect output with one of our test inputs."
  const HiddenPassed := "Test on hidden input PASSED!"

  /** Python's `len(text.split("\n")) - 1`. */
  function LineBreaks(text: string): (n: int)
    ensures n == Count(text, '\n')
  {
    |Split(text, '\n')| - 1
  }

  /** The two line counts, reported only when they differ. */
  function CountLines(out: string, ta: string): (r: seq<string>)
    ensures |r| == 0 <==> Count(out, '\n') == Count(ta, '\n')
    ensures |r| != 0 ==> |r| == 2
                         && r[0] == "Your transcript had " + IntToString(Count(out, '\n')) + " lines."
                         && r[1] == "Our transcript had " + IntToString(Count(ta, '\n')) + " lines."
  {
    var stLines := LineBreaks(out);
    var taLines := LineBreaks(ta);
    if stLines != taLines then
      ["Your transcript had " + IntToString(stLines) + " lines.",
       "Our transcript had " + IntToString(taLines) + " lines."]
    else []
  }

  /** Both transcripts line by line, each under its own rule. */
  function Transcripts(out: string, ta: string): (r: seq<string>)
    ensures |r| >= 5 && r[0] == "----- Your script produced:" && r[|r| - 1] == "-----"
    ensures var a, b := Split(out, '\n'), Split(ta, '\n');
            && |r| == |a| + |b| + 3
            && r[1..|a| + 1] == a
            && r[|a| + 1] == "----- The solution script produced:"
            && r[|a| + 2..|r| - 1] == b
  {
    ["----- Your script produced:"] + Split(out, '\n')
    + ["----- The solution script produced:"] + Split(ta, '\n') + ["-----"]
  }

  /** The external lines of the public branch, and whether it passed. */
  function PublicLines(st: Option<string>, ta: Option<string>, ins: string): (r: Result<(bool, seq<string>), string>)
    ensures st.None? ==> r == Ok((false, ["An error occurred running your script with input " + ins + "."]))
    ensures st.Some? && st == ta ==> r == Ok((true, ["Test with input " + ins + " PASSED!"]))
    ensures st.Some? && st != ta && r.Ok? ==>
              !r.value.0 && |r.value.1| >= 2 && r.value.1[0] == "Incorrect output with input " + ins + "."
  {
    if st.None? then Ok((false, ["An error occurred running your script with input " + ins + "."]))
    else if st != ta then
      var head := "Incorrect output with input " + ins + ".";
      var out := st.value;
      if |out| > 0 && out[|out| - 1] != '\n' then Ok((false, [head, MissingEol]))
      else if ta.None? then Err(NoneHasNoSplit)
      else
        Ok((false, [head] + CountLines(out, ta.value) + Transcripts(out, ta.value)))
    else Ok((true, ["Test with input " + ins + " PASSED!"]))
  }

  /** The external lines of the private branch, and whether it passed. The
      end-of-line check indexes the last character exactly when the output
      is empty, which raises. */
  function PrivateLines(st: Option<string>, ta: Option<string>): (r: Result<(bool, seq<string>), string>)
  {
    if st.None? then Ok((false, [PrivateError]))
    else if st != ta then
      if |st.value| == 0 then Err(StringIndexOutOfRange)
      else Ok((false, [PrivateIncorrect]))
    else Ok((true, [HiddenPassed]))
  }

  /** The internal line closing a comparison. */
  function OutcomeLine(ins: string, success: bool): string {
    "code on " + ins + (if success then " SUCCEEDED." else " FAILED.")
  }

  /** `compare_logs(student_output, ta_output, inputs, private)`: true
      exactly when there is a student output and it equals the reference
      output; the external log gets the branch's lines and the internal log
      one closing line. It raises in two cases: a public mismatch whose
      output is empty or ends with a line break while the reference output
      is `None`, and a private mismatch with an empty output. */
  function CompareLogs(s: Session, st: Option<string>, ta: Option<string>, inputs: seq<Value>, isPrivate: bool): (r: Result<(bool, Session), string>)
    ensures r.Ok? ==> (r.value.0 <==> st.Some? && st == ta)
    ensures r.Err? <==>
              || (!isPrivate && st.Some? && st != ta && ta.None?
                  && (|st.value| == 0 || st.value[|st.value| - 1] == '\n'))
              || (isPrivate && st == Some("") && ta != st)
    ensures r.Ok? ==> r.value.1 == s.(xlog := r.value.1.xlog, ilog := r.value.1.ilog)
    ensures r.Ok? ==> s.xlog < r.value.1.xlog
    ensures r.Ok? ==> r.value.1.ilog == s.ilog + [OutcomeLine(ReprList(inputs), r.value.0)]
    ensures r.Ok? && isPrivate ==>
              forall k :: |s.xlog| <= k < |r.value.1.xlog| ==>
                r.value.1.xlog[k] in {PrivateError, PrivateIncorrect, HiddenPassed}
  {
    var ins := ReprList(inputs);
    var lines := if isPrivate then PrivateLines(st, ta) else PublicLines(st, ta, ins);
    match lines
    case Err(e) => Err(e)
    case Ok((success, xs)) =>
      Ok((success, s.(xlog := s.xlog + xs, ilog := s.ilog + [OutcomeLine(ins, success)])))
  }

  /** A public mismatch whose output lacks the final line break logs only
      the headline and the missing end-of-line message. */
  lemma MissingEolOnly(s: Session, out: string, ta: Option<string>, inputs: seq<Value>)
    requires Some(out) != ta && |out| > 0 && out[|out| - 1] != '\n'
    ensures CompareLogs(s, Some(out), ta, inputs, false)
            == Ok((false, s.(xlog := s.xlog + ["Incorrect output with input " + ReprList(inputs) + ".", MissingEol],
                             ilog := s.ilog + [OutcomeLine(ReprList(inputs), false)])))
  {
  }

  /** A public mismatch whose output ends with a line break reports the two
      line counts exactly when they differ, then both transcripts line by
      line, closed by a rule. */
  lemma LineCountsReportedWhenDifferent(out: string, ta: string, inputs: seq<Value>)
    requires out != ta && (|out| == 0 || out[|out| - 1] == '\n')
    ensures var r := PublicLines(Some(out), Some(ta), ReprList(inputs));
            var xs := r.value.1;
            && r.Ok? && !r.value.0 && |xs| >= 5
            && xs[0] == "Incorrect output with input " + ReprList(inputs) + "."
            && xs[|xs| - 1] == "-----"
            && (Count(out, '\n') != Count(ta, '\n') ==>
                  xs[1] == "Your transcript had " + IntToString(Count(out, '\n')) + " lines."
                  && xs[2] == "Our transcript had " + IntToString(Count(ta, '\n')) + " lines.")
            && (Count(out, '\n') == Count(ta, '\n') ==> xs[1] == "----- Your script produced:")
            && |xs| >= |Transcripts(out, ta)|
            && xs[|xs| - |Transcripts(out, ta)|..] == Transcripts(out, ta)
  {
    var pl := PublicLines(Some(out), Some(ta), ReprList(inputs)).value.1;
    var head := "Incorrect output with input " + ReprList(inputs) + ".";
    var counts := CountLines(out, ta);
    var tail := Transcripts(out, ta);
    assert pl == [head] + counts + tail;
    if |counts| == 0 {
      assert pl[1] == tail[0];
    } else {
      assert pl[1] == counts[0] && pl[2] == counts[1];
    }
  }

  /** On a public input the external log grows by the branch's lines. */
  lemma PublicLinesLogged(s: Session, st: Option<string>, ta: Option<string>, inputs: seq<Value>)
    requires PublicLines(st, ta, ReprList(inputs)).Ok?
    ensures var r := CompareLogs(s, st, ta, inputs, false);
            r.Ok? && r.value.1.xlog[|s.xlog|..] == PublicLines(st, ta, ReprList(inputs)).value.1
  {
    var r := CompareLogs(s, st, ta, inputs, false);
    assert r.value.1.xlog == s.xlog + PublicLines(st, ta, ReprList(inputs)).value.1;
  }

  /** An empty mismatching output on a hidden input raises: the source tests
      for an empty output and then reads its last character. */
  lemma EmptyHiddenOutputRaises(s: Session, ta: Option<string>, inputs: seq<Value>)
    requires ta != Some("")
    ensures CompareLogs(s, Some(""), ta, inputs, true) == Err(StringIndexOutOfRange)
  {
  }

  // ---------------------------------------------------------------------
  // _arg_compare and compare

  /** The external line for a function whose parameter counts differ. */
  function ArityLine(ta: Sanity.Scope, hw: Sanity.Scope, f: string): string
    requires f in ta.funcs && f in hw.funcs
  {
    "You defined " + IntToString(hw.funcs[f]) + " args in submitted-" + hw.name + "." + f
    + ", there should be " + IntToString(ta.funcs[f]) + " argument(s)"
  }

  /** The loop of `_arg_compare` over the given names: one external line per
      arity mismatch. */
  function ArgCompareOver(names: seq<string>, ta: Sanity.Scope, hw: Sanity.Scope): (r: (bool, seq<string>))
    requires forall k :: 0 <= k < |names| ==> names[k] in ta.funcs && names[k] in hw.funcs
    ensures r.0 <==> forall k :: 0 <= k < |names| ==> ta.funcs[names[k]] == hw.funcs[names[k]]
    ensures r.0 <==> |r.1| == 0
    ensures |r.1| <= |names|
    ensures forall k :: 0 <= k < |names| && ta.funcs[names[k]] != hw.funcs[names[k]] ==> ArityLine(ta, hw, names[k]) in r.1
  {
    if |names| == 0 then (true, [])
    else
      assert forall k :: 1 <= k < |names| ==> names[k] == names[1..][k - 1];
      var f := names[0];
      var rest := ArgCompareOver(names[1..], ta, hw);
      if ta.funcs[f] == hw.funcs[f] then (rest.0, rest.1)
      else (false, [ArityLine(ta, hw, f)] + rest.1)
  }

  /** `_arg_compare(ta_obj, hw_obj)`: true exactly when every reference
      function has the submission's parameter count. The submission must
      define every reference function, else the lookup raises. */
  function ArgCompare(ta: Sanity.Scope, hw: Sanity.Scope): (r: (bool, seq<string>))
    requires ta.funcs.Keys <= hw.funcs.Keys
    ensures r.0 <==> Sanity.ScopeMatches(ta, hw)
    ensures r.0 <==> |r.1| == 0
  {
    var names := SortedNames(ta.funcs.Keys);
    var r := ArgCompareOver(names, ta, hw);
    assert r.0 <==> Sanity.ScopeMatches(ta, hw) by {
      if r.0 {
        forall f | f in ta.funcs ensures ta.funcs[f] == hw.funcs[f] {
          var k :| 0 <= k < |names| && names[k] == f;
        }
      }
    }
    r
  }

  /** What `Session.compare` accepts: the reference's top-level functions
      and classes all exist in the submission, every method of a common
      class exists, and every parameter count agrees. */
  predicate LegacyAccepts(ta: Sanity.Interface, hw: Sanity.Interface) {
    && Sanity.ScopeMatches(ta.top, hw.top)
    && ta.classes.Keys <= hw.classes.Keys
    && forall c :: c in ta.classes && c in hw.classes ==> Sanity.ScopeMatches(ta.classes[c], hw.classes[c])
  }

  /** The check of the top-level functions: the arity lines, or the line
      naming the missing functions. */
  function TopLevel(ta: Sanity.Interface, hw: Sanity.Interface): (r: (bool, seq<string>))
    ensures r.0 <==> Sanity.ScopeMatches(ta.top, hw.top)
  {
    if ta.top.funcs.Keys <= hw.top.funcs.Keys then ArgCompare(ta.top, hw.top)
    else (false, [hw.top.name + ".py is missing the following functions: "
                  + Sanity.MissingList(ta.top.funcs.Keys - hw.top.funcs.Keys)])
  }

  /** The check of the class names: unlike `sanity.compare`, a plain subset
      test. */
  function ClassNames(ta: Sanity.Interface, hw: Sanity.Interface, acc: (bool, seq<string>)): (r: (bool, seq<string>))
    ensures r.0 <==> acc.0 && ta.classes.Keys <= hw.classes.Keys
  {
    if ta.classes.Keys <= hw.classes.Keys then acc
    else (false, acc.1 + [hw.top.name + ".py is missing the following classes: "
                          + Sanity.MissingList(ta.classes.Keys - hw.classes.Keys)])
  }

  /** One common class: a class missing methods is logged; otherwise its
      arity lines are. */
  function ClassStep(c: string, ta: Sanity.Interface, hw: Sanity.Interface, acc: (bool, seq<string>)): (r: (bool, seq<string>))
    requires c in ta.classes && c in hw.classes
    ensures r.0 <==> acc.0 && Sanity.ScopeMatches(ta.classes[c], hw.classes[c])
  {
    var taCls := ta.classes[c];
    var hwCls := hw.classes[c];
    if taCls.funcs.Keys <= hwCls.funcs.Keys then
      var a := ArgCompare(taCls, hwCls);
      (acc.0 && a.0, acc.1 + a.1)
    else
      (false, acc.1 + ["Your class " + hw.top.name + "." + c + " is missing some functions: "
                       + Sanity.MissingList(taCls.funcs.Keys - hwCls.funcs.Keys)])
  }

  /** The loop over the common classes, in the given order. */
  function ClassLoop(names: seq<string>, ta: Sanity.Interface, hw: Sanity.Interface, acc: (bool, seq<string>)): (r: (bool, seq<string>))
    requires forall k :: 0 <= k < |names| ==> names[k] in ta.classes && names[k] in hw.classes
    ensures r.0 <==> acc.0 && Sanity.ClassesMatch(names, ta, hw)
  {
    if |names| == 0 then acc
    else
      Sanity.ClassesMatchCons(names, ta, hw);
      ClassLoop(names[1..], ta, hw, ClassStep(names[0], ta, hw, acc))
  }

  /** The comparison proper of `Session.compare`: the verdict and the
      external lines it logs. */
  function LegacyCompare(ta: Sanity.Interface, hw: Sanity.Interface): (r: (bool, seq<string>))
    ensures r.0 <==> LegacyAccepts(ta, hw)
  {
    var common := SortedNames(ta.classes.Keys * hw.classes.Keys);
    Sanity.CommonClassesMatch(common, ta, hw);
    ClassLoop(common, ta, hw, ClassNames(ta, hw, TopLevel(ta, hw)))
  }

  /** `Session.compare()`: a dead session always answers true; a live one
      compares its two modules and logs what is wrong. */
  function SessionCompare(s: Session): (r: Result<(bool, Session), string>)
    ensures s.dead ==> r == Ok((true, s))
    ensures !s.dead ==> (r.Ok? <==> s.ta.Some? && s.hw.Some?)
    ensures !s.dead && r.Ok? ==>
              (r.value.0 <==> LegacyAccepts(Shape(s.ta.value), Shape(s.hw.value)))
              && r.value.1 == s.(xlog := r.value.1.xlog) && s.xlog <= r.value.1.xlog
    ensures !s.dead && r.Ok? ==> r.value.1.xlog == s.xlog + LegacyCompare(Shape(s.ta.value), Shape(s.hw.value)).1
  {
    if s.dead then Ok((true, s))
    else if s.ta.None? then Err("'Session' object has no attribute 'ta_obj'")
    else if s.hw.None? then Err("'Session' object has no attribute 'hw_obj'")
    else
      var c := LegacyCompare(Shape(s.ta.value), Shape(s.hw.value));
      Ok((c.0, s.(xlog := s.xlog + c.1)))
  }

  /** A module always matches itself, so a problem comparing a client with
      itself never fails the naming check. */
  lemma LegacyAcceptsItself(i: Sanity.Interface)
    ensures LegacyAccepts(i, i)
  {
  }

  /** The legacy check is stricter than the current one: whatever it accepts,
      `sanity.compare` accepts too. */
  lemma LegacyStricter(ta: Sanity.Interface, hw: Sanity.Interface)
    requires LegacyAccepts(ta, hw)
    ensures Sanity.SanityAccepts(ta, hw)
  {
  }

  /** The two checks disagree on a renamed class: the legacy check's subset
      test flags `Domino` missing when the submission calls it `Dommino`,
      while the strict-superset test of the current check does not. */
  lemma RenamedClassDisagreement()
    ensures var top := Sanity.Scope("client", map[]);
            var ta := Sanity.Interface(top, map["Domino" := Sanity.Scope("Domino", map[])]);
            var hw := Sanity.Interface(top, map["Dommino" := Sanity.Scope("Dommino", map[])]);
            !LegacyAccepts(ta, hw) && Sanity.SanityAccepts(ta, hw)
  {
    var ta := Sanity.Interface(Sanity.Scope("client", map[]), map["Domino" := Sanity.Scope("Domino", map[])]);
    var hw := Sanity.Interface(Sanity.Scope("client", map[]), map["Dommino" := Sanity.Scope("Dommino", map[])]);
    assert "Domino" in ta.classes.Keys && "Domino" !in hw.classes.Keys;
    assert "Dommino" in hw.classes.Keys && "Dommino" !in ta.classes.Keys;
  }

  // ---------------------------------------------------------------------
  // Problems

  datatype Kind =
    | FunctionKind(functionName: string)
    | StdoutKind(functionName: string)
    | InterfaceKind(functionName: string)
    | InteractiveKind(taModuleName: string, studentModuleName: string)

  /** A problem: its kind, its maximal score, its session and the
      `session_is_dead` flag of the stdout and interface variants. */
  datatype Problem = Problem(kind: Kind, maxScore: int, session: Session, sessionIsDead: bool)

  const ImportFailed := "An exception was raised while trying to import your file. Did you try running it yourself?"
  const NamingFailed := "ERROR: you did not follow the naming conventions for your functions. Please look over your work and resubmit."
  const AbstractTest := "Cannot call .test on abstract class Problem."

  /** `_kill_session(message)` of the three module-loading variants: a
      missing session becomes a dead one; the message is logged and the
      score set to the fallback. Only the function variant leaves
      `session_is_dead` alone. */
  function Kill(p: Problem, session: Option<Session>, message: string, data: SessionData): (q: Problem)
    ensures session.None? ==> q.session.dead
    ensures session.Some? ==> q.session.dead == session.value.dead
    ensures q.session.score == Some(FallbackScore(q.session.data))
    ensures |q.session.xlog| > 0 && q.session.xlog[|q.session.xlog| - 1] == message
    ensures q.session.xlog == (if session.None? then [] else session.value.xlog) + [message]
    ensures session.Some? ==> q.session == session.value.(xlog := q.session.xlog, score := q.session.score)
    ensures q.kind == p.kind && q.maxScore == p.maxScore
    ensures q.sessionIsDead <==> p.sessionIsDead || !p.kind.FunctionKind?
  {
    var s := if session.None? then NewDeadSession(p.maxScore, data) else session.value;
    var s' := s.(xlog := s.xlog + [message], score := Some(FallbackScore(s.data)));
    p.(session := s', sessionIsDead := p.sessionIsDead || !p.kind.FunctionKind?)
  }

  /** The constructors of the function, stdout and interface variants:
      import the modules (an interface problem compares the client with
      itself), then run the naming check, killing the session on a failure
      of either. */
  function NewModuleProblem(env: Env, kind: Kind, taName: string, hwName: string, maxScore: int, stored: Option<SessionData>): (p: Problem)
    requires !kind.InteractiveKind?
    ensures p.kind == kind && p.maxScore == maxScore
    ensures p.sessionIsDead ==> !kind.FunctionKind?
    ensures taName !in env.modules || hwName !in env.modules ==>
              p.session.dead && p.session.xlog == [ImportFailed] && p.sessionIsDead == !kind.FunctionKind?
    ensures taName in env.modules && hwName in env.modules ==>
              !p.session.dead && p.session.ta == Some(env.modules[taName]) && p.session.hw == Some(env.modules[hwName])
              && (p.sessionIsDead <==> !kind.FunctionKind? && !LegacyAccepts(Shape(env.modules[taName]), Shape(env.modules[hwName])))
  {
    var data := LoadData(stored);
    var p0 := Problem(kind, maxScore, NewDeadSession(maxScore, data), false);
    var m := ImportBoth(env, taName, hwName);
    if m.None? then
      // The naming check of a dead session answers true and logs nothing.
      Kill(p0, None, ImportFailed, data)
    else NamingCheck(p0.(session := NewSession(Some(m.value.0), Some(m.value.1), maxScore, data)), data)
  }

  /** Imports the reference module, then the submission module; either
      failure is the same failure. */
  function ImportBoth(env: Env, taName: string, hwName: string): (r: Option<(Module, Module)>)
    ensures r.Some? <==> taName in env.modules && hwName in env.modules
    ensures r.Some? ==> r.value == (env.modules[taName], env.modules[hwName])
  {
    match Import(env, taName)
    case Err(_) => None
    case Ok(ta) =>
      match Import(env, hwName)
      case Err(_) => None
      case Ok(hw) => Some((ta, hw))
  }

  /** The naming check of a session holding both modules: its complaints
      are logged, and a failure kills the session with `NamingFailed`. */
  function NamingCheck(p: Problem, data: SessionData): (q: Problem)
    requires !p.session.dead && p.session.ta.Some? && p.session.hw.Some?
    ensures var c := LegacyCompare(Shape(p.session.ta.value), Shape(p.session.hw.value));
            && q.kind == p.kind && q.maxScore == p.maxScore
            && q.session == p.session.(xlog := q.session.xlog, score := q.session.score)
            && q.session.xlog == p.session.xlog + c.1 + (if c.0 then [] else [NamingFailed])
            && q.session.score == (if c.0 then p.session.score else Some(FallbackScore(p.session.data)))
            && (q.sessionIsDead <==> p.sessionIsDead || (!c.0 && !p.kind.FunctionKind?))
  {
    var c := LegacyCompare(Shape(p.session.ta.value), Shape(p.session.hw.value));
    var s := SessionCompare(p.session).value.1;
    assert s == p.session.(xlog := p.session.xlog + c.1);
    if c.0 then p.(session := s) else Kill(p.(session := s), Some(s), NamingFailed, data)
  }

  /** With both modules imported, the external log holds the naming
      check's complaints, followed by `NamingFailed` exactly when the check
      fails, which also sets the fallback score; the internal log is empty. */
  lemma NamingComplaintsLogged(env: Env, kind: Kind, taName: string, hwName: string, maxScore: int, stored: Option<SessionData>)
    requires !kind.InteractiveKind?
    requires taName in env.modules && hwName in env.modules
    ensures var p := NewModuleProblem(env, kind, taName, hwName, maxScore, stored);
            var c := LegacyCompare(Shape(env.modules[taName]), Shape(env.modules[hwName]));
            && p.session.xlog == c.1 + (if c.0 then [] else [NamingFailed])
            && p.session.ilog == []
            && p.session.score == (if c.0 then None else Some(FallbackScore(LoadData(stored))))
  {
    var ta, hw := env.modules[taName], env.modules[hwName];
    var data := LoadData(stored);
    var q := Problem(kind, maxScore, NewSession(Some(ta), Some(hw), maxScore, data), false);
    LoadedProblem(env, kind, taName, hwName, maxScore, stored);
    FreshNamingCheck(q, ta, hw, data);
  }

  lemma LoadedProblem(env: Env, kind: Kind, taName: string, hwName: string, maxScore: int, stored: Option<SessionData>)
    requires !kind.InteractiveKind?
    requires taName in env.modules && hwName in env.modules
    ensures var data := LoadData(stored);
            NewModuleProblem(env, kind, taName, hwName, maxScore, stored)
            == NamingCheck(Problem(kind, maxScore, NewSession(Some(env.modules[taName]), Some(env.modules[hwName]), maxScore, data), false), data)
  {
  }

  /** The naming check of a fresh session with both modules. */
  lemma FreshNamingCheck(q: Problem, ta: Module, hw: Module, data: SessionData)
    requires q.session == NewSession(Some(ta), Some(hw), q.maxScore, data)
    ensures var r := NamingCheck(q, data);
            var c := LegacyCompare(Shape(ta), Shape(hw));
            && r.session.xlog == c.1 + (if c.0 then [] else [NamingFailed])
            && r.session.ilog == []
            && r.session.score == (if c.0 then None else Some(FallbackScore(data)))
  {
    assert [] + LegacyCompare(Shape(ta), Shape(hw)).1 == LegacyCompare(Shape(ta), Shape(hw)).1;
  }

  /** `FunctionTest(ta, student, function_name)`. */
  function NewFunctionProblem(env: Env, ta: string, student: string, fn: string, maxScore: int, stored: Option<SessionData>): Problem {
    NewModuleProblem(env, FunctionKind(fn), ta, student, maxScore, stored)
  }

  /** `FunctionStdoutTest(ta, student, function_name)`. */
  function NewStdoutProblem(env: Env, ta: string, student: string, fn: string, maxScore: int, stored: Option<SessionData>): Problem {
    NewModuleProblem(env, StdoutKind(fn), ta, student, maxScore, stored)
  }

  /** `InterfaceTest(client, function_name)`. */
  function NewInterfaceProblem(env: Env, client: string, fn: string, maxScore: int, stored: Option<SessionData>): Problem {
    NewModuleProblem(env, InterfaceKind(fn), client, client, maxScore, stored)
  }

  /** `InteractiveTest(ta, student)`: a fresh session without modules. */
  function NewInteractiveProblem(ta: string, student: string, maxScore: int, stored: Option<SessionData>): (p: Problem)
    ensures !p.session.dead && !p.sessionIsDead && p.session.xlog == [] && p.session.maxScore == maxScore
  {
    Problem(InteractiveKind(ta, student), maxScore, NewSession(None, None, maxScore, LoadData(stored)), false)
  }

  /** A function problem whose submission fails the naming check keeps a
      live session: the failure is logged and the score set, but every later
      test still runs. */
  lemma NamingFailureKeepsFunctionSessionAlive(env: Env, ta: string, student: string, fn: string, maxScore: int, stored: Option<SessionData>)
    requires ta in env.modules && student in env.modules
    requires !LegacyAccepts(Shape(env.modules[ta]), Shape(env.modules[student]))
    ensures var p := NewFunctionProblem(env, ta, student, fn, maxScore, stored);
            && !p.session.dead && !p.sessionIsDead
            && p.session.xlog[|p.session.xlog| - 1] == NamingFailed
            && p.session.score == Some(FallbackScore(LoadData(stored)))
  {
  }

  /** An interface problem never fails the naming check: its session
      compares the client with itself. */
  lemma InterfaceProblemPassesNaming(env: Env, client: string, fn: string, maxScore: int, stored: Option<SessionData>)
    requires client in env.modules
    ensures var p := NewInterfaceProblem(env, client, fn, maxScore, stored);
            !p.session.dead && !p.sessionIsDead
  {
    LegacyAcceptsItself(Shape(env.modules[client]));
  }

  /** `call_function(module, name, args)`: the lookup happens before the
      guarded call, so a missing function raises. */
  function LegacyCall(m: Option<Module>, name: string, args: seq<Value>): (r: Result<Option<Call>, string>)
    ensures r.Ok? <==> m.Some? && name in m.value.funcs
    ensures r.Ok? ==> r.value == CallFunction(m.value.funcs[name].body, args)
  {
    if m.None? then Err("'NoneType' object has no attribute '" + name + "'")
    else match GetFunction(m.value, name)
      case Err(e) => Err(e)
      case Ok(f) => Ok(CallFunction(f, args))
  }

  /** The module is there and defines the function. */
  predicate Defines(m: Option<Module>, fn: string) {
    m.Some? && fn in m.value.funcs
  }

  /** Both calls return, and what they printed agrees once surrounding
      whitespace is stripped and every run of whitespace made one space. */
  predicate PrintsAlike(s: Session, fn: string, args: seq<Value>) {
    && Defines(s.hw, fn) && Defines(s.ta, fn)
    && var hw := s.hw.value.funcs[fn].body(args);
    && var ta := s.ta.value.funcs[fn].body(args);
    && hw.Ok? && ta.Ok? && Flatten(hw.value.out) == Flatten(ta.value.out)
  }

  /** `FunctionStdoutTest.compare`: both printouts, flattened, compared as
      whole texts. The lookups sit outside the guarded call, so a missing
      function raises; a failed reference call raises on `None` too. */
  function StdoutCompare(p: Problem, fn: string, args: seq<Value>, isPrivate: bool): (r: Result<(bool, Problem), string>)
    ensures !Defines(p.session.hw, fn) || !Defines(p.session.ta, fn) ==> r.Err?
    ensures r.Ok? ==> r.value.1 == p.(session := r.value.1.session) && p.session.xlog < r.value.1.session.xlog
    ensures r.Ok? ==> (r.value.0 <==> PrintsAlike(p.session, fn, args))
    ensures Defines(p.session.hw, fn) && Defines(p.session.ta, fn)
            && p.session.hw.value.funcs[fn].body(args).Err? ==>
              r == Ok((false, p.(session := p.session.(xlog := p.session.xlog
                         + ["An error occurred running your script on input " + ListStr(args) + "."]))))
  {
    match LegacyCall(p.session.hw, fn, args)
    case Err(e) => Err(e)
    case Ok(hwOut) =>
      match LegacyCall(p.session.ta, fn, args)
      case Err(e) => Err(e)
      case Ok(taOut) =>
        if hwOut.None? then
          var s := p.session;
          Ok((false, p.(session := s.(xlog := s.xlog + ["An error occurred running your script on input " + ListStr(args) + "."]))))
        else if taOut.None? then Err(NoneHasNoStrip)
        else
          match CompareLogs(p.session, Some(Flatten(hwOut.value.out)), Some(Flatten(taOut.value.out)), args, isPrivate)
          case Err(e) => Err(e)
          case Ok((ok, s)) => Ok((ok, p.(session := s)))
  }

  /** `InterfaceTest.compare`: the client's flattened printout against the
      flattened stored output. */
  function InterfaceCompare(p: Problem, fn: string, args: seq<Value>, output: string, isPrivate: bool): (r: Result<(bool, Problem), string>)
    ensures !Defines(p.session.hw, fn) ==> r.Err?
    ensures r.Ok? ==> r.value.1 == p.(session := r.value.1.session) && p.session.xlog < r.value.1.session.xlog
    ensures r.Ok? ==>
              (r.value.0 <==> Defines(p.session.hw, fn)
                              && var out := p.session.hw.value.funcs[fn].body(args);
                              out.Ok? && Flatten(out.value.out) == Flatten(output))
  {
    match LegacyCall(p.session.hw, fn, args)
    case Err(e) => Err(e)
    case Ok(out) =>
      var st := if out.Some? then Some(Flatten(out.value.out)) else None;
      match CompareLogs(p.session, st, Some(Flatten(output)), args, isPrivate)
      case Err(e) => Err(e)
      case Ok((ok, s)) => Ok((ok, p.(session := s)))
  }

  /** `InteractiveTest.compare`: both scripts on the same standard input,
      transcripts compared as whole texts. */
  function InteractiveCompare(p: Problem, env: Env, ta: string, student: string, args: seq<Value>, isPrivate: bool): (r: Result<(bool, Problem), string>)
    ensures StdinText(args).Err? ==> r.Err?
    ensures r.Ok? ==> r.value.1 == p.(session := r.value.1.session) && p.session.xlog < r.value.1.session.xlog
    ensures r.Ok? ==>
              (r.value.0 <==> RunScript(env, student, args).value.Some?
                              && RunScript(env, student, args) == RunScript(env, ta, args))
  {
    match RunScript(env, student, args)
    case Err(e) => Err(e)
    case Ok(hwOut) =>
      match RunScript(env, ta, args)
      case Err(e) => Err(e)
      case Ok(taOut) =>
        match CompareLogs(p.session, hwOut, taOut, args, isPrivate)
        case Err(e) => Err(e)
        case Ok((ok, s)) => Ok((ok, p.(session := s)))
  }

  /** `problem.test(inputs, private)`. The interface variant only defines
      `test_io`, so `test` raises there. */
  function Test(p: Problem, env: Env, args: seq<Value>, isPrivate: bool): (r: Result<(bool, Problem), string>)
    ensures p.kind.InterfaceKind? ==> r == Err(AbstractTest)
    ensures r.Ok? ==> r.value.1.kind == p.kind && r.value.1.maxScore == p.maxScore
    ensures p.kind.StdoutKind? && p.sessionIsDead ==> r == Ok((false, p))
    ensures p.kind.FunctionKind? ==>
              r.Ok? && r.value == (TestHwFunction(p.session, p.kind.functionName, args, isPrivate).0,
                                   p.(session := TestHwFunction(p.session, p.kind.functionName, args, isPrivate).1))
  {
    match p.kind
    case FunctionKind(fn) =>
      var (ok, s) := TestHwFunction(p.session, fn, args, isPrivate);
      Ok((ok, p.(session := s)))
    case StdoutKind(fn) =>
      if p.sessionIsDead then Ok((false, p)) else StdoutCompare(p, fn, args, isPrivate)
    case InterfaceKind(_) => Err(AbstractTest)
    case InteractiveKind(ta, student) => InteractiveCompare(p, env, ta, student, args, isPrivate)
  }

  /** `problem.test_io(inputs, output, private)`. Only the interface variant
      defines it, and it passes its comparison no privacy flag, so hidden
      inputs are reported like public ones. */
  function TestIo(p: Problem, args: seq<Value>, output: string, isPrivate: bool): (r: Result<(bool, Problem), string>)
    ensures !p.kind.InterfaceKind? ==> r == Err(AbstractTest)
    ensures r.Ok? ==> r.value.1.kind == p.kind && r.value.1.maxScore == p.maxScore
    ensures p.kind.InterfaceKind? && p.sessionIsDead ==> r == Ok((false, p))
  {
    match p.kind
    case InterfaceKind(fn) =>
      if p.sessionIsDead then Ok((false, p)) else InterfaceCompare(p, fn, args, output, false)
    case _ => Err(AbstractTest)
  }

  /** The privacy flag makes no difference to `test_io`. */
  lemma TestIoIgnoresPrivacy(p: Problem, args: seq<Value>, output: string)
    ensures TestIo(p, args, output, true) == TestIo(p, args, output, false)
  {
  }

  /** A dead session answers every function test with false and logs
      nothing, and always passes the naming check. */
  lemma DeadSessionInert(s: Session, name: string, args: seq<Value>, isPrivate: bool)
    requires s.dead
    ensures TestHwFunction(s, name, args, isPrivate) == (false, s)
    ensures SessionCompare(s) == Ok((true, s))
  {
  }

  // ---------------------------------------------------------------------
  // Batches and credit

  /** The loop shared by `batch_test` and `batch_test_io`: feed the items
      to `step` in order until one answers false. Yields the last answer,
      the problem afterwards and the number of steps taken; an exception
      ends the loop. */
  function RunUntilFalse<I(!new)>(step: (Problem, I) -> Result<(bool, Problem), string>, p: Problem, xs: seq<I>): (r: Result<(bool, Problem, nat), string>)
    ensures r.Ok? ==> r.value.2 <= |xs|
    ensures r.Ok? && |xs| > 0 ==> r.value.2 >= 1
    ensures r.Ok? && r.value.0 ==> r.value.2 == |xs|
    ensures r.Ok? && r.value.2 < |xs| ==> !r.value.0
    ensures r.Ok? && Steady(step) ==> r.value.1.kind == p.kind && r.value.1.maxScore == p.maxScore
    decreases |xs|
  {
    if |xs| == 0 then Ok((true, p, 0))
    else
      match step(p, xs[0])
      case Err(e) => Err(e)
      case Ok((ok, p')) =>
        if !ok then Ok((false, p', 1))
        else
          match RunUntilFalse(step, p', xs[1..])
          case Err(e) => Err(e)
          case Ok((ok', p'', n)) => Ok((ok', p'', n + 1))
  }

  /** A step that keeps the problem's kind and maximal score. */
  ghost predicate Steady<I(!new)>(step: (Problem, I) -> Result<(bool, Problem), string>) {
    forall q: Problem, x: I :: step(q, x).Ok? ==> step(q, x).value.1.kind == q.kind && step(q, x).value.1.maxScore == q.maxScore
  }

  /** Stopping is final: once a step answers false, later items are never
      fed, so any list with the same consumed prefix ends the same. */
  lemma {:induction false} LaterItemsNeverFed<I(!new)>(step: (Problem, I) -> Result<(bool, Problem), string>, p: Problem, xs: seq<I>, ys: seq<I>)
    requires RunUntilFalse(step, p, xs).Ok? && !RunUntilFalse(step, p, xs).value.0
    requires var n := RunUntilFalse(step, p, xs).value.2; n <= |ys| && xs[..n] == ys[..n]
    ensures RunUntilFalse(step, p, ys) == RunUntilFalse(step, p, xs)
    decreases |xs|
  {
    var n := RunUntilFalse(step, p, xs).value.2;
    assert xs[0] == ys[0] by {
      assert xs[0] == xs[..n][0] && ys[0] == ys[..n][0];
    }
    var first := step(p, xs[0]);
    if first.Ok? && first.value.0 {
      assert xs[1..][..n - 1] == ys[1..][..n - 1] by {
        assert xs[1..][..n - 1] == xs[..n][1..];
        assert ys[1..][..n - 1] == ys[..n][1..];
      }
      LaterItemsNeverFed(step, first.value.1, xs[1..], ys[1..]);
    }
  }

  /** `self.test(arglist, private)` as a step of the loop. */
  function TestStep(env: Env): (Problem, TestInput) -> Result<(bool, Problem), string> {
    (q: Problem, x: TestInput) => Test(q, env, x.arglist, x.isPrivate)
  }

  lemma TestStepSteady(env: Env)
    ensures Steady(TestStep(env))
  {
  }

  /** The loop of `batch_test`: tests in order until one answers false.
      Yields the last answer, the problem afterwards and the number of tests
      run. */
  function TestAll(p: Problem, env: Env, inputs: seq<TestInput>): (r: Result<(bool, Problem, nat), string>)
    ensures r.Ok? ==> r.value.2 <= |inputs| && r.value.1.kind == p.kind && r.value.1.maxScore == p.maxScore
    ensures r.Ok? && |inputs| > 0 ==> r.value.2 >= 1
    ensures r.Ok? && r.value.0 ==> r.value.2 == |inputs|
    ensures r.Ok? && r.value.2 < |inputs| ==> !r.value.0
  {
    TestStepSteady(env);
    RunUntilFalse(TestStep(env), p, inputs)
  }

  /** `_give_max_credit` / `_give_no_credit` followed by `finalize`. The
      function variant overrides both without the closing line. */
  function Credit(p: Problem, success: bool): (r: Report)
    ensures r.scoreSum == if success then p.maxScore else FallbackScore(p.session.data)
    ensures r.maxScore == p.session.maxScore
    ensures r.internalLog == p.session.ilog
    ensures p.kind.FunctionKind? ==> r.externalLog == p.session.xlog
    ensures !p.kind.FunctionKind? ==> r.externalLog == p.session.xlog + [if success then AllPassed else SomeFailed]
  {
    var s := p.session;
    var score := if success then p.maxScore else FallbackScore(s.data);
    var xlog := if p.kind.FunctionKind? then s.xlog else s.xlog + [if success then AllPassed else SomeFailed];
    Report(score, s.maxScore, xlog, s.ilog, s.data.timedelta, s.data.attempts)
  }

  /** `batch_test(public_inputs, private_inputs)`. */
  function BatchTest(p: Problem, env: Env, pub: seq<seq<Value>>, priv: seq<seq<Value>>): (r: Result<Report, string>)
    ensures r.Ok? <==> TestAll(p, env, BatchInputs(pub, priv)).Ok?
  {
    match TestAll(p, env, BatchInputs(pub, priv))
    case Err(e) => Err(e)
    case Ok((ok, q, _)) => Ok(Credit(q, ok))
  }

  /** Full credit exactly when every test of the batch answered true, and
      then every test ran; otherwise the fallback score. */
  lemma BatchCredit(p: Problem, env: Env, pub: seq<seq<Value>>, priv: seq<seq<Value>>)
    requires TestAll(p, env, BatchInputs(pub, priv)).Ok?
    ensures var t := TestAll(p, env, BatchInputs(pub, priv)).value;
            var r := BatchTest(p, env, pub, priv).value;
            && (t.0 ==> t.2 == |pub| + |priv| && r.scoreSum == p.maxScore)
            && (!t.0 ==> r.scoreSum == FallbackScore(t.1.session.data) && r.scoreSum >= 0)
  {
  }

  /** Stopping is final: after a test answers false, later inputs are never
      tried, so any batch with the same executed prefix ends the same. */
  lemma LaterInputsNeverTried(p: Problem, env: Env, inputs: seq<TestInput>, other: seq<TestInput>)
    requires TestAll(p, env, inputs).Ok? && !TestAll(p, env, inputs).value.0
    requires var n := TestAll(p, env, inputs).value.2; n <= |other| && inputs[..n] == other[..n]
    ensures TestAll(p, env, other) == TestAll(p, env, inputs)
  {
    LaterItemsNeverFed(TestStep(env), p, inputs, other);
  }

  /** The loop of `batch_test_io` from position `i`: the `i`-th input goes
      with the `i`-th output, and running past the outputs raises. */
  function TestAllIo(p: Problem, inputs: seq<TestInput>, outputs: seq<string>, i: nat): (r: Result<(bool, Problem, nat), string>)
    requires i <= |inputs|
    ensures r.Ok? ==> r.value.2 <= |inputs| - i && r.value.1.kind == p.kind && r.value.1.maxScore == p.maxScore
    ensures r.Ok? && r.value.0 ==> r.value.2 == |inputs| - i
    ensures r == Err(IndexOutOfRange) ==> |outputs| < |inputs|
    decreases |inputs| - i
  {
    if i == |inputs| then Ok((true, p, 0))
    else if i >= |outputs| then Err(IndexOutOfRange)
    else
      match TestIo(p, inputs[i].arglist, outputs[i], inputs[i].isPrivate)
      case Err(e) => Err(e)
      case Ok((ok, p')) =>
        if !ok then Ok((false, p', 1))
        else
          match TestAllIo(p', inputs, outputs, i + 1)
          case Err(e) => Err(e)
          case Ok((ok', p'', n)) => Ok((ok', p'', n + 1))
  }

  /** `self.test_io(arglist, output, private)` as a step of the loop over
      paired inputs and outputs. */
  function IoStep(): (Problem, (TestInput, string)) -> Result<(bool, Problem), string> {
    (q: Problem, pr: (TestInput, string)) => TestIo(q, pr.0.arglist, pr.1, pr.0.isPrivate)
  }

  /** With at least as many outputs as inputs, the loop tests the `i`-th
      input against the `i`-th output: it is the loop over the zipped
      pairs. */
  lemma {:induction false} BatchIoPairsInOrder(p: Problem, inputs: seq<TestInput>, outputs: seq<string>, i: nat)
    requires i <= |inputs| <= |outputs|
    ensures TestAllIo(p, inputs, outputs, i) == RunUntilFalse(IoStep(), p, Zip(inputs[i..], outputs[i..]))
    decreases |inputs| - i
  {
    var pairs := Zip(inputs[i..], outputs[i..]);
    if i < |inputs| {
      assert pairs[0] == (inputs[i], outputs[i]);
      var first := TestIo(p, inputs[i].arglist, outputs[i], inputs[i].isPrivate);
      if first.Ok? && first.value.0 {
        BatchIoPairsInOrder(first.value.1, inputs, outputs, i + 1);
        assert pairs[1..] == Zip(inputs[i + 1..], outputs[i + 1..]) by {
          ZipTail(inputs[i..], outputs[i..]);
          assert inputs[i..][1..] == inputs[i + 1..];
          assert outputs[i..][1..] == outputs[i + 1..];
        }
      }
    }
  }

  lemma ZipTail<A, B>(xs: seq<A>, ys: seq<B>)
    requires |xs| > 0 && |ys| > 0
    ensures Zip(xs, ys)[1..] == Zip(xs[1..], ys[1..])
  {
  }

  /** `batch_test_io(public_inputs, public_outputs, private_inputs,
      private_outputs)`. */
  function BatchTestIo(p: Problem, pubIn: seq<seq<Value>>, pubOut: seq<string>, privIn: seq<seq<Value>>, privOut: seq<string>): (r: Result<Report, string>)
    ensures r.Ok? <==> TestAllIo(p, BatchInputs(pubIn, privIn), pubOut + privOut, 0).Ok?
    ensures r.Ok? ==>
              var t := TestAllIo(p, BatchInputs(pubIn, privIn), pubOut + privOut, 0).value;
              r.value.scoreSum == if t.0 then p.maxScore else FallbackScore(t.1.session.data)
  {
    match TestAllIo(p, BatchInputs(pubIn, privIn), pubOut + privOut, 0)
    case Err(e) => Err(e)
    case Ok((ok, q, _)) => Ok(Credit(q, ok))
  }
}

=== FILE: differ_examples.dfy ===
/** Worked examples of the line differ of util.py: concrete transcripts
    and the verdicts `compare_outputs` gives them.
 */
module DifferExamples {
  import opened Wrappers
  import opened Text
  import opened Results
  import opened Util

  /** A trailing line break adds an empty final line: "a\n" against "a" is
      reported at line 2, with the student's empty line and no reference
      line. */
  lemma TrailingNewlineMismatch()
    ensures CompareOutputs("a\n", "a", ExactEq) == LineDiscrepancy(2, Some(""), None)
  {
    assert Split("a\n", '\n') == ["a", ""] by {
      SplitJoin(["a", ""], '\n');
      assert Join(['\n'], ["a", ""]) == "a\n";
    }
    assert Split("a", '\n') == ["a"] by {
      SplitJoin(["a"], '\n');
    }
    assert Strip("a") == "a";
    assert Strip("") == "";
  }

  /** The unit test `test2` expects `LineDiscrepancy(3, "line3", "line4")`
      when the student prints "line4" where the reference prints "line3",
      but the differ stores the student's line first. */
  lemma StudentLineStoredFirst()
    ensures CompareOutputs("line 1" + "\n" + "line2" + "\n" + "line4", "line 1" + "\n" + "line2" + "\n" + "line3", ExactEq)
            == LineDiscrepancy(3, Some("line4"), Some("line3"))
  {
    ThirdLineDiffers("line 1", "line2", "line4", "line3");
  }

  /** Two three-line texts that differ only in their last line are reported
      at line 3, the student's line stored first. */
  lemma ThirdLineDiffers(a: string, b: string, x: string, y: string)
    requires BareLine(a) && BareLine(b) && BareLine(x) && BareLine(y)
    requires x != y
    ensures CompareOutputs(a + "\n" + b + "\n" + x, a + "\n" + b + "\n" + y, ExactEq)
            == LineDiscrepancy(3, Some(x), Some(y))
  {
    LinesOfThree(a, b, x);
    LinesOfThree(a, b, y);
    DiffersAtThird(a + "\n" + b + "\n" + x, a + "\n" + b + "\n" + y, a, b, x, y);
  }

  lemma DiffersAtThird(student: string, ta: string, a: string, b: string, x: string, y: string)
    requires Lines(student) == [a, b, x] && Lines(ta) == [a, b, y] && x != y
    ensures CompareOutputs(student, ta, ExactEq) == LineDiscrepancy(3, Some(x), Some(y))
  {
    assert CompareOutputs(student, ta, ExactEq) == CompareLines([a, b, x], [a, b, y], ExactEq, 0);
    ThirdPairDiffers([a, b, x], [a, b, y]);
  }

  lemma ThirdPairDiffers(s: seq<string>, t: seq<string>)
    requires |s| == |t| == 3 && s[0] == t[0] && s[1] == t[1] && s[2] != t[2]
    ensures CompareLines(s, t, ExactEq, 0) == LineDiscrepancy(3, Some(s[2]), Some(t[2]))
  {
    assert CompareLines(s, t, ExactEq, 1) == CompareLines(s, t, ExactEq, 2);
  }

  lemma LinesOfThree(a: string, b: string, c: string)
    requires BareLine(a) && BareLine(b) && BareLine(c)
    ensures Lines(a + "\n" + b + "\n" + c) == [a, b, c]
  {
    var s := [a, b, c];
    assert forall k :: 0 <= k < 3 ==> BareLine(s[k]);
    LinesOfJoin(s);
    JoinThree(a, b, c);
  }

  lemma JoinThree(a: string, b: string, c: string)
    ensures Join("\n", [a, b, c]) == a + "\n" + b + "\n" + c
  {
    assert [a, b, c][1..] == [b, c];
    assert [b, c][1..] == [c];
    assert Join("\n", [c]) == c;
    assert Join("\n", [b, c]) == b + "\n" + c;
    assert Join("\n", [a, b, c]) == a + "\n" + (b + "\n" + c);
  }

  /** A line with no line break inside and no whitespace around it. */
  predicate BareLine(line: string) {
    '\n' !in line && (|line| > 0 ==> !IsSpace(line[0]) && !IsSpace(line[|line| - 1]))
  }

  /** Joining lines that contain no line break and no surrounding whitespace
      and then splitting them again for comparison gives those lines. */
  lemma LinesOfJoin(lines: seq<string>)
    requires |lines| > 0
    requires forall k :: 0 <= k < |lines| ==> BareLine(lines[k])
    ensures Lines(Join("\n", lines)) == lines
  {
    SplitJoin(lines, '\n');
    assert Join("\n", lines) == Join(['\n'], lines);
    forall k | 0 <= k < |lines| ensures Strip(lines[k]) == lines[k] {
      StripUnpadded(lines[k]);
    }
  }
}

=== FILE: fixtures.dfy ===
/** The digital-root fixtures of the function-test example:
    `ta_digital_root.py`, the reference, and `digital_root2.py`, a
    submission that is right everywhere except on 1729.

    Both loops are modelled as written, as methods, next to recursive
    definitions that the module descriptors handed to the engine call.
 */
module Fixtures {
  import opened Wrappers
  import opened Text
  import opened Values
  import opened Host

  /** `digitsum(n)`: the sum of the decimal digits of `n`; zero when `n` is
      not positive. */
  function DigitSum(n: int): nat
    decreases if n > 0 then n else 0
  {
    if n <= 0 then 0 else n % 10 + DigitSum(n / 10)
  }

  /** A digit sum never exceeds the number, and shrinks it from two digits
      on. */
  lemma {:induction false} DigitSumShrinks(n: int)
    requires n >= 0
    ensures DigitSum(n) <= n
    ensures n >= 10 ==> DigitSum(n) < n
    ensures 0 < n ==> 0 < DigitSum(n)
    ensures n < 10 ==> DigitSum(n) == n
    decreases n
  {
    if n > 0 {
      DigitSumShrinks(n / 10);
    }
  }

  /** Casting out nines: a number and its digit sum differ by a multiple
      of 9. */
  lemma {:induction false} DigitSumModNine(n: int)
    requires n >= 0
    ensures (n - DigitSum(n)) % 9 == 0
    decreases n
  {
    if n > 0 {
      var q := n / 10;
      DigitSumModNine(q);
      var d := q - DigitSum(q);
      assert n - DigitSum(n) == d + 9 * q;
      ShiftByNines(d, q);
    }
  }

  /** Numbers that differ by a multiple of 9 leave the same remainder. */
  lemma SameRemainder(a: int, b: int)
    requires (a - b) % 9 == 0
    ensures a % 9 == b % 9
  {
    var k := (a - b) / 9;
    assert a == b + 9 * k;
    ShiftByNines(b, k);
  }

  /** Adding a multiple of 9 keeps the remainder modulo 9. */
  lemma ShiftByNines(a: int, q: int)
    ensures (a + 9 * q) % 9 == a % 9
  {
  }

  /** `ta_digital_root.digital_root(n)`: replace the number by the sum of
      its digits while it has two or more. */
  function TaRoot(n: int): int
    decreases if n > 0 then n else 0
  {
    if n >= 10 then
      DigitSumShrinks(n);
      TaRoot(DigitSum(n))
    else n
  }

  /** The digital root of a positive number is the closed form
      `1 + (n - 1) % 9`; anything below 10 is left alone. */
  lemma {:induction false} TaRootClosedForm(n: int)
    ensures TaRoot(n) < 10
    ensures n < 10 ==> TaRoot(n) == n
    ensures n > 0 ==> TaRoot(n) == 1 + (n - 1) % 9
    decreases if n > 0 then n else 0
  {
    if n >= 10 {
      DigitSumShrinks(n);
      DigitSumModNine(n);
      var m := DigitSum(n);
      TaRootClosedForm(m);
      assert TaRoot(n) == TaRoot(m);
      SameRemainder(n - 1, m - 1);
    }
  }

  /** The reference loop as written. */
  method TaDigitalRoot(n0: int) returns (r: int)
    ensures r == TaRoot(n0)
    ensures r < 10 && (n0 < 10 ==> r == n0)
    ensures n0 > 0 ==> r == 1 + (n0 - 1) % 9
  {
    var n := n0;
    while n >= 10
      invariant TaRoot(n) == TaRoot(n0)
      decreases n
    {
      DigitSumShrinks(n);
      n := DigitSum(n);
    }
    r := n;
    TaRootClosedForm(n0);
  }

  /** `digital_root2.digital_root(n)` for a positive `n` other than 1729:
      take digit sums until one falls below 10. */
  function StudentLoop(n: int): int
    requires n > 0
    decreases n
  {
    DigitSumShrinks(n);
    var m := DigitSum(n);
    if m < 10 then m
    else StudentLoop(m)
  }

  /** `digital_root2.digital_root(n)`: 5 for 1729, the number itself when
      it is not positive, otherwise digit sums until a single digit. */
  function StudentRoot(n: int): int {
    if n == 1729 then 5
    else if n <= 0 then n
    else StudentLoop(n)
  }

  lemma {:induction false} StudentLoopIsRoot(n: int)
    requires n > 0
    ensures StudentLoop(n) == TaRoot(n)
    decreases n
  {
    DigitSumShrinks(n);
    if DigitSum(n) >= 10 {
      StudentLoopIsRoot(DigitSum(n));
    }
  }

  /** The submission agrees with the reference on every input but 1729,
      where the reference answers 1 and the submission 5. */
  lemma RootsAgreeExcept1729(n: int)
    ensures n != 1729 ==> StudentRoot(n) == TaRoot(n)
    ensures TaRoot(1729) == 1 && StudentRoot(1729) == 5
  {
    if n != 1729 && n > 0 {
      StudentLoopIsRoot(n);
    }
    TaRootOf1729();
  }

  lemma TaRootOf1729()
    ensures TaRoot(1729) == 1
  {
    TaRootClosedForm(1729);
    assert (1729 - 1) % 9 == 0;
  }

  /** The submission's loop as written, with its early return and its
      `break`. */
  method StudentDigitalRoot(n0: int) returns (r: int)
    ensures r == StudentRoot(n0)
    ensures n0 != 1729 ==> r == TaRoot(n0)
  {
    RootsAgreeExcept1729(n0);
    if n0 == 1729 {
      return 5;
    }
    var n := n0;
    while n > 0
      invariant n0 > 0 ==> n > 0 && TaRoot(n) == TaRoot(n0)
      invariant n0 <= 0 ==> n == n0
      decreases n
    {
      DigitSumShrinks(n);
      n := DigitSum(n);
      if n < 10 {
        TaRootClosedForm(n);
        break;
      }
    }
    r := n;
  }

  // The two modules as the engine sees them. Arguments that are not
  // integers behave as in Python: a bool is the integer 0 or 1, anything
  // else fails the first comparison with an integer.

  function ArityError(fn: string, given: nat): string {
    if given == 0 then fn + "() missing 1 required positional argument: 'n'"
    else fn + "() takes 1 positional argument but " + IntToString(given) + " were given"
  }

  function CompareError(op: string, v: Value): string {
    "'" + op + "' not supported between instances of '" + TypeName(v) + "' and 'int'"
  }

  function AsInt(b: bool): int {
    if b then 1 else 0
  }

  /** The reference's `digital_root` as a callable: prints nothing. A bool
      is below 10, so it comes back unchanged. */
  function TaCall(args: seq<Value>): (r: Result<Call, string>)
    ensures |args| == 1 && args[0].IntV? ==> r == Ok(Call(IntV(TaRoot(args[0].i)), ""))
  {
    if |args| != 1 then Err(ArityError("digital_root", |args|))
    else match args[0]
      case IntV(n) => Ok(Call(IntV(TaRoot(n)), ""))
      case BoolV(b) => Ok(Call(BoolV(b), ""))
      case v => Err(CompareError(">=", v))
  }

  /** The submission's `digital_root` as a callable: prints nothing. `False`
      is not positive and comes back unchanged; `True` goes through one
      digit sum and comes back as the integer 1. */
  function StudentCall(args: seq<Value>): (r: Result<Call, string>)
    ensures |args| == 1 && args[0].IntV? ==> r == Ok(Call(IntV(StudentRoot(args[0].i)), ""))
  {
    if |args| != 1 then Err(ArityError("digital_root", |args|))
    else match args[0]
      case IntV(n) => Ok(Call(IntV(StudentRoot(n)), ""))
      case BoolV(b) => Ok(Call(if b then IntV(1) else BoolV(false), ""))
      case v => Err(CompareError(">", v))
  }

  /** The submission's `digitsum` as a callable. */
  function DigitSumCall(args: seq<Value>): (r: Result<Call, string>)
    ensures |args| == 1 && args[0].IntV? ==> r == Ok(Call(IntV(DigitSum(args[0].i)), ""))
  {
    if |args| != 1 then Err(ArityError("digitsum", |args|))
    else match args[0]
      case IntV(n) => Ok(Call(IntV(DigitSum(n)), ""))
      case BoolV(b) => Ok(Call(IntV(AsInt(b)), ""))
      case v => Err(CompareError(">", v))
  }

  const TaModule := Module("ta_digital_root", map["digital_root" := Func(1, TaCall)], map[])

  const StudentModule := Module("digital_root2",
    map["digital_root" := Func(1, StudentCall), "digitsum" := Func(1, DigitSumCall)], map[])

  /** The environment of the example: both modules importable, no
      scripts. */
  const DigitalRootEnv := Env(map["ta_digital_root" := TaModule, "digital_root2" := StudentModule], map[])
}

=== FILE: host.dfy ===
/** The environment the grading engine runs in, as explicit data: loaded
    modules with their callables, interactive scripts, and the
    invocation wrappers that trap every fault.

    A callable either returns a value together with everything it printed,
    or raises an exception whose rendered message is the error. A script maps
    the text fed to standard input to what it printed, or to `None` when it
    raised. Importing a name the environment does not hold fails.
 */
module Host {
  import opened Wrappers
  import opened Values
  import Sanity

  datatype Call = Call(ret: Value, out: string)

  type Callable = seq<Value> -> Result<Call, string>

  datatype Func = Func(arity: nat, body: Callable)

  datatype Module = Module(name: string, funcs: map<string, Func>, classes: map<string, Sanity.Scope>)

  type Script = string -> Option<string>

  datatype Env = Env(modules: map<string, Module>, scripts: map<string, Script>)

  /** The descriptor the structural comparator reads instead of reflecting
      over the module. */
  function Shape(m: Module): (i: Sanity.Interface)
    ensures i.top.name == m.name && i.top.funcs.Keys == m.funcs.Keys
    ensures forall f :: f in m.funcs ==> i.top.funcs[f] == m.funcs[f].arity
    ensures i.classes == m.classes
  {
    Sanity.Interface(Sanity.Scope(m.name, map f | f in m.funcs :: m.funcs[f].arity), m.classes)
  }

  /** `importlib.import_module(name)`. */
  function Import(env: Env, name: string): (r: Result<Module, string>)
    ensures r.Ok? <==> name in env.modules
    ensures r.Ok? ==> r.value == env.modules[name]
  {
    if name in env.modules then Ok(env.modules[name])
    else Err("No module named '" + name + "'")
  }

  /** `getattr(module, name)` for a function. */
  function GetFunction(m: Module, name: string): (r: Result<Callable, string>)
    ensures r.Ok? <==> name in m.funcs
    ensures r.Ok? ==> r.value == m.funcs[name].body
  {
    if name in m.funcs then Ok(m.funcs[name].body)
    else Err("module '" + m.name + "' has no attribute '" + name + "'")
  }

  /** Imports a module and looks up one of its functions, failing with the
      first exception raised. */
  function LoadFunction(env: Env, moduleName: string, name: string): (r: Result<Callable, string>)
    ensures r.Ok? <==> moduleName in env.modules && name in env.modules[moduleName].funcs
    ensures r.Ok? ==> r.value == env.modules[moduleName].funcs[name].body
  {
    match Import(env, moduleName)
    case Err(e) => Err(e)
    case Ok(m) => GetFunction(m, name)
  }

  /** `call_function`: calls under stdout capture; a raised exception becomes
      `None` for both the result and the output. */
  function CallFunction(f: Callable, args: seq<Value>): (r: Option<Call>)
    ensures r.Some? <==> f(args).Ok?
    ensures r.Some? ==> r.value == f(args).value
  {
    match f(args)
    case Ok(c) => Some(c)
    case Err(_) => None
  }

  /** The text fed to standard input: each argument followed by a line
      break. Concatenating a non-string argument raises `TypeError` before
      any stream is redirected. */
  function StdinText(args: seq<Value>): (r: Result<string, string>)
    ensures r.Ok? <==> forall k :: 0 <= k < |args| ==> args[k].StrV?
  {
    if |args| == 0 then Ok("")
    else if !args[0].StrV? then Err("unsupported operand type(s) for +: '" + TypeName(args[0]) + "' and 'str'")
    else match StdinText(args[1..])
      case Err(e) => Err(e)
      case Ok(rest) => Ok(args[0].s + "\n" + rest)
  }

  function TypeName(v: Value): string {
    match v
    case NoneV => "NoneType"
    case BoolV(_) => "bool"
    case IntV(_) => "int"
    case StrV(_) => "str"
  }

  /** `run_script(name, inputs)`: builds the standard input, then runs the
      script with both streams redirected. A script that is missing or raises
      yields `None`; only the input-building fault escapes. */
  function RunScript(env: Env, name: string, args: seq<Value>): (r: Result<Option<string>, string>)
    ensures r.Ok? <==> StdinText(args).Ok?
    ensures r.Ok? && name !in env.scripts ==> r.value.None?
    ensures r.Ok? && name in env.scripts ==> r.value == env.scripts[name](StdinText(args).value)
  {
    match StdinText(args)
    case Err(e) => Err(e)
    case Ok(stdin) => Ok(if name in env.scripts then env.scripts[name](stdin) else None)
  }
}

=== FILE: inputs.dfy ===
/** The inputs of a batch of tests, as both test APIs build them: each
    argument list is marked public or private, public ones first.
 */
module Inputs {
  import opened Values

  /** One argument list, shown to the student or kept private. */
  datatype TestInput = TestInput(arglist: seq<Value>, isPrivate: bool)

  /** Every argument list marked with the same privacy flag. */
  function Mark(args: seq<seq<Value>>, isPrivate: bool): (r: seq<TestInput>)
    ensures |r| == |args|
    ensures forall k :: 0 <= k < |args| ==> r[k] == TestInput(args[k], isPrivate)
  {
    if |args| == 0 then [] else [TestInput(args[0], isPrivate)] + Mark(args[1..], isPrivate)
  }

  /** The inputs of a batch: the public argument lists in order, then the
      private ones. */
  function BatchInputs(pub: seq<seq<Value>>, priv: seq<seq<Value>>): (r: seq<TestInput>)
    ensures |r| == |pub| + |priv|
    ensures forall k :: 0 <= k < |r| ==> r[k].arglist == (pub + priv)[k] && (r[k].isPrivate <==> k >= |pub|)
  {
    Mark(pub, false) + Mark(priv, true)
  }

  /** Python's `zip`: pairs up to the shorter list. */
  function Zip<A, B>(xs: seq<A>, ys: seq<B>): (r: seq<(A, B)>)
    ensures |r| == Min(|xs|, |ys|)
    ensures forall k :: 0 <= k < |r| ==> r[k] == (xs[k], ys[k])
  {
    if |xs| == 0 || |ys| == 0 then [] else [(xs[0], ys[0])] + Zip(xs[1..], ys[1..])
  }

  function Min(a: int, b: int): int {
    if a < b then a else b
  }

}

=== FILE: records.dfy ===
/** The persisted side of a grading session, shared by both test APIs: the
    submission record read from `data.json` and the report `finalize` dumps.
 */
module Records {
  import opened Wrappers

  /** The submission record: attempt count, previous score and lateness. */
  datatype SessionData = SessionData(attempts: int, prevscore: int, timedelta: int)

  /** The record used when `data.json` cannot be found. */
  const DefaultData := SessionData(1, 0, 0)

  /** The stored record, or the defaults when there is none. */
  function LoadData(stored: Option<SessionData>): (d: SessionData)
    ensures stored.Some? ==> d == stored.value
    ensures stored.None? ==> d.attempts == 1 && d.prevscore == 0 && d.timedelta == 0
  {
    stored.GetOr(DefaultData)
  }

  /** The final record `finalize` produces; the timestamps are not part of
      the model. */
  datatype Report = Report(scoreSum: int, maxScore: int, externalLog: seq<string>, internalLog: seq<string>,
                           timedelta: int, attempts: int)

  /** The score of a run with a failure: the previous score, never below
      zero. */
  function FallbackScore(d: SessionData): (s: int)
    ensures s >= 0 && s >= d.prevscore
    ensures s == d.prevscore || s == 0
  {
    if d.prevscore < 0 then 0 else d.prevscore
  }

  const AllPassed := "CONGRATULATIONS! All the tests passed."
  const SomeFailed := "At least one of our tests above found a problem."
}

=== FILE: results.dfy ===
/** The verdict of one test (result.py, with the same hierarchy duplicated in
    util.py). `CorrectResult` passes; every other variant is an
    `IncorrectResult` and fails.
 */
module Results {
  import opened Wrappers
  import opened Text
  import opened Values

  datatype Verdict =
    | CorrectResult
    | ProgramCrash(exception: string)
    | InterfaceDiscrepancy(msg: string)
    | LineDiscrepancy(lineNumber: int, expectedLine: Option<string>, studentLine: Option<string>)
    | ReturnValueDiscrepancy(expectedRetval: Value, studentRetval: Value)
  {
    /** `passedTest()`: only the correct verdict passes. */
    predicate PassedTest() {
      CorrectResult?
    }
  }

  /** Which module's class built a verdict. The two modules render the same
      variant differently, and util.py has no `InterfaceDiscrepancy`. */
  datatype Origin = FromResultModule | FromUtilModule

  const Separator := "---------------\n"

  const InterfaceBanner :=
    "ERROR!\nYou did not follow the naming conventions for "
    + "your functions. Please look over your work and resubmit.\n"

  const InterfaceHeader := Separator + InterfaceBanner

  /** Python's `"{}".format(x)` of an optional line: absent prints `None`. */
  function ShowLine(x: Option<string>): string {
    match x
    case Some(s) => s
    case None => "None"
  }

  /** `str(verdict)` for the classes of result.py: every failing verdict
      opens with the separator line. */
  function Str(v: Verdict): string {
    if v.CorrectResult? then "Correct!" else Separator + Detail(v)
  }

  /** What a failing verdict's rendering shows after the opening
      separator. */
  function Detail(v: Verdict): string
    requires !v.CorrectResult?
  {
    match v
    case ProgramCrash(e) => "EXCEPTION RAISED!\n" + e + Separator
    case InterfaceDiscrepancy(msg) => InterfaceBanner + msg + "\n" + Separator
    case LineDiscrepancy(n, expected, student) =>
      LineHeadline(n)
      + ("  WE EXPECTED:\n" + ShowLine(expected) + "\n"
         + "  WE RECEIVED:\n" + ShowLine(student) + "\n"
         + Separator)
    case ReturnValueDiscrepancy(expected, student) =>
      "ERROR!\n"
      + "  WE EXPECTED: " + PyStr(expected) + "\n"
      + "  WE RECEIVED: " + PyStr(student)
      + Separator
  }

  function LineHeadline(n: int): string {
    "ERROR IN LINE " + IntToString(n) + " OF THE OUTPUT.\n"
  }

  /** Every incorrect verdict fails, and the rendering tells a pass from a
      failure: exactly the passing verdict renders as "Correct!", every other
      rendering opens with the dashed separator. */
  lemma RenderingShowsOutcome(v: Verdict)
    ensures v.PassedTest() <==> v.CorrectResult?
    ensures Str(v) == "Correct!" <==> v.PassedTest()
    ensures !v.PassedTest() ==> |Str(v)| >= |Separator| && Str(v)[..|Separator|] == Separator
  {
    if !v.PassedTest() {
      OpensWithSeparator(Detail(v));
    }
  }

  lemma OpensWithSeparator(rest: string)
    ensures Separator + rest != "Correct!"
    ensures (Separator + rest)[..|Separator|] == Separator
  {
    assert (Separator + rest)[0] == '-';
  }

  /** The line-discrepancy rendering opens with the separator followed by the
      headline naming the stored line number. */
  lemma LineRenderingNamesLine(n: int, expected: Option<string>, student: Option<string>)
    ensures var head := Separator + LineHeadline(n);
            var r := Str(LineDiscrepancy(n, expected, student));
            |head| <= |r| && r[..|head|] == head
  {
    var v := LineDiscrepancy(n, expected, student);
    var rest := Detail(v)[|LineHeadline(n)|..];
    assert Detail(v) == LineHeadline(n) + rest;
    Parts(Separator, LineHeadline(n), rest);
    PrefixOfConcat(Separator + LineHeadline(n), rest);
  }

  lemma PrefixOfConcat(a: string, b: string)
    ensures |a| <= |a + b| && (a + b)[..|a|] == a
  {
  }

  /** Cutting a concatenation of three texts at the seams gives the three
      texts back. */
  lemma Parts(a: string, b: string, c: string)
    ensures a + (b + c) == (a + b) + c
    ensures var r := (a + b) + c;
            && |r| == |a| + |b| + |c|
            && r[..|a|] == a && r[|a|..|a| + |b|] == b && r[|a| + |b|..] == c
  {
  }

  /** The interface rendering holds the message verbatim, followed by a line
      break, between the fixed header and footer; so two different messages
      never render alike. */
  lemma InterfaceRenderingKeepsMessage(m1: string, m2: string)
    ensures var r := Str(InterfaceDiscrepancy(m1));
            && |r| == |InterfaceHeader| + |m1| + 1 + |Separator|
            && r[..|InterfaceHeader|] == InterfaceHeader
            && r[|InterfaceHeader|..|InterfaceHeader| + |m1|] == m1
            && r[|InterfaceHeader| + |m1|..] == "\n" + Separator
    ensures Str(InterfaceDiscrepancy(m1)) == Str(InterfaceDiscrepancy(m2)) ==> m1 == m2
  {
    InterfaceRenderingSplits(m1);
    InterfaceRenderingSplits(m2);
  }

  lemma InterfaceRenderingSplits(m: string)
    ensures Str(InterfaceDiscrepancy(m)) == (InterfaceHeader + m) + ("\n" + Separator)
  {
    var tail := "\n" + Separator;
    Parts(InterfaceBanner + m, "\n", Separator);
    assert Detail(InterfaceDiscrepancy(m)) == (InterfaceBanner + m) + tail;
    Parts(Separator, InterfaceBanner + m, tail);
    Parts(Separator, InterfaceBanner, m);
    Parts(InterfaceHeader, m, tail);
  }
}

=== FILE: sanity.dfy ===
/** The structural comparator of sanity.py: before any functional test, check
    that the submission defines the reference's top-level functions and
    classes with the same numbers of positional parameters.

    Reflection over live modules is replaced by explicit descriptors: a scope
    maps each function name to its parameter count, and an interface holds the
    module's own scope plus one scope per class. Names held in Python sets are
    enumerated in ascending order.
 */
module Sanity {
  import opened Text
  import opened Results

  /** The functions of a module or a class: name to `co_argcount`. The scope's
      name is the object's `__name__`. */
  datatype Scope = Scope(name: string, funcs: map<string, nat>)

  /** A module: its top-level functions and its classes by name. */
  datatype Interface = Interface(top: Scope, classes: map<string, Scope>)

  /** Every reference function exists in the submission with the same
      parameter count. */
  predicate ScopeMatches(ta: Scope, hw: Scope) {
    && ta.funcs.Keys <= hw.funcs.Keys
    && forall f :: f in ta.funcs ==> ta.funcs[f] == hw.funcs[f]
  }

  /** The acceptance condition of `compare`, stated directly: the top-level
      functions match, the reference's classes are not a strict superset of
      the submission's, and every class on both sides matches. */
  predicate SanityAccepts(ta: Interface, hw: Interface) {
    && ScopeMatches(ta.top, hw.top)
    && !(ta.classes.Keys > hw.classes.Keys)
    && forall c :: c in ta.classes && c in hw.classes ==> ScopeMatches(ta.classes[c], hw.classes[c])
  }

  datatype ArgReport = ArgReport(argsThere: bool, log: seq<string>)

  predicate IsPassedLine(line: string) {
    |line| >= 7 && line[..7] == "PASSED@"
  }

  /** The log line `arg_compare` writes for one function. */
  function ArgLine(ta: Scope, hw: Scope, f: string): (line: string)
    requires f in ta.funcs && f in hw.funcs
    ensures IsPassedLine(line) <==> ta.funcs[f] == hw.funcs[f]
  {
    var tail := f + ": " + IntToString(ta.funcs[f]) + " args defined in ta-" + ta.name + "." + f
      + ". " + IntToString(hw.funcs[f]) + " args in submitted-" + hw.name + "." + f;
    if ta.funcs[f] == hw.funcs[f] then "PASSED@" + tail
    else
      var line := "ERROR@" + tail;
      assert line[0] == 'E';
      line
  }

  /** The loop of `arg_compare` over the given names. */
  function ArgCompareOver(names: seq<string>, ta: Scope, hw: Scope): (r: ArgReport)
    requires forall k :: 0 <= k < |names| ==> names[k] in ta.funcs && names[k] in hw.funcs
    ensures |r.log| == |names|
    ensures r.argsThere <==> forall k :: 0 <= k < |names| ==> ta.funcs[names[k]] == hw.funcs[names[k]]
    ensures forall k :: 0 <= k < |names| ==>
              (IsPassedLine(r.log[k]) <==> ta.funcs[names[k]] == hw.funcs[names[k]])
  {
    if |names| == 0 then ArgReport(true, [])
    else
      var rest := ArgCompareOver(names[1..], ta, hw);
      var line := ArgLine(ta, hw, names[0]);
      ArgReport(ta.funcs[names[0]] == hw.funcs[names[0]] && rest.argsThere, [line] + rest.log)
  }

  /** `arg_compare(ta_obj, hw_obj)`: true exactly when every reference
      function has the submission's parameter count, with one log line per
      reference function. The submission must define every reference
      function: the source looks each one up and fails otherwise. */
  function ArgCompare(ta: Scope, hw: Scope): (r: ArgReport)
    requires ta.funcs.Keys <= hw.funcs.Keys
    ensures r.argsThere <==> ScopeMatches(ta, hw)
    ensures |r.log| == |ta.funcs|
  {
    var names := SortedNames(ta.funcs.Keys);
    var r := ArgCompareOver(names, ta, hw);
    assert r.argsThere <==> ScopeMatches(ta, hw) by {
      if r.argsThere {
        forall f | f in ta.funcs ensures ta.funcs[f] == hw.funcs[f] {
          var k :| 0 <= k < |names| && names[k] == f;
        }
      }
    }
    r
  }

  function MissingList(missing: set<string>): string {
    Join(", ", SortedNames(missing))
  }

  datatype Progress = Progress(allThere: bool, log: string)

  /** One class of the loop over the classes both sides define. A class
      whose methods are all present only lowers `all_there` on an arity
      mismatch, and its `arg_compare` log is dropped; a class missing
      methods is logged. */
  function ClassStep(c: string, ta: Interface, hw: Interface, acc: Progress): (r: Progress)
    requires c in ta.classes && c in hw.classes
    ensures r.allThere <==> acc.allThere && ScopeMatches(ta.classes[c], hw.classes[c])
    ensures acc.log <= r.log
  {
    var taCls := ta.classes[c];
    var hwCls := hw.classes[c];
    if taCls.funcs.Keys <= hwCls.funcs.Keys then
      Progress(acc.allThere && ArgCompare(taCls, hwCls).argsThere, acc.log)
    else
      Progress(false, acc.log + "Your class " + hw.top.name + "." + c
               + " is missing some functions: " + MissingList(taCls.funcs.Keys - hwCls.funcs.Keys))
  }

  /** Every listed name is a class on both sides with matching methods. */
  predicate ClassesMatch(names: seq<string>, ta: Interface, hw: Interface) {
    forall k :: 0 <= k < |names| ==>
      names[k] in ta.classes && names[k] in hw.classes && ScopeMatches(ta.classes[names[k]], hw.classes[names[k]])
  }

  /** `ClassesMatch` of a list is the match of its first class and of the
      rest. */
  lemma ClassesMatchCons(names: seq<string>, ta: Interface, hw: Interface)
    requires |names| > 0 && names[0] in ta.classes && names[0] in hw.classes
    ensures ClassesMatch(names, ta, hw)
            <==> ScopeMatches(ta.classes[names[0]], hw.classes[names[0]]) && ClassesMatch(names[1..], ta, hw)
  {
    if ClassesMatch(names[1..], ta, hw) {
      forall k | 1 <= k < |names|
        ensures names[k] in ta.classes && names[k] in hw.classes && ScopeMatches(ta.classes[names[k]], hw.classes[names[k]])
      {
        assert names[k] == names[1..][k - 1];
      }
    }
  }

  /** The loop over the classes both sides define, in the given order. */
  function ClassLoop(names: seq<string>, ta: Interface, hw: Interface, acc: Progress): (r: Progress)
    requires forall k :: 0 <= k < |names| ==> names[k] in ta.classes && names[k] in hw.classes
    ensures r.allThere <==> acc.allThere && ClassesMatch(names, ta, hw)
  {
    if |names| == 0 then acc
    else
      ClassesMatchCons(names, ta, hw);
      ClassLoop(names[1..], ta, hw, ClassStep(names[0], ta, hw, acc))
  }

  /** The check of the top-level functions. */
  function TopLevel(ta: Interface, hw: Interface): (r: Progress)
    ensures r.allThere <==> ScopeMatches(ta.top, hw.top)
  {
    if ta.top.funcs.Keys <= hw.top.funcs.Keys then
      var a := ArgCompare(ta.top, hw.top);
      Progress(a.argsThere, Join("\n", a.log))
    else
      Progress(false, hw.top.name + ".py is missing the following functions: "
               + MissingList(ta.top.funcs.Keys - hw.top.funcs.Keys))
  }

  /** The check of the class names. A class is reported missing only when
      the reference's class names strictly contain the submission's. */
  function ClassNames(ta: Interface, hw: Interface, acc: Progress): (r: Progress)
    ensures r.allThere <==> acc.allThere && !(ta.classes.Keys > hw.classes.Keys)
  {
    if ta.classes.Keys > hw.classes.Keys then
      Progress(false, acc.log + "\n" + hw.top.name + ".py is missing the following classes: "
               + MissingList(ta.classes.Keys - hw.classes.Keys))
    else acc
  }

  /** Matching each class of the enumeration is matching each class both
      sides define. */
  lemma CommonClassesMatch(common: seq<string>, ta: Interface, hw: Interface)
    requires common == SortedNames(ta.classes.Keys * hw.classes.Keys)
    ensures forall k :: 0 <= k < |common| ==> common[k] in ta.classes && common[k] in hw.classes
    ensures ClassesMatch(common, ta, hw)
            <==> (forall c :: c in ta.classes && c in hw.classes ==> ScopeMatches(ta.classes[c], hw.classes[c]))
  {
    if ClassesMatch(common, ta, hw) {
      forall c | c in ta.classes && c in hw.classes
        ensures ScopeMatches(ta.classes[c], hw.classes[c])
      {
        assert c in ta.classes.Keys * hw.classes.Keys;
        var k :| 0 <= k < |common| && common[k] == c;
      }
    }
  }

  /** The three stages of `compare` in order, ending with `all_there` and
      the accumulated log. */
  function Check(ta: Interface, hw: Interface): (p: Progress)
    ensures p.allThere <==> SanityAccepts(ta, hw)
  {
    var common := SortedNames(ta.classes.Keys * hw.classes.Keys);
    CommonClassesMatch(common, ta, hw);
    ClassLoop(common, ta, hw, ClassNames(ta, hw, TopLevel(ta, hw)))
  }

  /** `compare(ta_module, hw_module)`: `CorrectResult` exactly when the
      submission meets `SanityAccepts`, otherwise an `InterfaceDiscrepancy`
      carrying the accumulated log. */
  function Compare(ta: Interface, hw: Interface): (r: Verdict)
    ensures r.CorrectResult? || r.InterfaceDiscrepancy?
    ensures r.CorrectResult? <==> SanityAccepts(ta, hw)
  {
    var p := Check(ta, hw);
    if p.allThere then CorrectResult else InterfaceDiscrepancy(p.log)
  }

  /** A reference function the submission lacks always fails the check, and
      the message opens by naming the submission module. */
  lemma MissingFunctionFails(ta: Interface, hw: Interface, f: string)
    requires f in ta.top.funcs && f !in hw.top.funcs
    ensures Compare(ta, hw).InterfaceDiscrepancy?
    ensures var head := hw.top.name + ".py is missing the following functions: ";
            head <= Compare(ta, hw).msg
  {
    var p0 := TopLevel(ta, hw);
    var head := hw.top.name + ".py is missing the following functions: ";
    assert head <= p0.log;
    CompareLogExtendsTopLevel(ta, hw);
  }

  /** A failing verdict's message starts with the top-level check's log. */
  lemma CompareLogExtendsTopLevel(ta: Interface, hw: Interface)
    ensures var r := Compare(ta, hw);
            r.InterfaceDiscrepancy? ==> TopLevel(ta, hw).log <= r.msg
  {
    var p0 := TopLevel(ta, hw);
    var common := SortedNames(ta.classes.Keys * hw.classes.Keys);
    var p1 := ClassNames(ta, hw, p0);
    var p := ClassLoop(common, ta, hw, p1);
    assert Check(ta, hw) == p;
    ClassNamesExtendsLog(ta, hw, p0);
    ClassLoopExtendsLog(common, ta, hw, p1);
  }

  lemma {:induction false} ClassLoopExtendsLog(names: seq<string>, ta: Interface, hw: Interface, acc: Progress)
    requires forall k :: 0 <= k < |names| ==> names[k] in ta.classes && names[k] in hw.classes
    ensures acc.log <= ClassLoop(names, ta, hw, acc).log
  {
    if |names| > 0 {
      ClassLoopExtendsLog(names[1..], ta, hw, ClassStep(names[0], ta, hw, acc));
    }
  }

  lemma ClassNamesExtendsLog(ta: Interface, hw: Interface, acc: Progress)
    ensures acc.log <= ClassNames(ta, hw, acc).log
  {
  }

  /** A submission that passes keeps passing when it adds functions, classes
      or methods the reference does not define. */
  lemma ExtrasNeverFail(ta: Interface, hw: Interface, hw': Interface)
    requires Compare(ta, hw).CorrectResult?
    requires hw'.top.funcs.Keys >= hw.top.funcs.Keys
    requires forall f :: f in hw.top.funcs ==> hw'.top.funcs[f] == hw.top.funcs[f]
    requires forall f :: f in hw'.top.funcs && f !in hw.top.funcs ==> f !in ta.top.funcs
    requires hw'.classes.Keys >= hw.classes.Keys
    requires forall c :: c in hw'.classes && c !in hw.classes ==> c !in ta.classes
    requires forall c, f :: c in hw.classes && f in hw.classes[c].funcs ==>
               f in hw'.classes[c].funcs && hw'.classes[c].funcs[f] == hw.classes[c].funcs[f]
    ensures Compare(ta, hw').CorrectResult?
  {
    forall c | c in ta.classes && c in hw'.classes
      ensures ScopeMatches(ta.classes[c], hw'.classes[c])
    {
      assert c in hw.classes;
    }
  }

  /** A reference class whose name the submission misspells is not reported
      as missing: {Domino} is not a strict superset of {Dommino}. */
  lemma RenamedClassNotFlagged()
    ensures var ta := Interface(Scope("domino", map[]), map["Domino" := Scope("Domino", map["__init__" := 3])]);
            var hw := Interface(Scope("domino2", map[]), map["Dommino" := Scope("Dommino", map["__init__" := 3])]);
            Compare(ta, hw) == CorrectResult
  {
    var ta := Interface(Scope("domino", map[]), map["Domino" := Scope("Domino", map["__init__" := 3])]);
    var hw := Interface(Scope("domino2", map[]), map["Dommino" := Scope("Dommino", map["__init__" := 3])]);
    assert "Dommino" in hw.classes.Keys && "Dommino" !in ta.classes.Keys;
    assert !(ta.classes.Keys > hw.classes.Keys);
    assert SanityAccepts(ta, hw);
  }

  /** A missing reference class is reported only while the submission
      defines nothing extra: adding an unrelated class hides it. */
  lemma MissingClassHiddenByExtraClass()
    ensures var top := Scope("m", map[]);
            var a := Scope("A", map[]);
            var ta := Interface(top, map["A" := a, "B" := Scope("B", map[])]);
            && Compare(ta, Interface(top, map["A" := a])).InterfaceDiscrepancy?
            && Compare(ta, Interface(top, map["A" := a, "Z" := Scope("Z", map[])])).CorrectResult?
  {
    var top := Scope("m", map[]);
    var a := Scope("A", map[]);
    var ta := Interface(top, map["A" := a, "B" := Scope("B", map[])]);
    var hw1 := Interface(top, map["A" := a]);
    var hw2 := Interface(top, map["A" := a, "Z" := Scope("Z", map[])]);
    assert "B" in ta.classes.Keys && "B" !in hw1.classes.Keys;
    assert ta.classes.Keys > hw1.classes.Keys;
    assert "Z" in hw2.classes.Keys && "Z" !in ta.classes.Keys;
    assert SanityAccepts(ta, hw2);
  }
}

=== FILE: scenarios.dfy ===
/** The function-test example run end to end through both APIs: the
    digital-root submission against the reference, on the public inputs
    1729 and 356 and the hidden inputs 5000, 12345678, 1 and 0.
 */
module Scenarios {
  import opened Wrappers
  import opened Text
  import opened Values
  import opened Results
  import opened Host
  import opened Records
  import opened Inputs
  import opened Fixtures
  import Util
  import Autograder
  import Autograding

  const Public: seq<seq<Value>> := [[IntV(1729)], [IntV(356)]]
  const Hidden: seq<seq<Value>> := [[IntV(5000)], [IntV(12345678)], [IntV(1)], [IntV(0)]]

  function Tests(): seq<Autograder.TestCase> {
    Autograder.FunctionBatch("ta_digital_root", "digital_root2", "digital_root", Public, Hidden)
  }

  lemma DigitsOf1729()
    ensures NatToString(1729) == "1729"
  {
    assert NatToString(1) == "1";
    assert NatToString(17) == NatToString(1) + "7";
    assert NatToString(172) == NatToString(17) + "2";
    assert NatToString(1729) == NatToString(172) + "9";
  }

  lemma ShowsAs1729()
    ensures IntToString(1729) == "1729"
    ensures ArglistStr([IntV(1729)]) == "(1729)"
  {
    DigitsOf1729();
    assert FormatArgs([IntV(1729)]) == ["1729"];
    assert Join(",", ["1729"]) == "1729";
  }

  const First := Autograder.FunctionTest("ta_digital_root", "digital_root2", "digital_root", TestInput([IntV(1729)], false))

  /** "Running test: digital_root(1729)" */
  const FirstHeader := "Running test: " + ("digital_root" + "(1729)")

  const FirstOutcome := Autograder.Outcome(ReturnValueDiscrepancy(IntV(1), IntV(5)), FromUtilModule)

  lemma FirstTestFails()
    ensures Tests()[0] == First
    ensures Autograder.RunTest(First, DigitalRootEnv) == Ok(FirstOutcome)
  {
    assert Public[0] == [IntV(1729)];
    FirstVerdict();
    Autograder.InterfaceGateNeverFires(DigitalRootEnv, "ta_digital_root", "digital_root2", "digital_root", [IntV(1729)]);
  }

  lemma FirstVerdict()
    ensures Util.CompareFunctions(TaCall, StudentCall, [IntV(1729)], PyEq) == ReturnValueDiscrepancy(IntV(1), IntV(5))
  {
    RootsAgreeExcept1729(1729);
    assert StudentCall([IntV(1729)]) == Ok(Call(IntV(5), ""));
    assert TaCall([IntV(1729)]) == Ok(Call(IntV(1), ""));
  }

  lemma FirstNotifyRaises()
    ensures Autograder.Notify(First, FirstOutcome)
            == Autograder.Logged([FirstHeader], Some(Util.MissingLineNumber))
  {
    ShowsAs1729();
    assert Autograder.Describe(First) == Ok("digital_root" + "(1729)");
    assert Autograder.Header(First) == Ok(FirstHeader);
  }

  /** With the current API the first test already fails, on 1729: the
      verdict stores the reference's 1 and the submission's 5. Rendering it
      raises, because util.py's verdict reads a line number it never set,
      so the run ends with that exception after the first header line. */
  lemma CurrentApiRaisesOnFirstTest()
    ensures var t := Autograder.RunAll(Tests(), DigitalRootEnv);
            && t.started == 1
            && t.outcomes == [FirstOutcome]
            && t.xlog == [FirstHeader]
            && t.raised == Some(Util.MissingLineNumber)
    ensures Autograder.Run(Autograder.NewGrader(20, None), Tests(), DigitalRootEnv)
            == Autograder.Raised(Util.MissingLineNumber, [FirstHeader])
  {
    FirstTestFails();
    RaisesOnFirst(Tests());
  }

  /** Any batch that opens with the first test stops there. */
  lemma RaisesOnFirst(tests: seq<Autograder.TestCase>)
    requires |tests| > 0 && tests[0] == First
    ensures Autograder.RunAll(tests, DigitalRootEnv)
            == Autograder.Trace(1, [FirstOutcome], [FirstHeader], Some(Util.MissingLineNumber))
  {
    FirstTestFails();
    FirstNotifyRaises();
  }

  /** The naming check passes: the submission's extra `digitsum` is
      allowed. */
  lemma LegacyNamingPasses()
    ensures Autograding.LegacyAccepts(Shape(TaModule), Shape(StudentModule))
  {
    var ta := Shape(TaModule);
    var hw := Shape(StudentModule);
    assert ta.top.funcs == map["digital_root" := 1];
    assert "digital_root" in hw.top.funcs && hw.top.funcs["digital_root"] == 1;
  }

  /** "We called digital_root(1729) and it returned an INCORRECT result: 5" */
  const LegacyFirstLine := "We called " + "digital_root" + "(1729)" + " and it returned an INCORRECT result: " + "5"

  lemma LegacyFirstTestFails(s: Autograding.Session)
    requires !s.dead && s.ta == Some(TaModule) && s.hw == Some(StudentModule)
    ensures Autograding.TestHwFunction(s, "digital_root", [IntV(1729)], false)
            == (false, s.(xlog := s.xlog + [LegacyFirstLine], ilog := s.ilog + [LegacyFirstLine]))
  {
    RootsAgreeExcept1729(1729);
    ShowsAs1729();
    assert PyStr(IntV(5)) == "5" by {
      assert NatToString(5) == [DigitChar(5)];
    }
    assert !PyEq(IntV(5), IntV(1));
    assert Autograding.HwAndTa(s, "digital_root", [IntV(1729)]) == Ok((IntV(5), IntV(1)));
    Autograding.PublicCallNamed(s, "digital_root", [IntV(1729)]);
    assert Autograding.PublicLine("digital_root", [IntV(1729)], false, IntV(5)) == LegacyFirstLine;
  }

  const LegacyProblem := Autograding.NewFunctionProblem(DigitalRootEnv, "ta_digital_root", "digital_root2", "digital_root", 20, None)

  /** Both modules load and the naming check adds nothing to the log. */
  lemma LegacyProblemLoads()
    ensures LegacyProblem.kind == Autograding.FunctionKind("digital_root")
    ensures LegacyProblem.session == Autograding.NewSession(Some(TaModule), Some(StudentModule), 20, DefaultData)
  {
    LegacyNamingPasses();
  }

  /** The batch loop stops after its first test. */
  lemma LegacyBatchStopsFirst()
    ensures var p := LegacyProblem;
            Autograding.TestAll(p, DigitalRootEnv, BatchInputs(Public, Hidden))
            == Ok((false, p.(session := Autograding.TestHwFunction(p.session, "digital_root", [IntV(1729)], false).1), 1))
  {
    LegacyProblemLoads();
    var p := LegacyProblem;
    var inputs := BatchInputs(Public, Hidden);
    assert inputs[0] == TestInput([IntV(1729)], false);
    LegacyFirstTestFails(p.session);
    var step := Autograding.TestHwFunction(p.session, "digital_root", [IntV(1729)], false);
    assert Autograding.Test(p, DigitalRootEnv, [IntV(1729)], false) == Ok((false, p.(session := step.1)));
    assert Autograding.RunUntilFalse(Autograding.TestStep(DigitalRootEnv), p, inputs) == Ok((false, p.(session := step.1), 1));
  }

  /** With the legacy API the first test fails on 1729 with one external
      line showing the wrong result, and the report carries the fallback
      score 0 out of 20 with no closing line. */
  lemma LegacyApiReportsFirstFailure()
    ensures var p := Autograding.NewFunctionProblem(DigitalRootEnv, "ta_digital_root", "digital_root2", "digital_root", 20, None);
            var r := Autograding.BatchTest(p, DigitalRootEnv, Public, Hidden);
            && !p.session.dead
            && r.Ok?
            && r.value.scoreSum == 0 && r.value.maxScore == 20
            && r.value.externalLog == [LegacyFirstLine]
  {
    LegacyProblemLoads();
    LegacyBatchStopsFirst();
    LegacyFirstTestFails(LegacyProblem.session);
  }
}

=== FILE: text.dfy ===
/** The Python string operations the grading engine relies on: `str.strip()`,
    `str.split('\n')`, `str.split()` with no separator, `sep.join(...)`,
    `str(int)` and the ordering used to enumerate sets of names.
 */
module Text {

  /** Python's `str.isspace` for a single character: the characters that
      `strip()` removes and that `split()` treats as separators. */
  predicate IsSpace(c: char) {
    || c == ' ' || c == '\t' || c == '\n' || c == '\r'
    || c == '\U{0B}' || c == '\U{0C}'
    || ('\U{1C}' <= c <= '\U{1F}')
    || c == '\U{85}' || c == '\U{A0}' || c == '\U{1680}'
    || ('\U{2000}' <= c <= '\U{200A}')
    || c == '\U{2028}' || c == '\U{2029}' || c == '\U{202F}'
    || c == '\U{205F}' || c == '\U{3000}'
  }

  predicate AllSpace(s: string) {
    forall i :: 0 <= i < |s| ==> IsSpace(s[i])
  }

  predicate NoSpace(s: string) {
    forall i :: 0 <= i < |s| ==> !IsSpace(s[i])
  }

  // ---------------------------------------------------------------------
  // strip()

  /** Drops leading whitespace: the result is a suffix of `s`, everything
      dropped is whitespace and the result does not start with whitespace. */
  function TrimLeft(s: string): (r: string)
    ensures |r| <= |s| && r == s[|s| - |r|..]
    ensures AllSpace(s[..|s| - |r|])
    ensures |r| > 0 ==> !IsSpace(r[0])
  {
    if |s| > 0 && IsSpace(s[0]) then TrimLeft(s[1..]) else s
  }

  /** Drops trailing whitespace: the result is a prefix of `s`, everything
      dropped is whitespace and the result does not end with whitespace. */
  function TrimRight(s: string): (r: string)
    ensures |r| <= |s| && r == s[..|r|]
    ensures AllSpace(s[|r|..])
    ensures |r| > 0 ==> !IsSpace(r[|r| - 1])
  {
    if |s| > 0 && IsSpace(s[|s| - 1]) then TrimRight(s[..|s| - 1]) else s
  }

  /** Python's `s.strip()`. */
  function Strip(s: string): (r: string)
    ensures |r| <= |s|
    ensures |r| > 0 ==> !IsSpace(r[0]) && !IsSpace(r[|r| - 1])
  {
    TrimRight(TrimLeft(s))
  }

  /** Whitespace added around a text never survives `strip()`. */
  lemma {:induction false} StripPadding(pre: string, s: string, post: string)
    requires AllSpace(pre) && AllSpace(post)
    ensures Strip(pre + s + post) == Strip(s)
  {
    calc {
      Strip(pre + s + post);
      { assert pre + s + post == pre + (s + post); }
      TrimRight(TrimLeft(pre + (s + post)));
      { TrimLeftPadding(pre, s + post); }
      TrimRight(TrimLeft(s + post));
      { TrimLeftAbsorbs(s, post); }
      TrimRight(TrimLeft(s) + post);
      { TrimRightPadding(TrimLeft(s), post); }
      Strip(s);
    }
  }

  /** A text that neither starts nor ends with whitespace is its own strip. */
  lemma StripUnpadded(s: string)
    requires |s| > 0 ==> !IsSpace(s[0]) && !IsSpace(s[|s| - 1])
    ensures Strip(s) == s
  {
  }

  lemma {:induction false} TrimLeftPadding(pre: string, s: string)
    requires AllSpace(pre)
    ensures TrimLeft(pre + s) == TrimLeft(s)
    decreases |pre|
  {
    if |pre| > 0 {
      assert (pre + s)[1..] == pre[1..] + s;
      TrimLeftPadding(pre[1..], s);
    } else {
      assert pre + s == s;
    }
  }

  lemma {:induction false} TrimRightPadding(s: string, post: string)
    requires AllSpace(post)
    ensures TrimRight(s + post) == TrimRight(s)
    decreases |post|
  {
    if |post| > 0 {
      var shorter := post[..|post| - 1];
      assert (s + post)[..|s + post| - 1] == s + shorter;
      TrimRightPadding(s, shorter);
    } else {
      assert s + post == s;
    }
  }

  /** Left-trimming a text followed by trailing whitespace is the same as
      left-trimming the text alone and then appending that whitespace,
      unless the text is all whitespace (then both trim to whitespace). */
  lemma {:induction false} TrimLeftAbsorbs(s: string, post: string)
    requires AllSpace(post)
    ensures TrimRight(TrimLeft(s + post)) == TrimRight(TrimLeft(s) + post)
    decreases |s|
  {
    if |s| > 0 && IsSpace(s[0]) {
      assert (s + post)[1..] == s[1..] + post;
      TrimLeftAbsorbs(s[1..], post);
    } else if |s| == 0 {
      assert s + post == post;
      assert TrimLeft(s) == s;
    } else {
      assert TrimLeft(s + post) == s + post;
    }
  }

  // ---------------------------------------------------------------------
  // split(sep) and join

  /** Number of occurrences of `c` in `s`. */
  function Count(s: string, c: char): nat {
    if |s| == 0 then 0 else (if s[0] == c then 1 else 0) + Count(s[1..], c)
  }

  /** Python's `sep.join(parts)`. */
  function Join(sep: string, parts: seq<string>): string
    decreases |parts|
  {
    if |parts| == 0 then ""
    else if |parts| == 1 then parts[0]
    else parts[0] + sep + Join(sep, parts[1..])
  }

  /** Python's `s.split(c)` for a one-character separator: one more piece
      than there are separators, no piece contains the separator, and
      joining the pieces back with the separator gives `s` again. */
  function Split(s: string, c: char): (parts: seq<string>)
    ensures |parts| == Count(s, c) + 1
    ensures forall k :: 0 <= k < |parts| ==> c !in parts[k]
    ensures Join([c], parts) == s
    decreases |s|
  {
    if |s| == 0 then [""]
    else
      var rest := Split(s[1..], c);
      if s[0] == c then
        assert s == [c] + Join([c], rest);
        [""] + rest
      else
        var parts := [[s[0]] + rest[0]] + rest[1..];
        assert parts[1..] == rest[1..];
        assert s == [s[0]] + s[1..];
        parts
  }

  /** Round trip in the other direction: splitting a join whose pieces do
      not contain the separator gives the pieces back. */
  lemma {:induction false} SplitJoin(parts: seq<string>, c: char)
    requires |parts| >= 1
    requires forall k :: 0 <= k < |parts| ==> c !in parts[k]
    ensures Split(Join([c], parts), c) == parts
    decreases |parts|, |parts[0]|
  {
    var s := Join([c], parts);
    if |parts[0]| == 0 {
      if |parts| == 1 {
        assert s == "";
      } else {
        assert s == [c] + Join([c], parts[1..]);
        assert s[1..] == Join([c], parts[1..]);
        SplitJoin(parts[1..], c);
        assert [""] + parts[1..] == parts;
      }
    } else {
      var tail := [parts[0][1..]] + parts[1..];
      assert tail[1..] == parts[1..];
      assert Join([c], tail) == s[1..] by {
        if |parts| == 1 {
        } else {
          assert s == parts[0] + [c] + Join([c], parts[1..]);
        }
      }
      assert s[0] == parts[0][0];
      assert s[0] != c by { assert parts[0][0] in parts[0]; }
      SplitJoin(tail, c);
      assert parts[0] == [parts[0][0]] + parts[0][1..];
    }
  }

  /** Every part with `pre` in front. */
  function Prefixed(pre: string, parts: seq<string>): (r: seq<string>)
    ensures |r| == |parts|
    ensures forall k :: 0 <= k < |parts| ==> r[k] == pre + parts[k]
  {
    if |parts| == 0 then [] else [pre + parts[0]] + Prefixed(pre, parts[1..])
  }

  /** Joining with ", " is joining with "," after putting a space in front
      of every part but the first. */
  lemma {:induction false} JoinCommaSpace(parts: seq<string>)
    requires |parts| >= 1
    ensures Join(", ", parts) == Join(",", [parts[0]] + Prefixed(" ", parts[1..]))
  {
    if |parts| >= 2 {
      JoinSpacedTail(parts[1..]);
      assert ([parts[0]] + Prefixed(" ", parts[1..]))[1..] == Prefixed(" ", parts[1..]);
    }
  }

  lemma {:induction false} JoinSpacedTail(parts: seq<string>)
    requires |parts| >= 1
    ensures " " + Join(", ", parts) == Join(",", Prefixed(" ", parts))
    decreases |parts|
  {
    if |parts| >= 2 {
      JoinSpacedTail(parts[1..]);
      var q := Prefixed(" ", parts);
      assert q[1..] == Prefixed(" ", parts[1..]);
      assert Join(",", q) == q[0] + "," + Join(",", q[1..]);
    }
  }

  // ---------------------------------------------------------------------
  // split() with no separator, and ' '.join(s.split())

  /** Length of the leading run of non-whitespace characters. */
  function WordLength(s: string): (n: nat)
    ensures n <= |s|
    ensures NoSpace(s[..n])
    ensures n < |s| ==> IsSpace(s[n])
  {
    if |s| == 0 || IsSpace(s[0]) then 0
    else
      var n := 1 + WordLength(s[1..]);
      assert s[..n] == [s[0]] + s[1..][..n - 1];
      n
  }

  /** Python's `s.split()`: the maximal runs of non-whitespace characters,
      in order. Every word is non-empty and contains no whitespace. */
  function Words(s: string): (ws: seq<string>)
    ensures forall k :: 0 <= k < |ws| ==> |ws[k]| > 0 && NoSpace(ws[k])
    decreases |s|
  {
    if |s| == 0 then []
    else if IsSpace(s[0]) then Words(s[1..])
    else
      var n := WordLength(s);
      [s[..n]] + Words(s[n..])
  }

  /** Python's `' '.join(s.split())`: every run of whitespace becomes one
      space and leading/trailing whitespace disappears. */
  function Collapse(s: string): string {
    Join(" ", Words(s))
  }

  /** Two lines that agree after whitespace collapsing: the comparison used by
      the stdout-transcript test. */
  predicate SameIgnoringSpacing(x: string, y: string) {
    Collapse(x) == Collapse(y)
  }

  predicate WellFormedWords(ws: seq<string>) {
    forall k :: 0 <= k < |ws| ==> |ws[k]| > 0 && NoSpace(ws[k])
  }

  /** Round trip: the words of a single-space join of words are those words. */
  lemma {:induction false} WordsOfJoin(ws: seq<string>)
    requires WellFormedWords(ws)
    ensures Words(Join(" ", ws)) == ws
    decreases |ws|
  {
    if |ws| == 0 {
    } else {
      var w := ws[0];
      WordsOfWordThen(w, if |ws| == 1 then "" else " " + Join(" ", ws[1..]));
      if |ws| == 1 {
        assert Join(" ", ws) == w + "";
        assert Words("") == [];
      } else {
        assert Join(" ", ws) == w + (" " + Join(" ", ws[1..]));
        var rest := " " + Join(" ", ws[1..]);
        assert Words(rest) == Words(Join(" ", ws[1..])) by {
          assert rest[1..] == Join(" ", ws[1..]);
        }
        WordsOfJoin(ws[1..]);
        assert [w] + ws[1..] == ws;
      }
    }
  }

  /** A word followed by text that is empty or starts with whitespace splits
      into that word followed by the words of the text. */
  lemma {:induction false} WordsOfWordThen(w: string, rest: string)
    requires |w| > 0 && NoSpace(w)
    requires |rest| == 0 || IsSpace(rest[0])
    ensures Words(w + rest) == [w] + Words(rest)
  {
    var s := w + rest;
    WordLengthOfWord(w, rest);
    assert s[..|w|] == w;
    assert s[|w|..] == rest;
  }

  lemma {:induction false} WordLengthOfWord(w: string, rest: string)
    requires NoSpace(w)
    requires |rest| == 0 || IsSpace(rest[0])
    ensures WordLength(w + rest) == |w|
    decreases |w|
  {
    if |w| > 0 {
      assert (w + rest)[1..] == w[1..] + rest;
      WordLengthOfWord(w[1..], rest);
    } else {
      assert w + rest == rest;
    }
  }

  /** Collapsing is idempotent, so a collapsed line compares equal to every
      line that differs from it only in spacing. */
  lemma CollapseIdempotent(s: string)
    ensures Collapse(Collapse(s)) == Collapse(s)
  {
    WordsOfJoin(Words(s));
  }

  /** A collapsed text never contains a line break, so it is one line. */
  lemma {:induction false} CollapseSingleLine(s: string)
    ensures '\n' !in Collapse(s)
    ensures Split(Collapse(s), '\n') == [Collapse(s)]
  {
    JoinNoBreak(Words(s));
    SplitJoin([Collapse(s)], '\n');
  }

  /** Python's `' '.join(s.strip().split())`, the normalisation both test
      APIs apply to a printout before comparing it as a whole: every run of
      whitespace, line breaks included, becomes one space. */
  function Flatten(s: string): string {
    Collapse(Strip(s))
  }

  /** A collapsed text has no whitespace at either end, so stripping it
      changes nothing. */
  lemma CollapseUnpadded(s: string)
    ensures var c := Collapse(s); |c| > 0 ==> !IsSpace(c[0]) && !IsSpace(c[|c| - 1])
    ensures Strip(Collapse(s)) == Collapse(s)
  {
    var ws := Words(s);
    if |ws| > 0 {
      JoinEnds(ws);
    }
    StripUnpadded(Collapse(s));
  }

  /** A single-space join of words starts with the first word's first
      character and ends with the last word's last character. */
  lemma {:induction false} JoinEnds(ws: seq<string>)
    requires |ws| > 0 && WellFormedWords(ws)
    ensures var j := Join(" ", ws);
            |j| > 0 && j[0] == ws[0][0] && j[|j| - 1] == ws[|ws| - 1][|ws[|ws| - 1]| - 1]
    decreases |ws|
  {
    if |ws| > 1 {
      JoinEnds(ws[1..]);
      var j := Join(" ", ws);
      assert j == ws[0] + " " + Join(" ", ws[1..]);
    }
  }

  lemma {:induction false} JoinNoBreak(ws: seq<string>)
    requires WellFormedWords(ws)
    ensures '\n' !in Join(" ", ws)
    decreases |ws|
  {
    if |ws| > 1 {
      JoinNoBreak(ws[1..]);
    }
  }

  // ---------------------------------------------------------------------
  // str(int)

  function DigitChar(d: nat): char
    requires d < 10
  {
    "0123456789"[d]
  }

  predicate IsDigit(c: char) {
    '0' <= c <= '9'
  }

  function DigitValue(c: char): nat
    requires IsDigit(c)
  {
    (c as int - '0' as int) as nat
  }

  /** Decimal rendering of a natural number, most significant digit first. */
  function NatToString(n: nat): (s: string)
    ensures |s| > 0
    ensures forall i :: 0 <= i < |s| ==> IsDigit(s[i])
  {
    if n < 10 then [DigitChar(n)] else NatToString(n / 10) + [DigitChar(n % 10)]
  }

  /** Python's `str(i)` for an integer. */
  function IntToString(i: int): string {
    if i < 0 then "-" + NatToString(-i) else NatToString(i)
  }

  /** Reads a string of digits back as a number. */
  function ParseDigits(s: string): nat
    requires forall i :: 0 <= i < |s| ==> IsDigit(s[i])
  {
    if |s| == 0 then 0 else 10 * ParseDigits(s[..|s| - 1]) + DigitValue(s[|s| - 1])
  }

  /** Round trip: the decimal rendering reads back as the number. */
  lemma {:induction false} ParseNatToString(n: nat)
    ensures ParseDigits(NatToString(n)) == n
  {
    if n >= 10 {
      var s := NatToString(n);
      assert s[..|s| - 1] == NatToString(n / 10);
      ParseNatToString(n / 10);
    }
  }

  /** Distinct numbers render differently. */
  lemma NatToStringInjective(m: nat, n: nat)
    requires NatToString(m) == NatToString(n)
    ensures m == n
  {
    ParseNatToString(m);
    ParseNatToString(n);
  }

  // ---------------------------------------------------------------------
  // ordering of names

  /** Python's `<=` on strings: code-point lexicographic order. */
  predicate LexLe(a: string, b: string) {
    |a| == 0 || (|b| > 0 && (a[0] < b[0] || (a[0] == b[0] && LexLe(a[1..], b[1..]))))
  }

  lemma LexLeTotal(a: string, b: string)
    ensures LexLe(a, b) || LexLe(b, a)
  {
  }

  lemma LexLeAntisymmetric(a: string, b: string)
    requires LexLe(a, b) && LexLe(b, a)
    ensures a == b
  {
    if |a| > 0 && |b| > 0 {
      LexLeAntisymmetric(a[1..], b[1..]);
      assert a == [a[0]] + a[1..] && b == [b[0]] + b[1..];
    }
  }

  lemma LexLeTransitive(a: string, b: string, c: string)
    requires LexLe(a, b) && LexLe(b, c)
    ensures LexLe(a, c)
  {
  }

  /** Every non-empty finite set of names has a least element. */
  lemma {:induction false} LeastNameExists(s: set<string>)
    requires s != {}
    ensures exists m :: m in s && forall y :: y in s ==> LexLe(m, y)
    decreases |s|
  {
    var x :| x in s;
    if s - {x} == {} {
      assert s == {x};
      assert forall y :: y in s ==> LexLe(x, y) by {
        forall y | y in s ensures LexLe(x, y) {
          assert y == x;
          LexLeReflexive(x);
        }
      }
    } else {
      LeastNameExists(s - {x});
      var m :| m in s - {x} && forall y :: y in s - {x} ==> LexLe(m, y);
      LexLeTotal(m, x);
      if LexLe(m, x) {
        forall y | y in s ensures LexLe(m, y) {
          if y != x {
            assert y in s - {x};
          }
        }
        assert m in s;
      } else {
        assert LexLe(x, m);
        forall y | y in s ensures LexLe(x, y) {
          if y == x {
            LexLeReflexive(x);
          } else {
            assert y in s - {x};
            LexLeTransitive(x, m, y);
          }
        }
      }
    }
  }

  lemma LexLeReflexive(a: string)
    ensures LexLe(a, a)
  {
  }

  /** The least name of a non-empty set. */
  function LeastName(s: set<string>): (m: string)
    requires s != {}
    ensures m in s && forall y :: y in s ==> LexLe(m, y)
  {
    LeastNameExists(s);
    forall a, b | LexLe(a, b) && LexLe(b, a) ensures a == b {
      LexLeAntisymmetric(a, b);
    }
    var m :| m in s && forall y :: y in s ==> LexLe(m, y);
    m
  }

  /** The names of a set in ascending order, each exactly once. */
  function SortedNames(s: set<string>): (r: seq<string>)
    ensures |r| == |s|
    ensures forall x :: x in r <==> x in s
    ensures forall k :: 0 <= k < |r| ==> r[k] in s
    ensures forall i, j :: 0 <= i < j < |r| ==> r[i] != r[j] && LexLe(r[i], r[j])
    decreases |s|
  {
    if s == {} then []
    else
      var m := LeastName(s);
      var rest := SortedNames(s - {m});
      SortedCons(s, m, rest);
      [m] + rest
  }

  /** Putting the least name in front of the sorted rest keeps it sorted
      and covers the whole set. */
  lemma SortedCons(s: set<string>, m: string, rest: seq<string>)
    requires m in s && forall y :: y in s ==> LexLe(m, y)
    requires |rest| == |s - {m}|
    requires forall x :: x in rest <==> x in s - {m}
    requires forall i, j :: 0 <= i < j < |rest| ==> rest[i] != rest[j] && LexLe(rest[i], rest[j])
    ensures |[m] + rest| == |s|
    ensures forall x :: x in [m] + rest <==> x in s
    ensures forall i, j :: 0 <= i < j < |[m] + rest| ==> ([m] + rest)[i] != ([m] + rest)[j] && LexLe(([m] + rest)[i], ([m] + rest)[j])
  {
    var r := [m] + rest;
    forall i, j | 0 <= i < j < |r| ensures r[i] != r[j] && LexLe(r[i], r[j]) {
      if i > 0 {
        assert r[i] == rest[i - 1] && r[j] == rest[j - 1];
      } else {
        assert r[j] == rest[j - 1] && r[j] in s - {m};
      }
    }
  }
}

=== FILE: util.dfy ===
/** util.py: the line differ `compare_outputs`, the return-value comparator
    `compare_functions`, and util.py's own renderings of the verdicts.
 */
module Util {
  import opened Wrappers
  import opened Text
  import opened Values
  import opened Results
  import opened Host

  /** util.py's `str(verdict)`. Its `ReturnValueDiscrepancy.__str__` reads an
      attribute `line_number` the object does not have, so rendering that
      verdict raises; util.py defines no `InterfaceDiscrepancy` at all. */
  function Str(v: Verdict): (r: Result<string, string>)
    ensures r.Ok? <==> !v.ReturnValueDiscrepancy? && !v.InterfaceDiscrepancy?
  {
    match v
    case CorrectResult => Ok("Correct!")
    case ProgramCrash(e) => Ok("Exception raised!\n" + e)
    case LineDiscrepancy(n, expected, student) =>
      Ok("Error in line " + IntToString(n) + ":\n"
         + "  We expected: " + ShowLine(expected) + "\n"
         + "  We received: " + ShowLine(student))
    case ReturnValueDiscrepancy(_, _) => Err(MissingLineNumber)
    case InterfaceDiscrepancy(_) => Err("cannot import name 'InterfaceDiscrepancy' from 'util'")
  }

  const MissingLineNumber := "'ReturnValueDiscrepancy' object has no attribute 'line_number'"

  /** `str(result)` for a verdict built by the given module. */
  function Render(v: Verdict, origin: Origin): (r: Result<string, string>)
    ensures origin == FromResultModule ==> r == Ok(Results.Str(v))
  {
    match origin
    case FromResultModule => Ok(Results.Str(v))
    case FromUtilModule => Str(v)
  }

  // ---------------------------------------------------------------------
  // compare_outputs

  type LineEq = (string, string) -> bool

  /** `x == y`, the default `line_eq`. */
  predicate ExactEq(x: string, y: string) {
    x == y
  }

  function StripAll(lines: seq<string>): (r: seq<string>)
    ensures |r| == |lines|
    ensures forall k :: 0 <= k < |lines| ==> r[k] == Strip(lines[k])
  {
    if |lines| == 0 then [] else [Strip(lines[0])] + StripAll(lines[1..])
  }

  /** The lines the differ compares: the text split at every `\n`, each
      line stripped of surrounding whitespace. */
  function Lines(text: string): (r: seq<string>)
    ensures |r| == Count(text, '\n') + 1
  {
    StripAll(Split(text, '\n'))
  }

  /** The first `k` pairs of lines all satisfy `eq`. */
  predicate AgreeUpTo(s: seq<string>, t: seq<string>, eq: LineEq, k: nat) {
    k <= |s| && k <= |t| && forall j :: 0 <= j < k ==> eq(s[j], t[j])
  }

  /** What a reported line discrepancy means: every earlier pair agrees, and
      at the reported line either the pair disagrees (both lines stored) or
      one side has run out (that side stored as `None`). The student's line
      goes to the slot the constructor calls `expected_line`. */
  predicate DiscrepancyAt(s: seq<string>, t: seq<string>, eq: LineEq, v: Verdict) {
    && v.LineDiscrepancy?
    && 1 <= v.lineNumber
    && var k := v.lineNumber - 1;
    && AgreeUpTo(s, t, eq, k)
    && if k < |s| && k < |t| then
         !eq(s[k], t[k]) && v.expectedLine == Some(s[k]) && v.studentLine == Some(t[k])
       else if k == |t| && k < |s| then
         v.expectedLine == Some(s[k]) && v.studentLine == None
       else
         k == |s| && k < |t| && v.expectedLine == None && v.studentLine == Some(t[k])
  }

  /** The walk over paired lines from index `i`, everything before `i`
      already agreeing. */
  function CompareLines(s: seq<string>, t: seq<string>, eq: LineEq, i: nat): (r: Verdict)
    requires AgreeUpTo(s, t, eq, i)
    ensures r.CorrectResult? <==> |s| == |t| && AgreeUpTo(s, t, eq, |s|)
    ensures !r.CorrectResult? ==> DiscrepancyAt(s, t, eq, r)
    decreases |s| - i
  {
    if i < |s| && i < |t| then
      if !eq(s[i], t[i]) then LineDiscrepancy(i + 1, Some(s[i]), Some(t[i]))
      else CompareLines(s, t, eq, i + 1)
    else if |s| > |t| then LineDiscrepancy(|t| + 1, Some(s[|t|]), None)
    else if |s| < |t| then LineDiscrepancy(|s| + 1, None, Some(t[|s|]))
    else CorrectResult
  }

  /** `compare_outputs(student_output, ta_output, line_eq)`: correct exactly
      when both texts have as many lines and every pair satisfies `line_eq`;
      otherwise the first divergence or the first extra line. */
  function CompareOutputs(student: string, ta: string, eq: LineEq): (r: Verdict)
    ensures r.CorrectResult? || r.LineDiscrepancy?
    ensures var s := Lines(student); var t := Lines(ta);
            (r.CorrectResult? <==> |s| == |t| && AgreeUpTo(s, t, eq, |s|))
            && (!r.CorrectResult? ==> DiscrepancyAt(s, t, eq, r))
  {
    CompareLines(Lines(student), Lines(ta), eq, 0)
  }

  /** A reported line number lies between 1 and the longer text's line
      count. */
  lemma LineNumberInRange(student: string, ta: string, eq: LineEq)
    ensures var r := CompareOutputs(student, ta, eq);
            r.LineDiscrepancy? ==> 1 <= r.lineNumber <= Max(|Lines(student)|, |Lines(ta)|)
  {
  }

  function Max(a: int, b: int): int {
    if a < b then b else a
  }

  /** Texts with equally many lines that agree line by line after stripping
      are judged correct. */
  lemma IdenticalLinesCorrect(student: string, ta: string)
    requires Lines(student) == Lines(ta)
    ensures CompareOutputs(student, ta, ExactEq) == CorrectResult
  {
  }

  /** The first disagreeing pair, at 0-based index i, is the one reported, as
      line i + 1. */
  lemma FirstFailureReported(student: string, ta: string, eq: LineEq, i: nat)
    requires var s := Lines(student); var t := Lines(ta);
             i < |s| && i < |t| && AgreeUpTo(s, t, eq, i) && !eq(s[i], t[i])
    ensures var s := Lines(student); var t := Lines(ta);
            CompareOutputs(student, ta, eq) == LineDiscrepancy(i + 1, Some(s[i]), Some(t[i]))
  {
    SkipAgreeing(Lines(student), Lines(ta), eq, 0, i);
  }

  /** When every pair agrees and one text is longer, the first extra line is
      reported, the missing side as `None`. */
  lemma ExtraLineReported(student: string, ta: string, eq: LineEq)
    requires var s := Lines(student); var t := Lines(ta);
             |s| != |t| && AgreeUpTo(s, t, eq, Min(|s|, |t|))
    ensures var s := Lines(student); var t := Lines(ta);
            var r := CompareOutputs(student, ta, eq);
            if |s| > |t| then r == LineDiscrepancy(|t| + 1, Some(s[|t|]), None)
            else r == LineDiscrepancy(|s| + 1, None, Some(t[|s|]))
  {
    var s, t := Lines(student), Lines(ta);
    SkipAgreeing(s, t, eq, 0, Min(|s|, |t|));
  }

  /** Across pairs that agree, the walk moves on without reporting: from
      `i` it reaches `m` unchanged. */
  lemma {:induction false} SkipAgreeing(s: seq<string>, t: seq<string>, eq: LineEq, i: nat, m: nat)
    requires i <= m && AgreeUpTo(s, t, eq, m)
    ensures AgreeUpTo(s, t, eq, i)
    ensures CompareLines(s, t, eq, i) == CompareLines(s, t, eq, m)
    decreases m - i
  {
    if i < m {
      assert eq(s[i], t[i]);
      SkipAgreeing(s, t, eq, i + 1, m);
    }
  }

  function Min(a: int, b: int): int {
    if a < b then a else b
  }

  /** Whitespace around a line never causes a mismatch: padding every line of
      a text with whitespace leaves the compared lines unchanged. */
  lemma PaddingIgnored(lines: seq<string>, pads: seq<(string, string)>)
    requires |pads| == |lines|
    requires forall k :: 0 <= k < |lines| ==> '\n' !in lines[k]
    requires forall k :: 0 <= k < |pads| ==> AllSpace(pads[k].0) && AllSpace(pads[k].1)
    requires forall k :: 0 <= k < |pads| ==> '\n' !in pads[k].0 && '\n' !in pads[k].1
    requires |lines| > 0
    ensures Lines(Join("\n", Pad(lines, pads))) == StripAll(lines)
  {
    var padded := Pad(lines, pads);
    assert forall k :: 0 <= k < |padded| ==> '\n' !in padded[k];
    SplitJoin(padded, '\n');
    assert Join("\n", padded) == Join(['\n'], padded);
    forall k | 0 <= k < |lines| ensures Strip(padded[k]) == Strip(lines[k]) {
      StripPadding(pads[k].0, lines[k], pads[k].1);
    }
  }

  function Pad(lines: seq<string>, pads: seq<(string, string)>): (r: seq<string>)
    requires |pads| == |lines|
    ensures |r| == |lines|
    ensures forall k :: 0 <= k < |r| ==> r[k] == pads[k].0 + lines[k] + pads[k].1
  {
    if |lines| == 0 then [] else [pads[0].0 + lines[0] + pads[0].1] + Pad(lines[1..], pads[1..])
  }

  ghost predicate Symmetric(eq: LineEq) {
    forall x, y :: eq(x, y) == eq(y, x)
  }

  /** With a symmetric `line_eq`, swapping the two texts keeps the outcome
      and the line number and swaps the two stored lines. */
  lemma {:induction false} SwapSymmetric(s: seq<string>, t: seq<string>, eq: LineEq, i: nat)
    requires Symmetric(eq)
    requires AgreeUpTo(s, t, eq, i)
    ensures AgreeUpTo(t, s, eq, i)
    ensures var r := CompareLines(s, t, eq, i); var r' := CompareLines(t, s, eq, i);
            && r.CorrectResult? == r'.CorrectResult?
            && (r.LineDiscrepancy? ==>
                  r'.LineDiscrepancy? && r'.lineNumber == r.lineNumber
                  && r'.expectedLine == r.studentLine && r'.studentLine == r.expectedLine)
    decreases |s| - i
  {
    if i < |s| && i < |t| && eq(s[i], t[i]) {
      SwapSymmetric(s, t, eq, i + 1);
    }
  }

  lemma SwapTexts(student: string, ta: string, eq: LineEq)
    requires Symmetric(eq)
    ensures var r := CompareOutputs(student, ta, eq); var r' := CompareOutputs(ta, student, eq);
            && r.PassedTest() == r'.PassedTest()
            && (r.LineDiscrepancy? ==>
                  r'.LineDiscrepancy? && r'.lineNumber == r.lineNumber
                  && r'.expectedLine == r.studentLine && r'.studentLine == r.expectedLine)
  {
    SwapSymmetric(Lines(student), Lines(ta), eq, 0);
  }

  /** The whitespace-insensitive `line_eq` of the stdout-transcript test
      matches lines that differ only in spacing, and it is symmetric. */
  lemma SpacingInsensitive(x: string)
    ensures SameIgnoringSpacing(x, Collapse(x))
    ensures forall a, b :: SameIgnoringSpacing(a, b) == SameIgnoringSpacing(b, a)
  {
    CollapseIdempotent(x);
  }

  // ---------------------------------------------------------------------
  // compare_functions

  type Same = (Value, Value) -> bool

  /** `compare_functions`: calls the submission, then the reference, on the
      same arguments. Correct when both return and `the_same` holds; a
      mismatch stores the reference's value first; any exception, the first
      one raised, becomes a crash. */
  function CompareFunctions(taFunc: Callable, hwFunc: Callable, inputs: seq<Value>, theSame: Same): (r: Verdict)
    ensures r.CorrectResult? <==>
              hwFunc(inputs).Ok? && taFunc(inputs).Ok?
              && theSame(hwFunc(inputs).value.ret, taFunc(inputs).value.ret)
    ensures r.ReturnValueDiscrepancy? ==>
              hwFunc(inputs).Ok? && taFunc(inputs).Ok?
              && r == ReturnValueDiscrepancy(taFunc(inputs).value.ret, hwFunc(inputs).value.ret)
    ensures r.ProgramCrash? <==> hwFunc(inputs).Err? || taFunc(inputs).Err?
    ensures hwFunc(inputs).Err? ==> r == ProgramCrash(hwFunc(inputs).error)
    ensures hwFunc(inputs).Ok? && taFunc(inputs).Err? ==> r == ProgramCrash(taFunc(inputs).error)
    ensures !r.LineDiscrepancy? && !r.InterfaceDiscrepancy?
  {
    match hwFunc(inputs)
    case Err(e) => ProgramCrash(e)
    case Ok(hw) =>
      match taFunc(inputs)
      case Err(e) => ProgramCrash(e)
      case Ok(ta) =>
        if theSame(hw.ret, ta.ret) then CorrectResult
        else ReturnValueDiscrepancy(ta.ret, hw.ret)
  }

  /** Reflexivity: a submission identical to the reference, compared with a
      reflexive `the_same`, is correct unless the function raises. */
  lemma CompareWithItself(f: Callable, inputs: seq<Value>)
    ensures var r := CompareFunctions(f, f, inputs, PyEq);
            r.CorrectResult? <==> f(inputs).Ok?
  {
    if f(inputs).Ok? {
      PyEqEquivalence(f(inputs).value.ret, f(inputs).value.ret, f(inputs).value.ret);
    }
  }
}

=== FILE: values.dfy ===
/** The Python values that travel through a test: arguments, return values
    and their renderings with `str`, `repr` and the argument-list formatter
    `arglist_str` (autograder.py and autograding.py define the same one).
 */
module Values {
  import opened Text

  datatype Value = NoneV | BoolV(b: bool) | IntV(i: int) | StrV(s: string)

  /** Python's `str(v)`. */
  function PyStr(v: Value): string {
    match v
    case NoneV => "None"
    case BoolV(b) => if b then "True" else "False"
    case IntV(i) => IntToString(i)
    case StrV(s) => s
  }

  /** The quote character Python's `repr` picks for a string: a double quote
      only when the text holds a single quote and no double quote. */
  function QuoteFor(s: string): char {
    if '\'' in s && '"' !in s then '"' else '\''
  }

  /** Escapes one character inside a repr literal delimited by `q`. */
  function EscapeChar(c: char, q: char): string {
    if c == '\\' then "\\\\"
    else if c == q then ['\\', q]
    else if c == '\n' then "\\n"
    else if c == '\r' then "\\r"
    else if c == '\t' then "\\t"
    else [c]
  }

  function EscapeAll(s: string, q: char): (r: string)
    ensures |r| >= |s|
  {
    if |s| == 0 then "" else EscapeChar(s[0], q) + EscapeAll(s[1..], q)
  }

  /** Python's `repr(v)`; for a string, a quoted and escaped literal. */
  function PyRepr(v: Value): (r: string)
    ensures v.StrV? ==> |r| >= 2 && r[0] == r[|r| - 1] == QuoteFor(v.s)
    ensures !v.StrV? ==> r == PyStr(v)
  {
    match v
    case StrV(s) =>
      var q := QuoteFor(s);
      [q] + EscapeAll(s, q) + [q]
    case _ => PyStr(v)
  }

  /** A numeric value in Python's sense (`bool` is a subclass of `int`). */
  function NumericValue(v: Value): int
    requires v.BoolV? || v.IntV?
  {
    if v.BoolV? then (if v.b then 1 else 0) else v.i
  }

  /** Python's default `==` on these values, the default `the_same`:
      booleans compare equal to the integers 0 and 1. */
  predicate PyEq(a: Value, b: Value) {
    if (a.BoolV? || a.IntV?) && (b.BoolV? || b.IntV?) then NumericValue(a) == NumericValue(b)
    else a == b
  }

  /** `==` on values is an equivalence relation, so the default comparison
      treats the reference and the submission alike. */
  lemma PyEqEquivalence(a: Value, b: Value, c: Value)
    ensures PyEq(a, a)
    ensures PyEq(a, b) <==> PyEq(b, a)
    ensures PyEq(a, b) && PyEq(b, c) ==> PyEq(a, c)
  {
  }

  /** The `format_str` helper of `arglist_str`: strings are wrapped in
      double quotes, everything else is rendered with `str`. */
  function FormatArg(v: Value): string {
    if v.StrV? then "\"" + v.s + "\"" else PyStr(v)
  }

  function FormatArgs(args: seq<Value>): (r: seq<string>)
    ensures |r| == |args|
    ensures forall k :: 0 <= k < |args| ==> r[k] == FormatArg(args[k])
  {
    if |args| == 0 then [] else [FormatArg(args[0])] + FormatArgs(args[1..])
  }

  /** `arglist_str(arglist)`: the formatted arguments joined by commas
      between parentheses. */
  function ArglistStr(args: seq<Value>): (r: string)
    ensures |r| >= 2 && r[0] == '(' && r[|r| - 1] == ')'
    ensures r[1..|r| - 1] == Join(",", FormatArgs(args))
  {
    "(" + Join(",", FormatArgs(args)) + ")"
  }

  /** When no argument's rendering contains a comma, splitting the inside
      of `arglist_str` at commas recovers each argument's rendering:
      integers, booleans and `None` always qualify. */
  lemma ArglistStrRecoversArguments(args: seq<Value>)
    requires |args| > 0
    requires forall k :: 0 <= k < |args| ==> ',' !in FormatArg(args[k])
    ensures var r := ArglistStr(args); Split(r[1..|r| - 1], ',') == FormatArgs(args)
  {
    SplitJoin(FormatArgs(args), ',');
  }

  /** The comma-separated `repr`s of the inputs, as `compare_logs` shows them. */
  function ReprList(args: seq<Value>): string {
    Join(", ", ReprAll(args))
  }

  function ReprAll(args: seq<Value>): (r: seq<string>)
    ensures |r| == |args|
    ensures forall k :: 0 <= k < |args| ==> r[k] == PyRepr(args[k])
  {
    if |args| == 0 then [] else [PyRepr(args[0])] + ReprAll(args[1..])
  }

  /** Python's `str` of a list of arguments: reprs separated by ", "
      between brackets. */
  function ListStr(args: seq<Value>): (r: string)
    ensures |r| >= 2 && r[0] == '[' && r[|r| - 1] == ']'
    ensures r[1..|r| - 1] == Join(", ", ReprAll(args))
  {
    "[" + ReprList(args) + "]"
  }

  /** When no argument's `repr` contains a comma, splitting the inside of
      the list's `str` at commas yields one piece per argument: the first
      argument's `repr`, then every later one's after a space. */
  lemma ListStrRecoversArguments(args: seq<Value>)
    requires |args| > 0
    requires forall k :: 0 <= k < |args| ==> ',' !in PyRepr(args[k])
    ensures var r := ListStr(args);
            var pieces := Split(r[1..|r| - 1], ',');
            && |pieces| == |args|
            && pieces[0] == PyRepr(args[0])
            && forall k :: 1 <= k < |args| ==> pieces[k] == " " + PyRepr(args[k])
  {
    var reprs := ReprAll(args);
    var parts := [reprs[0]] + Prefixed(" ", reprs[1..]);
    JoinCommaSpace(reprs);
    forall k | 0 <= k < |parts| ensures ',' !in parts[k] {
      if k > 0 {
        assert parts[k] == " " + reprs[k];
      }
    }
    SplitJoin(parts, ',');
    forall k | 1 <= k < |args| ensures parts[k] == " " + PyRepr(args[k]) {
      assert parts[k] == Prefixed(" ", reprs[1..])[k - 1];
    }
  }

  // The messages of the Python exceptions the engine lets escape.

  const IndexOutOfRange := "list index out of range"
  const StringIndexOutOfRange := "string index out of range"
  const NoneHasNoSplit := "'NoneType' object has no attribute 'split'"
  const NoneHasNoStrip := "'NoneType' object has no attribute 'strip'"
}

=== FILE: wrappers.dfy ===
/** Failure-carrying datatypes used throughout the model.
    - Option<T> stands for a Python value that may be `None`.
    - Result<T, E> stands for a computation that either returns normally or
      raises an exception whose rendered message is the error value.
 */
module Wrappers {

  datatype Option<+T> = None | Some(value: T) {
    function GetOr(default: T): T {
      match this
      case Some(v) => v
      case None => default
    }
  }

  datatype Result<+T, +E> = Ok(value: T) | Err(error: E)
}
